=== FILE: README.md ===
# daml-dit-if runtime core in Dafny

This project models the runtime of the DABL integration framework. The runtime sits between an integration's handlers and the outside world:

- the bounded deferral queue through which every handler call passes;
- the handler invocation wrapper and its usage counters;
- the three handler registries: named internal queues, ledger events with their start-up sweeps, and webhook routes;
- the authorization pipeline for webhook requests, together with the ledger-claim accessors and the JWK key-set cache;
- template qualification;
- the log level and the environment-driven configuration;
- metadata normalisation, the party fallback and entry-point symbols;
- integration-type selection and start-up;
- the life cycle and status of the integration context;
- the HTTP control endpoint;
- the spec and `is_true` helpers of the shared API package.

Everything is modelled as pure functions over immutable state records.

- A Python exception is `Basics.Failure`:
  - `Raise(message)` is an ordinary exception a caller may catch;
  - `Fatal(message)` stands for the runtime's `FAIL`, which logs and then calls `sys.exit(9)`.
- Calls into libraries the model cannot see become parameters:
  - dazl's ledger client (`submit`, `find_active`, `ready`, name parsing);
  - jwcrypto's key parsing and token decoding;
  - aiohttp's HTTP fetch;
  - YAML/dacite decoding;
  - `import_module`.
- Each such parameter is either a function or an outcome datatype (`SubmitOutcome`, `DecodeOutcome`, `FetchOutcome`, `LoadOracles`, ...).
- Clock readings (`Time`) and the environment (`Config.Environment`, a map) are parameters too.
- Where the source has a defect (see Findings), the affected members take a `Basics.Reading`. `AsWritten` follows the code as it stands, and `Corrected` follows the evidently intended behaviour. Lemmas relate the two readings.

Module layout follows the source:

| Dafny module | source |
|---|---|
| `Basics`, `Text` | shared wrappers; Python string and integer builtins |
| `DeferralQueue`, `Work` | `integration_deferral_queue.py`; the entries the contexts put on it |
| `Invocation` | `common.py` |
| `QueueContext`, `LedgerContext`, `WebhookContext` | the three handler registries |
| `AuthHandler`, `AuthAccessors`, `Jwks` | `auth_handler.py`, `auth_accessors.py`, `jwt.py` |
| `Api` | `daml_dit_if/api/__init__.py` and `daml_dit_if/api/common.py` |
| `Log`, `Config`, `Util` | `log.py`, `config.py`, `util.py` |
| `IntegrationContext` | `integration_context.py` |
| `PackageMetadata` | `package_metadata_introspection.py` |
| `Startup` | `main.py` |
| `Web` | `web.py` |
| `DitApi` | `daml_dit_api/__init__.py` |

## Model

| member | source | states |
|---|---|---|
| DeferralQueue.Create | daml_dit_if/main/integration_deferral_queue.py:24-30 | both counters start at zero, the queue is empty, and a capacity of 0 or less never fills |
| DeferralQueue.Put | daml_dit_if/main/integration_deferral_queue.py:32-43 | every put counts one event, an overflowing one included; a non-full queue gets the entry at its tail with the skip count unchanged; a full queue keeps its contents, counts one skip and reports the overflow; the capacity bound is kept |
| DeferralQueue.GetStatus | daml_dit_if/main/integration_deferral_queue.py:45-50 | reports the capacity, the current length and both counters unchanged |
| DeferralQueue.WorkerStep | daml_dit_if/main/integration_deferral_queue.py:52-65 | the worker takes the head entry, or nothing from an empty queue, and keeps the bound |
| DeferralQueue.WorkerIgnoresFailure | daml_dit_if/main/integration_deferral_queue.py:58-65 | an action that raises leaves the queue and its counters exactly as one that completes |
| DeferralQueue.Run | daml_dit_if/main/integration_deferral_queue.py:32-65 | every put is either accepted or rejected, and the worker runs no more entries than were waiting or accepted |
| DeferralQueue.RunIsFifo | daml_dit_if/main/integration_deferral_queue.py:32-65 | over any interleaving of puts and worker steps, the entries run in the order they were accepted; every put is counted and every overflow is skipped; the accepted entries are the offered ones in offer order |
| DeferralQueue.RunOrder | daml_dit_if/main/integration_deferral_queue.py:38-60 | the entries waiting plus the entries accepted are exactly the entries run followed by those still waiting |
| DeferralQueue.RunCounters | daml_dit_if/main/integration_deferral_queue.py:32-43 | the capacity is kept, every put attempt is counted, the skip counter grows by the overflows, and the bound holds |
| DeferralQueue.RunAcceptsOffered | daml_dit_if/main/integration_deferral_queue.py:36-43 | the accepted entries are the offered ones, in offer order, with the overflows left out |
| DeferralQueue.UnboundedAcceptsAll | daml_dit_if/main/integration_deferral_queue.py:29-43 | with a non-positive capacity no put is ever rejected |
| Work.Post | daml_dit_if/main/integration_deferral_queue.py:32-43 | a producer's put fails exactly when the queue was full, and the failure is the re-raised `QueueFull` |
| Invocation.NewStatus | daml_dit_if/main/common.py:26-34 | a new status has its index and label and zeroed counters |
| Invocation.NormalizeKeepsCommands | daml_dit_if/main/common.py:54-89 | for every return value, the commands submitted are exactly those the handler returned, with none dropped, added or reordered; normalising a normalised response changes nothing |
| Invocation.Normalize | daml_dit_if/main/common.py:54-71 | a response object passes unchanged; a sequence becomes the command list verbatim, empty included; a truthy object becomes a one-command list; a falsy one becomes the default empty response |
| Invocation.CommandsToSubmit | daml_dit_if/main/common.py:85-89 | a submission happens only for a present, non-empty command list |
| Invocation.Invoke | daml_dit_if/main/common.py:74-104 | one use is counted whatever happens; commands are counted before submission; a handler or submission `Exception` counts one error, records the repr and the time, and returns nothing; a `BaseException` outside `Exception` propagates with the error fields untouched; success returns the normalised response with the error fields untouched |
| Invocation.OnlyExceptionsCounted | daml_dit_if/main/common.py:98-102 | `except Exception` counts and swallows an ordinary exception, while a `BaseException` outside it (`SystemExit` from `FAIL`, `CancelledError`) propagates with only the use counted |
| Invocation.InvokeAllCounts | daml_dit_if/main/common.py:74-104 | over any series of calls: uses equal calls, errors equal failed calls, commands add up, identity is kept |
| Invocation.ThreeFailures | daml_dit_if/main/common.py:98-102 | three raising calls give three uses, three errors and the last call's time |
| Invocation.WithMarshalling | daml_dit_if/main/common.py:45-51 | the wrapped handler applies the handler to the marshalled argument |
| Invocation.WithoutReturnValue | daml_dit_if/main/common.py:36-42 | the wrapped handler keeps the handler's effect and drops its result |
| QueueContext.Create | daml_dit_if/main/integration_queue_context.py:55-59 | the registry starts empty and valid |
| QueueContext.Message | daml_dit_if/main/integration_queue_context.py:61-89 | registering a taken name fails with "Duplicate queue name" and changes nothing; a new name gets index = prior count and zeroed counters |
| QueueContext.MessagePreservesValid | daml_dit_if/main/integration_queue_context.py:61-89 | registration keeps names unique and indices positional |
| QueueContext.SinkPut | daml_dit_if/main/integration_queue_context.py:39-51 | an unknown name fails with "Unknown queue" and enqueues nothing; a known name enqueues exactly one call of that queue's handler, and an overflow reaches the caller |
| QueueContext.SinkSeesLaterRegistration | daml_dit_if/main/integration_queue_context.py:55-59 | the sink shares the registry, so a queue registered after the sink was made is found |
| QueueContext.RunMessage | daml_dit_if/main/integration_queue_context.py:80-84 | running a message call updates only the named queue's status, through the invocation wrapper |
| QueueContext.GetStatus | daml_dit_if/main/integration_queue_context.py:91-93 | the stored status records themselves, one per registered queue, in registration order |
| QueueContext.StatusReportsRun | daml_dit_if/main/integration_queue_context.py:91-93 | after the worker runs a message call, the report shows that invocation on the named queue's entry and the other entries unchanged |
| LedgerContext.Create | daml_dit_if/main/integration_ledger_context.py:59-70 | the registry starts empty and valid |
| LedgerContext.LedgerInit | daml_dit_if/main/integration_ledger_context.py:135-148 | adds one handler status (sweep off, flow on) and one init handler |
| LedgerContext.LedgerReady | daml_dit_if/main/integration_ledger_context.py:150-163 | adds one handler status (sweep off, flow on) and one ready handler |
| LedgerContext.TransactionStartHandler | daml_dit_if/main/integration_ledger_context.py:165-187 | adds one handler status and one transaction-start subscription |
| LedgerContext.TransactionEndHandler | daml_dit_if/main/integration_ledger_context.py:189-212 | adds one handler status and one transaction-end subscription |
| LedgerContext.RegisteredTemplate | daml_dit_if/main/integration_ledger_context.py:218-221 | with package defaulting the template goes through `ensure_package_id`, otherwise it is unchanged |
| LedgerContext.ContractCreated | daml_dit_if/main/integration_ledger_context.py:214-245 | records the caller's flags; adds a sweep entry iff sweep is set and a subscription iff flow is set |
| LedgerContext.ContractArchived | daml_dit_if/main/integration_ledger_context.py:247-276 | adds one handler status (sweep off, flow on) and one archive subscription |
| LedgerContext.Register | daml_dit_if/main/integration_ledger_context.py:135-276 | only a contract-created or contract-archived registration can fail; a successful one appends exactly one handler status and keeps the earlier ones |
| LedgerContext.RegisterPreservesValid | daml_dit_if/main/integration_ledger_context.py:72-89 | every registration appends one status with index = prior count and zeroed counters, and keeps the registry valid |
| LedgerContext.SilentRegistrationUnreachable | daml_dit_if/main/integration_ledger_context.py:235-241 | a created-contract handler with sweep and flow both off is never referenced by a sweep or subscription |
| LedgerContext.ToIntCreateEvent | daml_dit_if/main/integration_ledger_context.py:129-133 | a flow create carries the id and data and is not initial |
| LedgerContext.ToIntArchiveEvent | daml_dit_if/main/integration_ledger_context.py:260-262 | an archive carries only the contract id |
| LedgerContext.ToIntTransactionStartEventAsWritten | daml_dit_if/main/integration_ledger_context.py:165-174 | as written, the start marshaller yields an end-of-transaction event that differs from the start event only in its boundary |
| LedgerContext.ToIntTransactionEvent | daml_dit_if/main/integration_ledger_context.py:165-212 | a boundary event of the requested kind with the ids kept and every contained create non-initial |
| LedgerContext.TransactionStartMarshalledAsEnd | daml_dit_if/main/integration_ledger_context.py:168-173 | the start marshaller as written yields an end event |
| LedgerContext.Marshal | daml_dit_if/main/integration_ledger_context.py:129-276 | a subscription accepts exactly its own event kind. A flow create becomes `_to_int_create_event` of the contract and an archive keeps only the contract id. A transaction end becomes an end event, with the ids kept and every contract event a non-initial create. A transaction start becomes an end event as written and a start event when corrected |
| LedgerContext.MarshalReadingsDifferOnlyOnStart | daml_dit_if/main/integration_ledger_context.py:165-212 | the two readings agree on every subscription and event except a transaction start, where the code as written delivers an end event that differs from the corrected start event only in its class |
| LedgerContext.Deliver | daml_dit_if/main/integration_ledger_context.py:117-127 | under either reading, a delivered event is deferred as exactly one queue entry for the subscribed handler, or as nothing for a mismatched event; an overflow reaches the dazl client |
| LedgerContext.SweepCalls | daml_dit_if/main/integration_ledger_context.py:97-108 | one initial create per active contract, per sweep in registration order, owned by the sweep's handler |
| LedgerContext.SweepCallsPositions | daml_dit_if/main/integration_ledger_context.py:97-108 | the j-th active contract of the k-th sweep sits right after the contracts of the earlier sweeps, as an initial create with its cid and payload, run by that sweep's handler |
| LedgerContext.SweepPlan | daml_dit_if/main/integration_ledger_context.py:91-115 | the plan holds one call per init handler, one per swept contract and one per ready handler; the init calls come first and the ready calls last |
| LedgerContext.SweepPlanContents | daml_dit_if/main/integration_ledger_context.py:94-113 | position by position: the i-th init handler, then each sweep's contracts in sweep order with their handler, then the i-th ready handler |
| LedgerContext.SweepsCountedAttempted | daml_dit_if/main/integration_ledger_context.py:100-108 | `sweep_events` counts exactly the sweep entries among the calls attempted so far |
| LedgerContext.SweepPlanOrdered | daml_dit_if/main/integration_ledger_context.py:94-113 | the sweep plan runs all init handlers, then the sweep contracts, then all ready handlers |
| LedgerContext.SweepPlanOwnersRegistered | daml_dit_if/main/integration_ledger_context.py:91-115 | every planned call belongs to a registered handler |
| LedgerContext.PutAll | daml_dit_if/main/integration_ledger_context.py:117-127 | puts stop at the first overflow, having enqueued exactly a prefix of the calls; an overflow happens iff a bounded queue lacks room for all of them, and then the queue is full, with exactly the free slots filled; every attempt is counted and the one overflow skipped |
| LedgerContext.ProcessSweeps | daml_dit_if/main/integration_ledger_context.py:91-115 | on success the whole plan is queued and `sweep_events` grows by the number of active contracts; an overflow stops it with `QueueFull` after a proper prefix, and `sweep_events` has then grown by exactly the sweep entries up to and including the rejected call; nothing but `sweep_events` changes; it fails iff a bounded queue lacks room for the whole plan, leaving the queue full; the capacity is kept, every attempted put is counted and the one overflow skipped |
| IntegrationContext.StartsIffRoom | daml_dit_if/main/integration_context.py:247-256 | a start whose client became ready succeeds iff the plan is empty, the queue is unbounded, or it has room for the whole plan |
| LedgerContext.RunHandler | daml_dit_if/main/integration_ledger_context.py:117-127 | running a deferred call updates only that handler's status |
| LedgerContext.RunHandlerPreservesValid | daml_dit_if/main/integration_ledger_context.py:117-127 | running a handler keeps the registry valid |
| LedgerContext.GetStatus | daml_dit_if/main/integration_ledger_context.py:278-282 | the pending count is the shared queue's; sweep count and handlers as recorded |
| WebhookContext.GetHttpResponse | daml_dit_if/main/integration_webhook_context.py:36-73 | a raw response wins; then JSON whenever the field is not None; then text, then blob, each with content type and status; otherwise plain OK |
| WebhookContext.DefaultsReachJsonBranch | daml_dit_if/main/integration_webhook_context.py:44-49 | because the JSON field defaults to `sentinel`, a default response takes the JSON branch, and text or blob is reached only with JSON explicitly None |
| WebhookContext.UrlPath | daml_dit_if/main/integration_webhook_context.py:113-114 | the path is the integration prefix followed by the suffix; no suffix gives the bare prefix |
| WebhookContext.NoticeHookRoute | daml_dit_if/main/integration_webhook_context.py:92-111 | appends one status with index = prior count and zeroed counters |
| WebhookContext.Create | daml_dit_if/main/integration_webhook_context.py:78-83 | a new context has no route statuses and an empty route table, and is valid |
| WebhookContext.Register | daml_dit_if/main/integration_webhook_context.py:116-146 | one status and one route-table entry whose handler carries the declared level |
| WebhookContext.Post | daml_dit_if/main/integration_webhook_context.py:116-130 | a `post` route, public by default |
| WebhookContext.Get | daml_dit_if/main/integration_webhook_context.py:132-146 | a `get` route, public by default |
| WebhookContext.RegisterPreservesValid | daml_dit_if/main/integration_webhook_context.py:116-146 | registration keeps every table entry pointing at a status of its path and method; a route registered without a level is served as public |
| WebhookContext.HandleRequest | daml_dit_if/main/integration_webhook_context.py:84-90 | the route's handler is invoked through the wrapper and its response converted |
| WebhookContext.GetStatus | daml_dit_if/main/integration_webhook_context.py:148-149 | the stored route status records themselves, one per registered route, indexed by position |
| WebhookContext.StatusReportsRequest | daml_dit_if/main/integration_webhook_context.py:148-149 | after a request is handled, the report shows that invocation on the route's entry, with its path and method, and the other entries unchanged |
| AuthHandler.SetHandlerAuth | daml_dit_if/main/auth_handler.py:34-40 | the handler carries the given level |
| AuthHandler.GetHandlerAuthLevel | daml_dit_if/main/auth_handler.py:51-52 | an unmarked handler counts as public |
| AuthHandler.UnvalidatedGetToken | daml_dit_if/main/auth_handler.py:55-71 | a header is accepted iff its text up to the first space is `Bearer` and a non-empty rest follows, and that rest is the token; otherwise 401 `invalid_auth_scheme`; without a header a non-empty query token is used, whatever the method |
| AuthHandler.BearerHeaderPartition | daml_dit_if/main/auth_handler.py:57-64 | a well-formed bearer header partitions at its first space into the scheme and the token |
| AuthHandler.BearerTokenRoundTrip | daml_dit_if/main/auth_handler.py:57-64 | any non-empty token sent as `Bearer <token>` comes back unchanged |
| AuthHandler.LowerCaseSchemeRejected | daml_dit_if/main/auth_handler.py:59 | the scheme comparison is case-sensitive: `bearer` is rejected |
| AuthHandler.AuthMiddleware | daml_dit_if/main/auth_handler.py:83-131 | a request passes iff it is admitted; a public route passes with nothing attached; an exception escapes only from a configured decoder given a presented token |
| AuthHandler.PassThroughIffAdmitted | daml_dit_if/main/auth_handler.py:83-131 | a request reaches the handler exactly when it is public, or when a token decodes to claims for this ledger and the level's party check passes; only the ledger claims are attached |
| AuthHandler.RejectionOrder | daml_dit_if/main/auth_handler.py:90-126 | for a protected route the checks run in the fixed order: no decoder, then a malformed header, then a missing token, then an invalid token (403), then missing ledger claims, then an unauthorized party; other decoder exceptions escape |
| AuthHandler.AnyPartyNeedsNoParty | daml_dit_if/main/auth_handler.py:111-126 | an any-party route needs only matching ledger claims |
| AuthAccessors.GetConfiguredIntegrationLedgerClaims | daml_dit_if/main/auth_accessors.py:15-38 | claims are read from the ledger-API key and returned only when their ledger id (placeholder when missing) is the configured one |
| AuthAccessors.MissingLedgerIdMatchesOnlyPlaceholder | daml_dit_if/main/auth_accessors.py:32-38 | claims without a ledger id match only a ledger configured as `missing-ledger-id-claim` |
| AuthAccessors.IsIntegrationPartyLedgerClaim | daml_dit_if/main/auth_accessors.py:41-56 | false without a configured party; otherwise true iff the party is in both lists, missing lists counting as empty |
| AuthAccessors.Intersection | daml_dit_if/main/auth_accessors.py:76-84 | membership iff in both lists, and no duplicates |
| AuthAccessors.GetRequestParties | daml_dit_if/main/auth_accessors.py:59-84 | nothing attached gives no parties; otherwise the duplicate-free intersection of `readAs` and `actAs` |
| AuthAccessors.GetSingleRequestParty | daml_dit_if/main/auth_accessors.py:87-104 | no party gives None, one gives that party, more than one raises |
| AuthAccessors.SingleRequestPartyIsTheCommonParty | daml_dit_if/main/auth_accessors.py:87-104 | a returned party acts and reads for the request |
| Jwks.MergeEntriesAsWritten | daml_dit_if/main/jwt.py:109-121 | as written, the loop over one response's keys only appends. It adds every parseable key whose kid is outside the snapshot, so the kids become the old ones plus the addable kids outside the snapshot |
| Jwks.MergeEntriesAsWrittenAppends | daml_dit_if/main/jwt.py:109-121 | every appended key is the parsed key of an entry that has a kid outside the snapshot, and each such kid is appended exactly as many times as it appears among the response's addable entries |
| Jwks.MergeResponseAsWritten | daml_dit_if/main/jwt.py:108-121 | one response's keys are added after the existing ones, skipping only kids known before the response; the kids become the old ones plus every addable kid; each appended key comes from an entry of the response, and a new kid is appended once per addable entry that carries it |
| Jwks.DuplicateKidWithinResponse | daml_dit_if/main/jwt.py:108-121 | a response naming one kid twice makes the as-written merge hold that kid twice, where the corrected merge holds it once |
| Jwks.MergeEntries | daml_dit_if/main/jwt.py:108-121 | keys are only appended; the kids become the old ones plus every addable kid; nothing without a kid is added; unique kids stay unique |
| Jwks.MergeResponse | daml_dit_if/main/jwt.py:100-121 | under either reading, a response's keys are appended and the kids grow by exactly the addable kids; only the corrected reading keeps kids unique |
| Jwks.LoadNewKeys | daml_dit_if/main/jwt.py:73-143 | a refresh never removes or reorders keys, under either reading; the corrected reading also keeps kids unique |
| Jwks.RefreshAsWrittenDuplicatesKid | daml_dit_if/main/jwt.py:108-121 | a response listing one new kid twice leaves two keys with that kid as written, and one key when corrected |
| Jwks.LoadNewKeysReadingsSameKids | daml_dit_if/main/jwt.py:73-143 | both readings end a refresh knowing the same kids, so they differ only in duplicates |
| Jwks.LoadNewKeysKids | daml_dit_if/main/jwt.py:73-143 | under either reading, after a refresh the kids are the old ones plus every addable kid of every successful response; failed fetches and key-less responses add nothing |
| Jwks.LoadNewKeysAppend | daml_dit_if/main/jwt.py:76-143 | under either reading, URLs are processed in order: refreshing from two lists in turn gives the same cache as refreshing from their concatenation |
| Jwks.Lookup | daml_dit_if/main/jwt.py:60 | a kid is found iff some cached key has it |
| Jwks.LookupStableUnderGrowth | daml_dit_if/main/jwt.py:60-65 | a key once found is still the one found after the set grows (under the insertion order the model fixes) |
| Jwks.LookupUniqueKey | daml_dit_if/main/jwt.py:60-65 | when kids are unique, the key found for a kid is the one key with that kid, whatever the order |
| Jwks.GetKey | daml_dit_if/main/jwt.py:53-65 | a cached kid is answered without a refresh; an unknown one triggers exactly one refresh under the given reading, then gives the key or None |
| Jwks.GetKeyThenCached | daml_dit_if/main/jwt.py:53-65 | a key obtained by a refresh is answered from the cache next time |
| Api.DefaultResponse | daml_dit_if/api/__init__.py:31-38 | an empty command list and a timeout of 5 |
| Api.DefaultWebhookResponse | daml_dit_if/api/__init__.py:215-230 | no raw, text, blob or content type; JSON is `sentinel`, not None; status 200 |
| Api.AuthorizationCodesDistinct | daml_dit_if/api/__init__.py:233-236 | the three levels have three distinct codes |
| Api.EnsurePackageId | daml_dit_if/api/common.py:9-22 | the wildcard and qualified templates pass unchanged; an unqualified one is prefixed with the main package id, or raises without a model |
| Api.EnsurePackageIdIdempotent | daml_dit_if/api/common.py:9-22 | qualifying a qualified template changes nothing |
| Api.Tid | daml_dit_if/api/__init__.py:284-291 | `tid` is `ensure_package_id` with the environment's model |
| Log.Initial | daml_dit_if/main/log.py:12 | the level starts at 0, with debug off |
| Log.SetLogLevel | daml_dit_if/main/log.py:45-66 | a level outside [0, 50] is fatal; otherwise it is stored and the four loggers switch to debug at 10, 20, 40 and 40 |
| Log.SetLevelReadBack | daml_dit_if/main/log.py:35-42 | any level in [0, 50] can be set, `get_log_level` reads it back, and `is_debug_enabled` holds exactly from 20 up |
| Log.DebugEnabledMatchesFrameworkLogger | daml_dit_if/main/log.py:41-42 | debug is enabled iff the framework logger is at debug |
| Log.HigherLevelsLogMore | daml_dit_if/main/log.py:54-64 | raising the level never turns a logger's debug off |
| Log.LogLevelOptions | daml_dit_if/main/log.py:69-75 | exactly the four entries Runtime 0, Low 10, High 20 and All 50, ascending and in range |
| Log.OptionsAreSettable | daml_dit_if/main/log.py:69-75 | every offered option can be set |
| Config.Optenv | daml_dit_if/main/config.py:19-24 | the raw value, possibly absent or empty |
| Config.Env | daml_dit_if/main/config.py:27-38 | a set, non-empty value; else the default; with no default, fatal |
| Config.EnvOr | daml_dit_if/main/config.py:27-35 | with a default, `env` cannot fail |
| Config.EnvInt | daml_dit_if/main/config.py:41-47 | the value or the default is parsed as an integer; a non-integer is fatal |
| Config.EnvIntDefault | daml_dit_if/main/config.py:41-47 | an unset variable yields the default integer back |
| Config.GetDefaultConfig | daml_dit_if/main/config.py:49-61 | each field, the health port and log level included, from its variable with the documented defaults; it fails, fatally, iff one of the two integers does not parse |
| Config.EmptyEnvironmentDefaults | daml_dit_if/main/config.py:49-57 | an empty environment gives port 8089, `http://localhost:6865`, `cloudbox`, `int_args.yaml` and level 0 |
| Config.EmptyValueFallsBack | daml_dit_if/main/config.py:32-35 | an empty value counts as unset |
| Util.IsTrue | daml_dit_if/main/util.py:6-10 | None is false; a true result is one of five short tokens |
| Util.IsTrueExamples | daml_dit_if/main/util.py:10 | case is ignored and nothing is trimmed: `TRUE` and `Yes` hold, ` true` does not |
| DitApi.IsTrueAgrees | daml_dit_api/__init__.py:334-338 | the API package's case-insensitive token match agrees with the runtime's `is_true` on every input |
| DitApi.NewSpec | daml_dit_api/__init__.py:305-312 | the declared runtime default is `python-file` |
| DitApi.FromDict | daml_dit_api/__init__.py:314-328 | a missing key reads as None |
| DitApi.FromDictReadsOnlySpecKeys | daml_dit_api/__init__.py:314-328 | only the six keys are read |
| DitApi.ToDict | daml_dit_api/__init__.py:330-331 | exactly the six keys |
| DitApi.FromDictToDict | daml_dit_api/__init__.py:314-331 | every spec survives a trip through its dictionary |
| DitApi.ToDictFromDict | daml_dit_api/__init__.py:314-331 | a dictionary comes back restricted to the six keys, missing ones as None |
| DitApi.MissingRuntimeIsNotDefault | daml_dit_api/__init__.py:312-328 | without a `runtime` key the runtime is None, not `python-file` |
| DitApi.DefaultDitResponse | daml_dit_api/__init__.py:78-84 | the default response has an empty command list |
| PackageMetadata.MetadataText | daml_dit_if/main/package_metadata_introspection.py:43 | the packaged metadata is preferred; the local file is used when that is missing or empty |
| PackageMetadata.GetPackageMetadata | daml_dit_if/main/package_metadata_introspection.py:42-50 | the chosen text is decoded; with neither source it raises |
| PackageMetadata.PackagedMetadataWins | daml_dit_if/main/package_metadata_introspection.py:43 | when the packaged metadata has text, the local file does not affect the result |
| PackageMetadata.EmptyMetadataIsMissing | daml_dit_if/main/package_metadata_introspection.py:43-50 | for either source, an empty text and a failed read give the same result |
| PackageMetadata.PackageItypes | daml_dit_if/main/package_metadata_introspection.py:56-58 | a non-empty `integration_types`, else `integrations`, else nothing |
| PackageMetadata.IndexByIdHasAll | daml_dit_if/main/package_metadata_introspection.py:60 | every declared id is a key |
| PackageMetadata.IndexByIdLastWins | daml_dit_if/main/package_metadata_introspection.py:60 | every key is a declared id and maps to its last declaration |
| PackageMetadata.IndexByIdCorrect | daml_dit_if/main/package_metadata_introspection.py:60 | both halves for every key |
| PackageMetadata.IntegrationTypes | daml_dit_if/main/main.py:110-116 | the types by id: every declared one found, each found one declared under its own id |
| PackageMetadata.DistinctIdsAllFound | daml_dit_if/main/package_metadata_introspection.py:53-60 | with distinct ids each type is found under its id |
| PackageMetadata.DeprecatedListUsed | daml_dit_if/main/package_metadata_introspection.py:56-58 | a missing or empty current list falls back to the deprecated one |
| IntegrationContext.NormalizeMetadata | daml_dit_if/main/integration_context.py:75-90 | the same keys, and every value is the original with its leading and trailing whitespace removed (`str.strip`) |
| Text.Strip | daml_dit_if/main/integration_context.py:79 | `str.strip()`: the result is a slice of the value with only white space cut off either end and none left at either end |
| Text.StripUnique | daml_dit_if/main/integration_context.py:79 | any slice with those two properties is the result of `Strip`, so the contract pins `str.strip()` down |
| IntegrationContext.NormalizeMetadataIdempotent | daml_dit_if/main/integration_context.py:75-90 | normalising twice is normalising once |
| IntegrationContext.NormalizeMetadataIgnoresType | daml_dit_if/main/integration_context.py:86-88 | the field types do not affect the result |
| IntegrationContext.ParseQualifiedSymbol | daml_dit_if/main/integration_context.py:96-114 | exactly one colon splits module and symbol, and the module must import; a malformed symbol, a failing import or a missing module is fatal |
| IntegrationContext.ParseQualifiedSymbolRoundTrip | daml_dit_if/main/integration_context.py:96-114 | `module:symbol` parses back into its two parts |
| IntegrationContext.MalformedSymbolIsFatal | daml_dit_if/main/integration_context.py:98-101 | zero or several colons give the malformed-symbol failure |
| IntegrationContext.PartyFallback | daml_dit_if/main/integration_context.py:152-170 | a truthy configured party is kept; otherwise the common slot, then the integration slot, an empty first slot falling through; only a missing result is fatal |
| IntegrationContext.EmptySecondSlotAccepted | daml_dit_if/main/integration_context.py:165-170 | an empty integration slot is accepted as the party |
| IntegrationContext.Create | daml_dit_if/main/integration_context.py:119-150 | only the party fallback can fail; the integration starts not running, error-free and without contexts |
| IntegrationContext.EnvironmentData | daml_dit_if/main/integration_context.py:218-223 | the metadata keys plus `queue`, `party` and `daml_model` |
| IntegrationContext.RuntimeEntriesWin | daml_dit_if/main/integration_context.py:218-223 | the three runtime entries override metadata fields of the same name |
| IntegrationContext.ExceptionOf | daml_dit_if/main/log.py:18-21 | a `FAIL` surfaces as `SystemExit(9)` |
| IntegrationContext.ResolveSymbol | daml_dit_if/main/integration_context.py:172-189 | a symbol failure surfaces as its exception |
| IntegrationContext.EnvClass | daml_dit_if/main/integration_context.py:180-189 | no declared class means the framework's environment class |
| IntegrationContext.LoadSteps | daml_dit_if/main/integration_context.py:192-244 | a load that stops before the contexts exist stops with an exception |
| IntegrationContext.SafeLoad | daml_dit_if/main/integration_context.py:274-283 | never fails; an exception is recorded as `repr - str` with the time; success marks the integration loaded; contexts created before a later failure stay |
| IntegrationContext.MalformedEntryPointRecorded | daml_dit_if/main/integration_context.py:98-101 | a malformed entry point is caught by `safe_load` and recorded as `SystemExit(9) - 9` |
| IntegrationContext.SafeStart | daml_dit_if/main/integration_context.py:247-256 | running becomes true only after the client is ready and the sweeps were all queued; any exception is recorded instead |
| IntegrationContext.StartQueuesSweepPlan | daml_dit_if/main/integration_context.py:247-256 | a successful start has queued the whole sweep plan after the earlier entries |
| IntegrationContext.UnboundedQueueStarts | daml_dit_if/main/integration_context.py:247-256 | with an unbounded queue a ready client always starts the integration |
| IntegrationContext.GetStatus | daml_dit_if/main/integration_context.py:259-272 | pending events are the queue's length; each present context reports its own `get_status()`, and absent ones report nothing |
| IntegrationContext.FailedLoadStatus | daml_dit_if/main/integration_context.py:259-283 | a load failing before the contexts exist shows the error and no handlers |
| Startup.ResolveTypeId | daml_dit_if/main/main.py:137-143 | the configured type id if truthy, else the spec's when there is a spec |
| Startup.ConfiguredTypeIdWins | daml_dit_if/main/main.py:137-143 | the spec's id is used only when the environment gives none or an empty one |
| Startup.AioMain | daml_dit_if/main/main.py:76-107 | only the party fallback can fail; the result is whether loading succeeded |
| Startup.Launch | daml_dit_if/main/main.py:134-166 | no type id raises; an unknown type is fatal; success means a spec existed, the type was declared and loading succeeded; the spec is given as read (see "## Left out") |
| Startup.Main | daml_dit_if/main/main.py:119-166 | start-up succeeds exactly when the configuration, the log level, the metadata and the launch all succeed, with the spec given as read (see "## Left out") |
| Startup.MissingTypeIdRaises | daml_dit_if/main/main.py:145-149 | without a type id anywhere start-up raises |
| Web.StatusPayload | daml_dit_if/main/web.py:27-33 | the integration status, the log level, exactly the options `get_log_level_options` offers, and the request URL |
| Web.HealthPayload | daml_dit_if/main/web.py:35-41 | `/healthz` answers with the integration status, the current log level and the request URL as `_self` |
| Web.StartupEndpointAsWritten | daml_dit_if/main/main.py:92-103 | as written, the server listens on the health port and, since the context is not yet running when the routes are fixed, serves the control routes alone |
| Web.StartupEndpoint | daml_dit_if/main/main.py:92-103 | corrected: the server listens on the health port and always serves the control routes first; a start that fails serves nothing else |
| Web.HealthIsStatus | daml_dit_if/main/web.py:35-45 | the health and status routes answer with the same document |
| Web.PyInt | daml_dit_if/main/web.py:51 | integers pass, booleans become 0/1, text is parsed and None raises |
| Web.SetLevel | daml_dit_if/main/web.py:47-53 | a missing key or unconvertible value raises; an out-of-range level is fatal; otherwise the level is set and the body echoed |
| Web.SetLevelFromText | daml_dit_if/main/web.py:47-53 | a level sent as decimal text is the level set |
| Web.OfferedOptionsAccepted | daml_dit_if/main/web.py:27-53 | each offered option can be posted back |
| Web.AccessLogged | daml_dit_if/main/web.py:58-71 | unsuppressed routes are always logged; suppressed ones only at debug level |
| Web.WebhookRequestsLogged | daml_dit_if/main/web.py:58-71 | webhook paths are never suppressed |
| Web.PollingQuietByDefault | daml_dit_if/main/web.py:58-71 | status polling is not logged at the initial level |
| Web.StartWebEndpoint | daml_dit_if/main/web.py:74-96 | the control routes always; webhook routes only when running with a webhook context |
| Web.WebhooksNeverServedAsWritten | daml_dit_if/main/main.py:92-103 | even when the start succeeds, the endpoint as written serves the control routes alone, where routes fixed after the start add every webhook route |
| Web.StartedIntegrationServesWebhooks | daml_dit_if/main/web.py:83-84 | with routes fixed after the start step, a started integration serves every webhook route and a failed start serves none |

## Left out

- The time context (`integration_time_context.py`): its point is concurrent waiting. Its worker never submits commands, because the wrapped handler goes through `without_return_value`. The status therefore reports `timers` as empty.
- Forever loops and scheduling: the deferral worker loop, JWKS polling, the web server and `asyncio.gather`. The model covers single steps, and `DeferralQueue.Run` covers finite interleavings. No liveness is claimed.
- Foreign calls are oracles, so their behaviour is not modelled:
  - dazl (`submit`, `find_active`, subscriptions, `ready`, name parsing);
  - aiohttp (server, fetch, `json_response`);
  - jwcrypto (signature checking, JWK parsing);
  - YAML/dacite decoding;
  - `import_module` and `getattr`;
  - file and zip reads;
  - logging output.
- Several call sites do not match the definitions they call. Each function is modelled by its own definition:
  - `queue.put` is called with one argument;
  - `qsize()` is called on the deferral queue;
  - `config.queue_size` is read, but `Configuration` has no such field, so the queue size is a parameter;
  - `load_integration_spec` reads `config.integration_spec_path`, but `Configuration` has no such field, so the spec file's contents are an input (`Startup.Inputs.spec`);
  - `get_package_metadata(config)` is called with an argument;
  - the time context is built with two arguments;
  - `PackageMetadata` declares no `daml_model`, though the runtime reads one;
  - status records are built without `label`/`error_time`.
- `METADATA_COMMON_RUN_AS_PARTY` and `IntegrationRuntimeSpec` are not part of this model. The common metadata key is a parameter. The spec is reduced to its type id and metadata.
- The HTTP error responses `unauthorized_response`/`forbidden_response` are not part of this model. They appear as 401 and 403 with the error code.
- Python details:
  - `Text.ParseInt` accepts only ASCII digits with an optional sign, with no `_` separators and no floats;
  - `Text.ToLower` folds ASCII letters only;
  - a `repr` of text is always single-quoted;
  - exception messages that interpolate list reprs are shortened.
- `WebhookContext.GetHttpResponse`: a swallowed handler error gives `None`, and a plain `IntegrationResponse` lacks the webhook fields. Both are outside its precondition, because the source does not define them.
- `LedgerContext.Deliver`: archive and transaction events are marshalled when queued rather than when run. Marshalling is pure, so the result is the same.
- `LedgerContext.Register`: a decorator's two phases are one step, and dazl's template and match filtering of events is not modelled.
- `Jwks.LoadNewKeys`: `jwks_urls` given as one string or as None is not modelled, and neither are key entries that are not dictionaries.
- `AuthAccessors.Intersection`: Python's set intersection has no defined order; the model keeps the last occurrence in `readAs` order.
- `IntegrationContext.SafeLoad`: registrations that the entry point performs while it runs are applied through each context's own registration functions. Loading creates the contexts empty.
- Jwks.Lookup: jwcrypto's `JWKSet` keeps its keys in a set with no defined order, while `Jwks.KeySet` is a sequence in insertion order. The choice matters only when two keys share a kid, which the as-written refresh can produce. `Jwks.Lookup`, `Jwks.GetKey` and `Jwks.LookupStableUnderGrowth` then return the first key inserted, where jwcrypto may return either. With unique kids, `Jwks.LookupUniqueKey` shows that the order does not matter.
- Startup.Main: as written, `main` reaches `load_integration_spec(config)` after loading the metadata, and that call raises `AttributeError` on the missing `integration_spec_path` field on every start-up. `Startup.Main` and `Startup.Launch` do not model that exception. They read the spec as if its path were configured, so their "exactly when" clauses describe start-up with that one field access repaired.
- Startup.Launch: the spec it checks is the `Startup.Inputs.spec` input, for the reason given for `Startup.Main`.
- `WebhookContext.HandleRequest`: an exception that escapes the wrapper (`Invocation.escaped`) gives no response here; how aiohttp answers it is not part of this model.
- `Web.PyInt`: floats in a request body are not modelled.

## Findings

| source | as written | input that shows it | evidently intended | confidence | as-written member | corrected member |
|---|---|---|---|---|---|---|
| daml_dit_if/main/integration_ledger_context.py:165-187 | `transaction_start` marshals each dazl event into `IntegrationLedgerTransactionEndEvent` | any transaction-start event | a start subscription receives `IntegrationLedgerTransactionStartEvent` | high, not executed | LedgerContext.TransactionStartMarshalledAsEnd | LedgerContext.ToIntTransactionEvent |
| daml_dit_if/main/jwt.py:108-121 | the kids to skip are captured once per URL, before that response's keys are added | one response holding two keys with the same `kid` | the key set holds each `kid` at most once | medium, not executed | Jwks.DuplicateKidWithinResponse | Jwks.MergeEntries |
| daml_dit_if/main/main.py:92-103 | `start_web_endpoint` reads `running` in its first step, and that step is scheduled before `safe_start` runs | any integration that registers a webhook route | the webhook routes are served once the integration is running | medium, not executed | Web.WebhooksNeverServedAsWritten | Web.StartedIntegrationServesWebhooks |

- The transaction-start marshaller is `LedgerContext.ToIntTransactionStartEventAsWritten`, and it is what `LedgerContext.Marshal` uses under `AsWritten`. Under `Corrected`, `LedgerContext.Marshal` uses `LedgerContext.ToIntTransactionEvent`.
- The as-written key merge is `Jwks.MergeResponseAsWritten`, and `Jwks.LoadNewKeys` uses it under `AsWritten`. Under `Corrected`, `Jwks.LoadNewKeys` uses `Jwks.MergeEntries`. `Jwks.RefreshAsWrittenDuplicatesKid` shows the difference at the level of a whole refresh.
- The as-written endpoint is `Web.StartupEndpointAsWritten`. The corrected `Web.StartupEndpoint` fixes the routes after `IntegrationContext.SafeStart`.

=== FILE: api.dfy ===
/** The public data types of the integration framework
    (`daml_dit_if/api/__init__.py`) and template-id qualification
    (`daml_dit_if/api/common.py`). */
module Api {
  import opened Basics

  /** An opaque ledger command (dazl `Command`). */
  datatype Command = Command(description: string)

  type ContractId = string

  /** Contract arguments (dazl `ContractData`), field name to rendered value. */
  type ContractData = map<string, string>

  /** The package part of a fully qualified template id. */
  datatype DamlModelInfo = DamlModelInfo(mainPackageId: string)

  /** JSON-serialisable data a handler hands back, kept as its rendering. */
  type JsonData = string

  /** The `json_response` field of a webhook response. Its default is
      aiohttp's `sentinel` object, which is distinct from `None`. */
  datatype JsonField = Sentinel | JsonNone | JsonValue(data: JsonData)

  /** A ready-made aiohttp `Response` object returned by a handler. */
  datatype RawResponse = RawResponse(status: int, body: seq<bv8>)

  /** `IntegrationResponse` and its subclass `IntegrationWebhookResponse`:
      the ledger commands to submit, the submission timeout in seconds, and
      for webhooks the HTTP response fields. */
  datatype IntegrationResponse =
    | IntegrationResponse(commands: Option<seq<Command>>, commandTimeout: int)
    | IntegrationWebhookResponse(
        commands: Option<seq<Command>>, commandTimeout: int,
        response: Option<RawResponse>, jsonResponse: JsonField,
        textResponse: Option<string>, blobResponse: Option<seq<bv8>>,
        httpContentType: Option<string>, httpStatus: int)

  /** `IntegrationResponse()` with every field defaulted. */
  function DefaultResponse(): (r: IntegrationResponse)
    ensures r.IntegrationResponse? && r.commands == Some([]) && r.commandTimeout == 5
  {
    IntegrationResponse(Some([]), 5)
  }

  /** `IntegrationWebhookResponse()` with every field defaulted. */
  function DefaultWebhookResponse(): (r: IntegrationResponse)
    ensures r.IntegrationWebhookResponse?
    ensures r.commands == Some([]) && r.commandTimeout == 5
    ensures r.response.None? && r.textResponse.None? && r.blobResponse.None?
    ensures r.httpContentType.None? && r.httpStatus == 200
    ensures r.jsonResponse == Sentinel && r.jsonResponse != JsonNone
  {
    IntegrationWebhookResponse(Some([]), 5, None, Sentinel, None, None, None, 200)
  }

  /** The authorization a webhook route demands (`AuthorizationLevel`). */
  datatype AuthorizationLevel = Public | AnyParty | IntegrationParty {
    /** The enum's value. */
    function Code(): string {
      match this
      case Public => "DABL_PUBLIC"
      case AnyParty => "DABL_ANY_PARTY"
      case IntegrationParty => "DABL_INTEGRATION_PARTY"
    }
  }

  /** The level a route gets when its registration names none. */
  const DefaultRouteAuth: AuthorizationLevel := Public

  /** The three levels have three distinct codes, so a code names its level. */
  lemma AuthorizationCodesDistinct(a: AuthorizationLevel, b: AuthorizationLevel)
    ensures a.Code() == b.Code() <==> a == b
  {
  }

  /** A contract event as an integration handler sees it. A create event
      says whether it comes from the start-up sweep (`initial`). */
  datatype ContractEvent =
    | CreateEvent(cid: ContractId, initial: bool, cdata: Option<ContractData>)
    | ArchiveEvent(cid: ContractId)

  /** The two transaction boundary event classes. */
  datatype Boundary = TransactionStart | TransactionEnd

  /** `IntegrationLedgerTransactionStartEvent` / `...EndEvent`. */
  datatype TransactionEvent = TransactionEvent(
    boundary: Boundary, commandId: string, workflowId: string,
    contractEvents: seq<ContractEvent>)

  function QualifyTemplate(model: DamlModelInfo, template: string): string {
    model.mainPackageId + ":" + template
  }

  /** `ensure_package_id(daml_model, template)`. `packageRef` stands for
      dazl's `package_ref(parse_type_con_name(.))`, which yields `"*"` for a
      template name that carries no package id. */
  function EnsurePackageId(model: Option<DamlModelInfo>, template: string,
                           packageRef: string -> string): (r: Result<string, Failure>)
    ensures r.Err? <==> template != "*" && packageRef(template) == "*" && model.None?
    ensures r.Err? ==> r.error.Raise?
    ensures template == "*" || packageRef(template) != "*" ==> r == Ok(template)
    ensures template != "*" && packageRef(template) == "*" && model.Some? ==>
              r == Ok(QualifyTemplate(model.value, template))
  {
    if template == "*" then Ok(template)
    else if packageRef(template) != "*" then Ok(template)
    else if model.None? then
      Err(Raise("No default model known when ensuring package ID: " + template))
    else Ok(QualifyTemplate(model.value, template))
  }

  /** Qualifying is idempotent as long as the name parser reads the package
      id back out of a name this function qualified. */
  lemma EnsurePackageIdIdempotent(model: Option<DamlModelInfo>, template: string,
                                  packageRef: string -> string)
    requires EnsurePackageId(model, template, packageRef).Ok?
    requires model.Some? ==> model.value.mainPackageId != "*"
    requires model.Some? ==>
      packageRef(QualifyTemplate(model.value, template)) == model.value.mainPackageId
    ensures var once := EnsurePackageId(model, template, packageRef).value;
      EnsurePackageId(model, once, packageRef) == Ok(once)
  {
  }

  /** The integration environment handed to an integration's entry point. */
  datatype IntegrationEnvironment = IntegrationEnvironment(party: string, damlModel: Option<DamlModelInfo>)

  /** `IntegrationEnvironment.tid(template_id)`. */
  function Tid(env: IntegrationEnvironment, templateId: string,
               packageRef: string -> string): (r: Result<string, Failure>)
    ensures r == EnsurePackageId(env.damlModel, templateId, packageRef)
  {
    EnsurePackageId(env.damlModel, templateId, packageRef)
  }
}

=== FILE: auth_accessors.dfy ===
/** Reading DAML ledger claims out of a decoded token
    (`daml_dit_if/main/auth_accessors.py`). */
module AuthAccessors {
  import opened Basics
  import opened Config

  /** The claim that carries the DAML ledger API rights. */
  const LedgerApiClaim := "https://daml.com/ledger-api"

  /** The ledger id a ledger claim without `ledgerId` is taken to name. */
  const MissingLedgerIdClaim := "missing-ledger-id-claim"

  /** The ledger API claim: the ledger id and the two party lists, each of
      which may be missing. */
  datatype LedgerClaims = LedgerClaims(
    ledgerId: Option<string>, readAs: Option<seq<string>>, actAs: Option<seq<string>>)

  /** A decoded token's claim set. Only the ledger API claim is read, so only
      ledger claims are kept as values. */
  type JwtClaims = map<string, LedgerClaims>

  function ClaimedLedgerId(lc: LedgerClaims): string {
    lc.ledgerId.GetOr(MissingLedgerIdClaim)
  }

  function ReadAs(lc: LedgerClaims): seq<string> {
    lc.readAs.GetOr([])
  }

  function ActAs(lc: LedgerClaims): seq<string> {
    lc.actAs.GetOr([])
  }

  /** `get_configured_integration_ledger_claims(config, claims)`: the ledger
      claims, only when they name the configured ledger. */
  function GetConfiguredIntegrationLedgerClaims(config: Configuration, claims: JwtClaims): (r: Option<LedgerClaims>)
    ensures r.Some? <==> LedgerApiClaim in claims && ClaimedLedgerId(claims[LedgerApiClaim]) == config.ledgerId
    ensures r.Some? ==> r.value == claims[LedgerApiClaim]
  {
    if LedgerApiClaim !in claims then None
    else if ClaimedLedgerId(claims[LedgerApiClaim]) != config.ledgerId then None
    else Some(claims[LedgerApiClaim])
  }

  /** A claim without a ledger id is accepted only by a configuration whose
      ledger id is literally the placeholder. */
  lemma MissingLedgerIdMatchesOnlyPlaceholder(config: Configuration, claims: JwtClaims)
    requires LedgerApiClaim in claims && claims[LedgerApiClaim].ledgerId.None?
    ensures GetConfiguredIntegrationLedgerClaims(config, claims).Some? <==> config.ledgerId == MissingLedgerIdClaim
  {
  }

  /** `is_integration_party_ledger_claim(config, ledger_claims)`. */
  function IsIntegrationPartyLedgerClaim(config: Configuration, lc: LedgerClaims): (b: bool)
    ensures b <==> config.runAsParty.Some? && config.runAsParty.value in ReadAs(lc)
                   && config.runAsParty.value in ActAs(lc)
  {
    match config.runAsParty
    case None => false
    case Some(party) => party in ReadAs(lc) && party in ActAs(lc)
  }

  /** No element occurs twice. */
  predicate Distinct(xs: seq<string>) {
    forall i, j :: 0 <= i < j < |xs| ==> xs[i] != xs[j]
  }

  /** The elements common to both lists, each once. The source builds a
      Python set, whose order is unspecified; this keeps `xs`'s order of
      last occurrences. */
  function Intersection(xs: seq<string>, ys: seq<string>): (r: seq<string>)
    ensures forall p :: p in r <==> p in xs && p in ys
    ensures Distinct(r)
    decreases |xs|
  {
    if xs == [] then []
    else
      var rest := Intersection(xs[1..], ys);
      if xs[0] in ys && xs[0] !in rest then [xs[0]] + rest else rest
  }

  /** `get_request_parties(request)`, given what the middleware attached to
      the request (`get_request_claims`). */
  function GetRequestParties(attached: Option<LedgerClaims>): (parties: seq<string>)
    ensures attached.None? ==> parties == []
    ensures forall p :: p in parties <==> attached.Some? && p in ReadAs(attached.value) && p in ActAs(attached.value)
    ensures Distinct(parties)
  {
    match attached
    case None => []
    case Some(lc) => Intersection(ReadAs(lc), ActAs(lc))
  }

  /** `get_single_request_party(request)`. */
  function GetSingleRequestParty(attached: Option<LedgerClaims>): (r: Result<Option<string>, Failure>)
    ensures r.Err? <==> |GetRequestParties(attached)| > 1
    ensures r.Err? ==> r.error.Raise?
    ensures r == Ok(None) <==> GetRequestParties(attached) == []
  {
    var parties := GetRequestParties(attached);
    if |parties| == 0 then Ok(None)
    else if |parties| == 1 then Ok(Some(parties[0]))
    else Err(Raise("Only one ledger party expected in token"))
  }

  /** The single party is exactly the one party the token names in both
      lists, and for the integration's own token it is the integration party. */
  lemma SingleRequestPartyIsTheCommonParty(config: Configuration, attached: Option<LedgerClaims>, p: string)
    requires GetSingleRequestParty(attached) == Ok(Some(p))
    ensures attached.Some? && p in ReadAs(attached.value) && p in ActAs(attached.value)
    ensures forall q :: q in ReadAs(attached.value) && q in ActAs(attached.value) ==> q == p
    ensures config.runAsParty == Some(p) ==> IsIntegrationPartyLedgerClaim(config, attached.value)
  {
    var parties := GetRequestParties(attached);
    assert |parties| == 1 && parties[0] == p;
    forall q | q in ReadAs(attached.value) && q in ActAs(attached.value)
      ensures q == p
    {
      assert q in parties;
    }
  }
}

=== FILE: auth_handler.dfy ===
/** The authorization middleware in front of every web route
    (`daml_dit_if/main/auth_handler.py`): how a route declares the level it
    demands, how a bearer token is found in a request (section 2.1 and
    section 2.3 of RFC 6750), and the ordered checks that let a request
    through or reject it. */
module AuthHandler {
  import opened Basics
  import opened Api
  import opened Text
  import opened Config
  import opened AuthAccessors

  /** What `set_handler_auth` leaves on a route handler: no attribute at
      all, or the level it was given, which may itself be `None`. */
  datatype HandlerMarker = Unmarked | Marked(level: Option<AuthorizationLevel>)

  /** `set_handler_auth(fn, auth)`. */
  function SetHandlerAuth(marker: HandlerMarker, auth: Option<AuthorizationLevel>): (m: HandlerMarker)
    ensures GetHandlerAuthLevel(m) == auth
  {
    Marked(auth)
  }

  /** `get_handler_auth_level(request)`: an unmarked handler is public. */
  function GetHandlerAuthLevel(marker: HandlerMarker): (level: Option<AuthorizationLevel>)
    ensures marker.Unmarked? ==> level == Some(Public)
    ensures marker.Marked? ==> level == marker.level
  {
    match marker
    case Unmarked => Some(Public)
    case Marked(level) => level
  }

  /** The parts of a request the middleware reads. */
  datatype Request = Request(authorization: Option<string>, accessToken: Option<string>, httpMethod: string)

  /** An HTTP error response raised as an exception: status and error code. */
  datatype HttpError = HttpError(status: int, code: string)

  const Unauthorized := 401
  const Forbidden := 403

  /** A well-formed `Authorization` header: `Bearer`, one space, and a
      non-empty token (which may itself contain spaces). */
  predicate BearerHeader(header: string, token: string) {
    token != [] && header == "Bearer " + token
  }

  /** `_unvalidated_get_token(request)`. A present header must be a bearer
      header; without one, a non-empty `access_token` query parameter is
      used whatever the request method. */
  function UnvalidatedGetToken(req: Request): (r: Result<Option<string>, HttpError>)
    ensures req.authorization.Some? ==>
              (r.Ok? <==> exists t :: BearerHeader(req.authorization.value, t))
    ensures req.authorization.Some? && r.Ok? ==>
              r.value.Some? && BearerHeader(req.authorization.value, r.value.value)
    ensures r.Err? ==> r.error == HttpError(Unauthorized, "invalid_auth_scheme")
    ensures req.authorization.None? ==>
              r == Ok(if req.accessToken.Some? && req.accessToken.value != "" then req.accessToken else None)
  {
    match req.authorization
    case Some(header) =>
      var p := Partition(header, ' ');
      if p.head != "Bearer" || p.tail == [] then
        BearerHeaderPartition(header);
        Err(HttpError(Unauthorized, "invalid_auth_scheme"))
      else
        assert BearerHeader(header, p.tail);
        Ok(Some(p.tail))
    case None =>
      Ok(if req.accessToken.Some? && req.accessToken.value != "" then req.accessToken else None)
  }

  /** A bearer header partitions into the scheme and the token. */
  lemma BearerHeaderPartition(header: string)
    ensures forall t :: BearerHeader(header, t) ==> Partition(header, ' ') == Partitioned("Bearer", true, t)
  {
    forall t | BearerHeader(header, t)
      ensures Partition(header, ' ') == Partitioned("Bearer", true, t)
    {
      assert header[6] == ' ' && ' ' !in header[..6];
      assert IndexOf(header, ' ') == Some(6);
    }
  }

  /** The bearer token comes back verbatim, spaces included. */
  lemma BearerTokenRoundTrip(token: string, query: Option<string>, httpMethod: string)
    requires token != []
    ensures UnvalidatedGetToken(Request(Some("Bearer " + token), query, httpMethod)) == Ok(Some(token))
  {
    var header := "Bearer " + token;
    assert BearerHeader(header, token);
    var t := UnvalidatedGetToken(Request(Some(header), query, httpMethod)).value.value;
    assert header == "Bearer " + t;
    assert token == header[7..] == t;
  }

  /** The scheme is matched case-sensitively: `bearer` is rejected. */
  lemma LowerCaseSchemeRejected(token: string, query: Option<string>, httpMethod: string)
    ensures UnvalidatedGetToken(Request(Some("bearer " + token), query, httpMethod)).Err?
  {
    var header := "bearer " + token;
    forall t ensures !BearerHeader(header, t) {
      assert header[0] != ("Bearer " + t)[0];
    }
  }

  /** How the token decoder treated a token: claims, a `JWException`, or
      any other exception (which escapes the middleware). */
  datatype DecodeOutcome = Decoded(claims: JwtClaims) | InvalidToken | DecodeRaised(exception: PyException)

  /** What the middleware does with a request: hand it to the route handler
      with the ledger claims attached (`None` for public routes), reject it,
      or let an exception escape. */
  datatype Decision = PassThrough(attached: Option<LedgerClaims>) | Rejected(error: HttpError) | Escaped(exception: PyException)

  /** `AuthHandler.auth_middleware(request, handler)`. `hasDecoder` says
      whether a JWKS-backed decoder was configured; `decode` is its
      `decode_claims`. */
  function AuthMiddleware(config: Configuration, hasDecoder: bool, marker: HandlerMarker, req: Request,
                          decode: string -> DecodeOutcome): (d: Decision)
    ensures d.PassThrough? <==> Admitted(config, hasDecoder, marker, req, decode)
    ensures GetHandlerAuthLevel(marker) == Some(Public) ==> d == PassThrough(None)
    ensures d.Escaped? ==> hasDecoder && PresentedToken(req).Some? && decode(PresentedToken(req).value).DecodeRaised?
  {
    var level := GetHandlerAuthLevel(marker);
    if level == Some(Public) then PassThrough(None)
    else if !hasDecoder then Rejected(HttpError(Unauthorized, "no_authorization_support"))
    else
      match UnvalidatedGetToken(req)
      case Err(e) => Rejected(e)
      case Ok(None) => Rejected(HttpError(Unauthorized, "missing_token"))
      case Ok(Some(token)) =>
        match decode(token)
        case InvalidToken => Rejected(HttpError(Forbidden, "invalid_token"))
        case DecodeRaised(ex) => Escaped(ex)
        case Decoded(claims) =>
          match GetConfiguredIntegrationLedgerClaims(config, claims)
          case None => Rejected(HttpError(Unauthorized, "missing_ledger_claims"))
          case Some(lc) =>
            if level == Some(IntegrationParty) && !IsIntegrationPartyLedgerClaim(config, lc) then
              Rejected(HttpError(Unauthorized, "unauthorized"))
            else PassThrough(Some(lc))
  }

  /** The token a request carries, ignoring malformed headers. */
  function PresentedToken(req: Request): Option<string> {
    match UnvalidatedGetToken(req)
    case Ok(t) => t
    case Err(_) => None
  }

  /** An independent statement of who may call a route: public routes admit
      everyone; any other route (including one marked with no level) needs
      a decoder, a well-formed token, claims for the configured ledger and,
      for the integration-party level, the integration party in both lists. */
  predicate Admitted(config: Configuration, hasDecoder: bool, marker: HandlerMarker, req: Request,
                     decode: string -> DecodeOutcome) {
    var level := GetHandlerAuthLevel(marker);
    || level == Some(Public)
    || (&& hasDecoder
        && PresentedToken(req).Some?
        && decode(PresentedToken(req).value).Decoded?
        && var lc := GetConfiguredIntegrationLedgerClaims(config, decode(PresentedToken(req).value).claims);
           && lc.Some?
           && (level == Some(IntegrationParty) ==> IsIntegrationPartyLedgerClaim(config, lc.value)))
  }

  /** The middleware lets a request through exactly when it is admitted, and
      then attaches the configured ledger's claims, never the whole claim
      set; public routes see no claims at all. */
  lemma PassThroughIffAdmitted(config: Configuration, hasDecoder: bool, marker: HandlerMarker, req: Request,
                               decode: string -> DecodeOutcome)
    ensures AuthMiddleware(config, hasDecoder, marker, req, decode).PassThrough?
            <==> Admitted(config, hasDecoder, marker, req, decode)
    ensures GetHandlerAuthLevel(marker) == Some(Public) ==>
              AuthMiddleware(config, hasDecoder, marker, req, decode) == PassThrough(None)
    ensures GetHandlerAuthLevel(marker) != Some(Public) && AuthMiddleware(config, hasDecoder, marker, req, decode).PassThrough? ==>
              var token := PresentedToken(req).value;
              AuthMiddleware(config, hasDecoder, marker, req, decode).attached
                == GetConfiguredIntegrationLedgerClaims(config, decode(token).claims)
  {
  }

  /** The checks run in a fixed order; the first that fails decides the
      response. */
  lemma RejectionOrder(config: Configuration, hasDecoder: bool, marker: HandlerMarker, req: Request,
                       decode: string -> DecodeOutcome)
    requires GetHandlerAuthLevel(marker) != Some(Public)
    ensures var d := AuthMiddleware(config, hasDecoder, marker, req, decode);
      && (!hasDecoder ==> d == Rejected(HttpError(Unauthorized, "no_authorization_support")))
      && (hasDecoder && UnvalidatedGetToken(req).Err? ==> d == Rejected(HttpError(Unauthorized, "invalid_auth_scheme")))
      && (hasDecoder && UnvalidatedGetToken(req) == Ok(None) ==> d == Rejected(HttpError(Unauthorized, "missing_token")))
      && (hasDecoder && PresentedToken(req).Some? ==>
            var outcome := decode(PresentedToken(req).value);
            && (outcome.InvalidToken? ==> d == Rejected(HttpError(Forbidden, "invalid_token")))
            && (outcome.DecodeRaised? ==> d == Escaped(outcome.exception))
            && (outcome.Decoded? && GetConfiguredIntegrationLedgerClaims(config, outcome.claims).None? ==>
                  d == Rejected(HttpError(Unauthorized, "missing_ledger_claims")))
            && (outcome.Decoded? && GetConfiguredIntegrationLedgerClaims(config, outcome.claims).Some? ==>
                  var lc := GetConfiguredIntegrationLedgerClaims(config, outcome.claims).value;
                  d == (if GetHandlerAuthLevel(marker) == Some(IntegrationParty) && !IsIntegrationPartyLedgerClaim(config, lc)
                        then Rejected(HttpError(Unauthorized, "unauthorized"))
                        else PassThrough(Some(lc)))))
  {
  }

  /** The any-party level checks no party: any token with claims for the
      configured ledger gets through. */
  lemma AnyPartyNeedsNoParty(config: Configuration, req: Request, decode: string -> DecodeOutcome)
    requires PresentedToken(req).Some? && decode(PresentedToken(req).value).Decoded?
    requires GetConfiguredIntegrationLedgerClaims(config, decode(PresentedToken(req).value).claims).Some?
    ensures AuthMiddleware(config, true, Marked(Some(AnyParty)), req, decode).PassThrough?
    ensures AuthMiddleware(config, true, Marked(None), req, decode).PassThrough?
  {
  }
}

=== FILE: basics.dfy ===
/** Failure-compatible wrappers shared by every module of the model, and the
    two ways a Python operation of the runtime can end abnormally. */
module Basics {

  /** Python's `Optional[T]`: `None` or a present value. */
  datatype Option<+T> = None | Some(value: T) {
    predicate IsFailure() { None? }

    function PropagateFailure<U>(): Option<U>
      requires None?
    {
      None
    }

    function Extract(): T
      requires Some?
    {
      value
    }

    function GetOr(default: T): T {
      if Some? then value else default
    }
  }

  /** Python truthiness of an optional text: present and non-empty. */
  predicate Truthy(text: Option<string>) {
    text.Some? && text.value != ""
  }

  /** The outcome of an operation that may raise. */
  datatype Result<+T, +E> = Ok(value: T) | Err(error: E) {
    predicate IsFailure() { Err? }

    function PropagateFailure<U>(): Result<U, E>
      requires Err?
    {
      Err(error)
    }

    function Extract(): T
      requires Ok?
    {
      value
    }
  }

  /** `Raise` is an ordinary exception that a caller may catch; `Fatal` is
      the runtime's `FAIL`, which logs and ends the process with `sys.exit(9)`. */
  datatype Failure = Raise(message: string) | Fatal(message: string)

  /** A caught Python exception, by its `repr` and its `str`. */
  datatype PyException = PyException(repr: string, text: string)

  /** Which behaviour a member follows where the source has a defect: the
      code as written, or the evidently intended one. */
  datatype Reading = AsWritten | Corrected

  /** A wall-clock reading (`datetime.utcnow()`), supplied by the caller. */
  type Time = int
}

=== FILE: config.dfy ===
/** Start-up configuration from environment variables
    (`daml_dit_if/main/config.py`). The process environment is a map. */
module Config {
  import opened Basics
  import opened Text

  type Environment = map<string, string>

  /** `Configuration`. */
  datatype Configuration = Configuration(
    healthPort: int,
    ledgerUrl: string,
    ledgerId: string,
    integrationMetadataPath: string,
    typeId: Option<string>,
    runAsParty: Option<string>,
    logLevel: int)

  /** `optenv(var)`: the raw value, which may be absent or empty. */
  function Optenv(env: Environment, name: string): (r: Option<string>)
    ensures r.Some? <==> name in env
    ensures r.Some? ==> r.value == env[name]
  {
    if name in env then Some(env[name]) else None
  }

  /** `env(var, default)`: a set, non-empty value; else the default; with no
      default the process ends. */
  function Env(env: Environment, name: string, default: Option<string>): (r: Result<string, Failure>)
    ensures Truthy(Optenv(env, name)) ==> r == Ok(env[name])
    ensures !Truthy(Optenv(env, name)) && default.Some? ==> r == Ok(default.value)
    ensures r.Err? <==> !Truthy(Optenv(env, name)) && default.None?
    ensures r.Err? ==> r.error == Fatal("Missing required environment variable: " + name)
  {
    var value := Optenv(env, name);
    if Truthy(value) then Ok(value.value)
    else if default.Some? then Ok(default.value)
    else Err(Fatal("Missing required environment variable: " + name))
  }

  /** `env(var, default)` with a default given: it cannot fail. */
  function EnvOr(env: Environment, name: string, default: string): (r: string)
    ensures Env(env, name, Some(default)) == Ok(r)
    ensures r == default || (name in env && r == env[name] != "")
  {
    if Truthy(Optenv(env, name)) then env[name] else default
  }

  /** `envint(var, default)`: the default is handed to `env` as its decimal
      rendering and the value is then parsed; a non-integer ends the process. */
  function EnvInt(env: Environment, name: string, default: Option<int>): (r: Result<int, Failure>)
    ensures Env(env, name, if default.Some? then Some(IntToString(default.value)) else None).Err? ==> r.Err?
    ensures r.Err? ==> r.error.Fatal?
    ensures Truthy(Optenv(env, name)) && ParseInt(env[name]).Some? ==> r == Ok(ParseInt(env[name]).value)
    ensures Truthy(Optenv(env, name)) && ParseInt(env[name]).None? ==>
              r == Err(Fatal("Invalid integer " + env[name] + " in environment variable: " + name))
  {
    var text :- Env(env, name, if default.Some? then Some(IntToString(default.value)) else None);
    match ParseInt(text)
    case Some(n) => Ok(n)
    case None => Err(Fatal("Invalid integer " + text + " in environment variable: " + name))
  }

  /** An unset or empty variable with an integer default yields exactly that
      default: rendering and parsing it back loses nothing. */
  lemma EnvIntDefault(env: Environment, name: string, default: int)
    requires !Truthy(Optenv(env, name))
    ensures EnvInt(env, name, Some(default)) == Ok(default)
  {
    IntStringRoundTrip(default);
  }

  /** The variables the configuration is read from. */
  const HealthPortVar := "DABL_HEALTH_PORT"
  const LedgerUrlVar := "DABL_LEDGER_URL"
  const LedgerIdVar := "DABL_LEDGER_ID"
  const MetadataPathVar := "DABL_INTEGRATION_METADATA_PATH"
  const TypeIdVar := "DABL_INTEGRATION_TYPE_ID"
  const PartyVar := "DAML_LEDGER_PARTY"
  const LogLevelVar := "DABL_LOG_LEVEL"

  /** `get_default_config()`. */
  function GetDefaultConfig(env: Environment): (r: Result<Configuration, Failure>)
    ensures r.Ok? <==> EnvInt(env, HealthPortVar, Some(8089)).Ok? && EnvInt(env, LogLevelVar, Some(0)).Ok?
    ensures r.Ok? ==> && r.value.typeId == Optenv(env, TypeIdVar)
                      && r.value.runAsParty == Optenv(env, PartyVar)
                      && r.value.ledgerId == Env(env, LedgerIdVar, Some("cloudbox")).value
                      && r.value.ledgerUrl == Env(env, LedgerUrlVar, Some("http://localhost:6865")).value
                      && r.value.integrationMetadataPath == Env(env, MetadataPathVar, Some("int_args.yaml")).value
                      && r.value.healthPort == EnvInt(env, HealthPortVar, Some(8089)).value
                      && r.value.logLevel == EnvInt(env, LogLevelVar, Some(0)).value
    ensures r.Err? ==> r.error.Fatal?
  {
    var healthPort := EnvInt(env, HealthPortVar, Some(8089));
    var ledgerUrl := EnvOr(env, LedgerUrlVar, "http://localhost:6865");
    var ledgerId := EnvOr(env, LedgerIdVar, "cloudbox");
    var metadataPath := EnvOr(env, MetadataPathVar, "int_args.yaml");
    var logLevel := EnvInt(env, LogLevelVar, Some(0));
    if healthPort.Err? then Err(healthPort.error)
    else if logLevel.Err? then Err(logLevel.error)
    else Ok(Configuration(healthPort.value, ledgerUrl, ledgerId, metadataPath,
                          Optenv(env, TypeIdVar), Optenv(env, PartyVar), logLevel.value))
  }

  /** With nothing set, every field takes its documented default. */
  lemma EmptyEnvironmentDefaults()
    ensures GetDefaultConfig(map[]) ==
      Ok(Configuration(8089, "http://localhost:6865", "cloudbox", "int_args.yaml", None, None, 0))
  {
    EnvIntDefault(map[], HealthPortVar, 8089);
    EnvIntDefault(map[], LogLevelVar, 0);
  }

  /** An empty variable counts as unset: the default wins over `""`. */
  lemma EmptyValueFallsBack(env: Environment, name: string, default: string)
    requires name in env && env[name] == ""
    ensures Env(env, name, Some(default)) == Ok(default)
    ensures Optenv(env, name) == Some("")
  {
  }
}

=== FILE: deferral_queue.dfy ===
/** The integration's single work queue (`IntegrationDeferralQueue`): a FIFO
    over `asyncio.Queue` with a fixed `maxsize`, a counter of every put
    attempt and a counter of the puts that found the queue full, and one
    worker that takes entries from the head and runs them one at a time. */
module DeferralQueue {
  import opened Basics

  /** An entry of the queue: the deferred call and the status record of the
      handler it belongs to (`IntegrationQueueAction`). */
  datatype QueueAction<A, S> = QueueAction(action: A, status: S)

  /** The snapshot `get_status` reports (`IntegrationQueueStatus`). */
  datatype QueueStatus = QueueStatus(queueSize: int, totalEvents: nat, pendingEvents: nat, skippedEvents: nat)

  /** The queue's state: the configured `maxsize`, the entries waiting in
      FIFO order (head first) and the two counters. */
  datatype Queue<T> = Queue(maxSize: int, pending: seq<T>, totalEvents: nat, skippedEvents: nat)
  {
    /** `asyncio.Queue.full()`: a non-positive `maxsize` never fills up. */
    predicate Full() {
      maxSize > 0 && |pending| >= maxSize
    }

    /** The pending count never exceeds a positive capacity. */
    predicate Valid() {
      maxSize > 0 ==> |pending| <= maxSize
    }
  }

  /** A freshly constructed queue. */
  function Create<T>(maxSize: int): (q: Queue<T>)
    ensures q.Valid() && !q.Full()
    ensures q.pending == [] && q.totalEvents == 0 && q.skippedEvents == 0
  {
    Queue(maxSize, [], 0, 0)
  }

  /** What `put` does: the entry was enqueued, or `asyncio.QueueFull` was
      raised again to the caller. Either way `queue` is the new state. */
  datatype PutResult<T> = Enqueued(queue: Queue<T>) | Overflow(queue: Queue<T>)

  /** `put(action, status)`: count the attempt, then try a non-blocking
      enqueue; on a full queue count the skip and re-raise. */
  function Put<T>(q: Queue<T>, entry: T): (r: PutResult<T>)
    ensures r.queue.maxSize == q.maxSize
    ensures r.queue.totalEvents == q.totalEvents + 1
    ensures !q.Full() ==> r.Enqueued? && r.queue.pending == q.pending + [entry]
                          && r.queue.skippedEvents == q.skippedEvents
    ensures q.Full() ==> r.Overflow? && r.queue.pending == q.pending
                         && r.queue.skippedEvents == q.skippedEvents + 1
    ensures q.Valid() ==> r.queue.Valid()
  {
    var counted := q.(totalEvents := q.totalEvents + 1);
    if q.Full() then Overflow(counted.(skippedEvents := q.skippedEvents + 1))
    else Enqueued(counted.(pending := q.pending + [entry]))
  }

  /** `get_status()`. */
  function GetStatus<T>(q: Queue<T>): (s: QueueStatus)
    ensures s.queueSize == q.maxSize && s.pendingEvents == |q.pending|
    ensures s.totalEvents == q.totalEvents && s.skippedEvents == q.skippedEvents
  {
    QueueStatus(q.maxSize, q.totalEvents, |q.pending|, q.skippedEvents)
  }

  /** How a deferred action ended when the worker awaited it. */
  datatype ActionOutcome = Completed | Raised(exception: PyException)

  /** One iteration of the worker loop in `start`: take the head entry and
      run it. A failure of the action is caught and logged by the loop. On an
      empty queue the worker suspends in `get()`, shown here as `None`. */
  function WorkerStep<T>(q: Queue<T>, outcome: ActionOutcome): (r: Option<(T, Queue<T>)>)
    ensures r.None? <==> q.pending == []
    ensures r.Some? ==> r.value.0 == q.pending[0]
                        && r.value.1 == q.(pending := q.pending[1..])
    ensures q.Valid() && r.Some? ==> r.value.1.Valid()
  {
    if q.pending == [] then None else Some((q.pending[0], q.(pending := q.pending[1..])))
  }

  /** The worker step does not depend on whether the action it ran failed:
      the queue and its counters are untouched by the failure. */
  lemma WorkerIgnoresFailure<T>(q: Queue<T>, e: PyException)
    ensures WorkerStep(q, Raised(e)) == WorkerStep(q, Completed)
  {
  }

  /** An interleaving of producers and the worker: a `put` of an entry, or one
      worker step whose action ends with the given outcome. */
  datatype Op<T> = PutOp(entry: T) | StepOp(outcome: ActionOutcome)

  /** What a run of operations leaves behind: the final queue, the entries
      the worker ran (in order), the entries that were enqueued (in order)
      and how many puts overflowed. */
  datatype Trace<T> = Trace(queue: Queue<T>, executed: seq<T>, accepted: seq<T>, rejected: nat)

  function Run<T>(q: Queue<T>, ops: seq<Op<T>>): (t: Trace<T>)
    ensures |t.accepted| + t.rejected == PutCount(ops)
    ensures |t.executed| <= |q.pending| + |t.accepted|
    decreases |ops|
  {
    if ops == [] then Trace(q, [], [], 0)
    else
      match ops[0]
      case PutOp(e) =>
        (match Put(q, e)
         case Enqueued(q1) =>
           var t := Run(q1, ops[1..]);
           t.(accepted := [e] + t.accepted)
         case Overflow(q1) =>
           var t := Run(q1, ops[1..]);
           t.(rejected := t.rejected + 1))
      case StepOp(o) =>
        (match WorkerStep(q, o)
         case None => Run(q, ops[1..])
         case Some((e, q1)) =>
           var t := Run(q1, ops[1..]);
           t.(executed := [e] + t.executed))
  }

  /** The number of put attempts in a run. */
  function PutCount<T>(ops: seq<Op<T>>): nat
  {
    if ops == [] then 0 else (if ops[0].PutOp? then 1 else 0) + PutCount(ops[1..])
  }

  /** The entries offered by the puts of a run, in order. */
  function Offered<T>(ops: seq<Op<T>>): (es: seq<T>)
    ensures |es| == PutCount(ops)
  {
    if ops == [] then [] else (if ops[0].PutOp? then [ops[0].entry] else []) + Offered(ops[1..])
  }

  /** `s` is `t` with some elements left out, order kept. */
  ghost predicate SubsequenceOf<T>(s: seq<T>, t: seq<T>)
    decreases |t|
  {
    if s == [] then true
    else if t == [] then false
    else if s[0] == t[0] then SubsequenceOf(s[1..], t[1..])
    else SubsequenceOf(s, t[1..])
  }

  /** FIFO and bookkeeping over any interleaving of puts and worker steps:
      what was waiting plus what was accepted is exactly what ran followed by
      what still waits; every put is counted, every overflow is skipped,
      the accepted entries are the offered ones in offer order, and the
      capacity bound holds throughout. */
  lemma RunIsFifo<T>(q: Queue<T>, ops: seq<Op<T>>)
    ensures var t := Run(q, ops);
      && q.pending + t.accepted == t.executed + t.queue.pending
      && t.queue.maxSize == q.maxSize
      && t.queue.totalEvents == q.totalEvents + PutCount(ops)
      && t.queue.skippedEvents == q.skippedEvents + t.rejected
      && |t.accepted| + t.rejected == PutCount(ops)
      && SubsequenceOf(t.accepted, Offered(ops))
      && (q.Valid() ==> t.queue.Valid())
  {
    RunOrder(q, ops);
    RunCounters(q, ops);
    RunAcceptsOffered(q, ops);
  }

  /** The order half: entries leave the queue in the order they entered. */
  lemma {:induction false} RunOrder<T>(q: Queue<T>, ops: seq<Op<T>>)
    ensures var t := Run(q, ops); q.pending + t.accepted == t.executed + t.queue.pending
    decreases |ops|
  {
    if ops != [] {
      var rest := ops[1..];
      match ops[0] {
        case PutOp(e) =>
          var q1 := Put(q, e).queue;
          RunOrder(q1, rest);
          var t := Run(q1, rest);
          if !q.Full() {
            assert Run(q, ops).accepted == [e] + t.accepted;
            assert q.pending + ([e] + t.accepted) == (q.pending + [e]) + t.accepted;
          }
        case StepOp(o) =>
          if q.pending != [] {
            var q1 := q.(pending := q.pending[1..]);
            RunOrder(q1, rest);
            var t := Run(q1, rest);
            assert Run(q, ops).executed == [q.pending[0]] + t.executed;
            assert q.pending == [q.pending[0]] + q1.pending;
            assert q.pending + t.accepted == [q.pending[0]] + (q1.pending + t.accepted);
          } else {
            RunOrder(q, rest);
          }
      }
    }
  }

  /** The bookkeeping half: counters, capacity and the bound. */
  lemma {:induction false} RunCounters<T>(q: Queue<T>, ops: seq<Op<T>>)
    ensures var t := Run(q, ops);
      && t.queue.maxSize == q.maxSize
      && t.queue.totalEvents == q.totalEvents + PutCount(ops)
      && t.queue.skippedEvents == q.skippedEvents + t.rejected
      && |t.accepted| + t.rejected == PutCount(ops)
      && (q.Valid() ==> t.queue.Valid())
    decreases |ops|
  {
    if ops != [] {
      var rest := ops[1..];
      match ops[0] {
        case PutOp(e) => RunCounters(Put(q, e).queue, rest);
        case StepOp(o) =>
          if q.pending != [] {
            RunCounters(q.(pending := q.pending[1..]), rest);
          } else {
            RunCounters(q, rest);
          }
      }
    }
  }

  /** The accepted entries are the offered ones with the overflows left out. */
  lemma {:induction false} RunAcceptsOffered<T>(q: Queue<T>, ops: seq<Op<T>>)
    ensures SubsequenceOf(Run(q, ops).accepted, Offered(ops))
    decreases |ops|
  {
    if ops != [] {
      var rest := ops[1..];
      match ops[0] {
        case PutOp(e) =>
          assert Offered(ops) == [e] + Offered(rest);
          var q1 := Put(q, e).queue;
          RunAcceptsOffered(q1, rest);
          var t := Run(q1, rest);
          if q.Full() {
            assert Run(q, ops).accepted == t.accepted;
            SubsequenceSkip(t.accepted, e, Offered(rest));
          } else {
            assert Run(q, ops).accepted == [e] + t.accepted;
            assert ([e] + t.accepted)[1..] == t.accepted;
            assert ([e] + Offered(rest))[1..] == Offered(rest);
          }
        case StepOp(o) =>
          assert Offered(ops) == Offered(rest);
          if q.pending != [] {
            RunAcceptsOffered(q.(pending := q.pending[1..]), rest);
          } else {
            RunAcceptsOffered(q, rest);
          }
      }
    }
  }

  /** Offering one more entry in front keeps a subsequence a subsequence. */
  lemma {:induction false} SubsequenceSkip<T>(s: seq<T>, x: T, t: seq<T>)
    requires SubsequenceOf(s, t)
    ensures SubsequenceOf(s, [x] + t)
    decreases |t|, 2
  {
    assert ([x] + t)[1..] == t;
    if s != [] && s[0] == x {
      SubsequenceDropHead(s, t);
    }
  }

  lemma {:induction false} SubsequenceDropHead<T>(s: seq<T>, t: seq<T>)
    requires s != [] && SubsequenceOf(s, t)
    ensures SubsequenceOf(s[1..], t)
    decreases |t|, 1
  {
    assert t != [];
    if s[0] == t[0] {
      SubsequenceSkip(s[1..], t[0], t[1..]);
    } else {
      SubsequenceDropHead(s, t[1..]);
      SubsequenceSkip(s[1..], t[0], t[1..]);
    }
    assert [t[0]] + t[1..] == t;
  }

  /** With `maxsize <= 0` (unbounded) no put ever overflows: every offered
      entry is accepted. */
  lemma {:induction false} UnboundedAcceptsAll<T>(q: Queue<T>, ops: seq<Op<T>>)
    requires q.maxSize <= 0
    ensures Run(q, ops).rejected == 0 && Run(q, ops).accepted == Offered(ops)
    decreases |ops|
  {
    if ops != [] {
      match ops[0] {
        case PutOp(e) => UnboundedAcceptsAll(Put(q, e).queue, ops[1..]);
        case StepOp(o) =>
          match WorkerStep(q, o) {
            case None => UnboundedAcceptsAll(q, ops[1..]);
            case Some((_, q1)) => UnboundedAcceptsAll(q1, ops[1..]);
          }
      }
    }
  }
}

=== FILE: dit_api.dfy ===
/** The shared integration API package (`daml_dit_api/__init__.py`): the
    deployed-integration spec and its dictionary form, its own `is_true`,
    and its plain `IntegrationResponse`. */
module DitApi {
  import opened Basics
  import opened Api
  import opened Text
  import Util

  /** A value read from a YAML/JSON document. */
  datatype Value = VNone | VStr(s: string) | VBool(b: bool) | VMap(m: map<string, string>)

  /** `IntegrationSpec`. Every field is whatever the document held, since
      `from_dict` does no type checking. */
  datatype IntegrationSpec = IntegrationSpec(
    integrationId: Value, artifactHash: Value, typeId: Value, enabled: Value,
    metadata: Value, runtime: Value)

  const DefaultRuntime := "python-file"

  /** The constructor with `runtime` left to its declared default. */
  function NewSpec(integrationId: Value, artifactHash: Value, typeId: Value, enabled: Value,
                   metadata: Value): (s: IntegrationSpec)
    ensures s.runtime == VStr(DefaultRuntime)
  {
    IntegrationSpec(integrationId, artifactHash, typeId, enabled, metadata, VStr(DefaultRuntime))
  }

  type Dict = map<string, Value>

  /** The six keys of the dictionary form. */
  const SpecKeys: set<string> := {"integration_id", "artifact_hash", "type_id", "enabled", "metadata", "runtime"}

  /** `dict.get(key)`. */
  function Get(d: Dict, key: string): Value {
    if key in d then d[key] else VNone
  }

  /** `IntegrationSpec.from_dict(json_obj)`: each field by `.get`, so a
      missing key reads as `None`. Extra keys are ignored. */
  function FromDict(d: Dict): (s: IntegrationSpec)
    ensures "runtime" !in d ==> s.runtime == VNone
    ensures "integration_id" in d ==> s.integrationId == d["integration_id"]
  {
    IntegrationSpec(Get(d, "integration_id"), Get(d, "artifact_hash"), Get(d, "type_id"),
                    Get(d, "enabled"), Get(d, "metadata"), Get(d, "runtime"))
  }

  /** `IntegrationSpec.to_dict()` (`dataclasses.asdict`). */
  function ToDict(s: IntegrationSpec): (d: Dict)
    ensures d.Keys == SpecKeys
  {
    map["integration_id" := s.integrationId, "artifact_hash" := s.artifactHash, "type_id" := s.typeId,
        "enabled" := s.enabled, "metadata" := s.metadata, "runtime" := s.runtime]
  }

  /** Only the six keys are read: dictionaries that agree on them give the
      same spec. */
  lemma FromDictReadsOnlySpecKeys(d: Dict, d': Dict)
    requires forall k :: k in SpecKeys ==> Get(d', k) == Get(d, k)
    ensures FromDict(d') == FromDict(d)
  {
  }

  /** Every spec survives a trip through its dictionary form. */
  lemma FromDictToDict(s: IntegrationSpec)
    ensures FromDict(ToDict(s)) == s
  {
  }

  /** The other way round, a dictionary comes back with exactly the six
      keys, missing ones as `None` and extra ones dropped. */
  lemma ToDictFromDict(d: Dict)
    ensures forall k :: k in SpecKeys ==> ToDict(FromDict(d))[k] == Get(d, k)
    ensures ToDict(FromDict(d)).Keys == SpecKeys
  {
  }

  /** A dictionary without `runtime` does not get the declared default. */
  lemma MissingRuntimeIsNotDefault(d: Dict, integrationId: Value, artifactHash: Value, typeId: Value,
                                   enabled: Value, metadata: Value)
    requires "runtime" !in d
    ensures FromDict(d).runtime != NewSpec(integrationId, artifactHash, typeId, enabled, metadata).runtime
  {
  }

  /** Case-insensitive equality, for ASCII letters. */
  predicate EqualsIgnoringCase(a: string, b: string) {
    |a| == |b| && forall i :: 0 <= i < |a| ==> LowerChar(a[i]) == LowerChar(b[i])
  }

  /** `is_true(value)` of this package: some spelling of "true" matches the
      value up to case. */
  predicate IsTrue(value: Option<string>) {
    value.Some? && exists t :: t in Util.TrueTokens && EqualsIgnoringCase(value.value, t)
  }

  /** The two `is_true` functions agree on every input. */
  lemma IsTrueAgrees(value: Option<string>)
    ensures IsTrue(value) <==> Util.IsTrue(value)
  {
    if value.Some? {
      var v := value.value;
      forall t | t in Util.TrueTokens
        ensures EqualsIgnoringCase(v, t) <==> ToLower(v) == t
      {
        assert ToLower(t) == t;
        if EqualsIgnoringCase(v, t) {
          assert forall i :: 0 <= i < |v| ==> ToLower(v)[i] == t[i];
        }
      }
      if Util.IsTrue(value) {
        assert EqualsIgnoringCase(v, ToLower(v));
      }
    }
  }

  /** The package's own response type: just the commands, none by default. */
  datatype DitResponse = DitResponse(commands: Option<seq<Command>>)

  function DefaultDitResponse(): (r: DitResponse)
    ensures r.commands == Some([])
  {
    DitResponse(Some([]))
  }
}

=== FILE: integration_context.dfy ===
/** The integration's life cycle (`daml_dit_if/main/integration_context.py`):
    choosing the party to run as, resolving the entry point, loading the
    integration with every failure caught and recorded, starting it, and
    reporting its status. */
module IntegrationContext {
  import opened Basics
  import opened Api
  import opened Text
  import opened Work
  import Config
  import DeferralQueue
  import Invocation
  import QueueContext
  import LedgerContext
  import WebhookContext
  import PackageMetadata

  /** The deployed instance's runtime spec: the parts the runtime reads. */
  datatype RuntimeSpec = RuntimeSpec(typeId: Option<string>, metadata: map<string, string>)

  /** `METADATA_INTEGRATION_RUN_AS_PARTY`, the second metadata slot that may
      name the party. */
  const IntegrationRunAsPartyKey := "com.projectdabl.integrations.runAsParty"

  // ---------------------------------------------------------------------
  // Metadata normalisation

  /** `normalize_metadata(metadata, integration_type)`: every value is
      stripped of surrounding white space; the field types are looked up but
      do not influence the result. */
  function NormalizeMetadata(metadata: map<string, string>,
                             itype: PackageMetadata.IntegrationTypeInfo): (normalized: map<string, string>)
    ensures normalized.Keys == metadata.Keys
    ensures forall k :: k in normalized ==> Stripped(normalized[k]) && |normalized[k]| <= |metadata[k]|
    ensures forall k :: k in normalized ==> exists i, j :: SpaceAround(metadata[k], normalized[k], i, j)
    ensures forall k :: k in normalized ==> normalized[k] == Strip(metadata[k])
  {
    map k | k in metadata :: Strip(metadata[k])
  }

  /** Normalising twice changes nothing more. */
  lemma NormalizeMetadataIdempotent(metadata: map<string, string>, itype: PackageMetadata.IntegrationTypeInfo)
    ensures NormalizeMetadata(NormalizeMetadata(metadata, itype), itype) == NormalizeMetadata(metadata, itype)
  {
    var once := NormalizeMetadata(metadata, itype);
    NormalizedValuesStable(once, itype);
    MapExtensionality(NormalizeMetadata(once, itype), once);
  }

  /** A map whose values are all stripped is normalised value by value into itself. */
  lemma NormalizedValuesStable(once: map<string, string>, itype: PackageMetadata.IntegrationTypeInfo)
    requires forall k :: k in once ==> Stripped(once[k])
    ensures forall k :: k in once ==> NormalizeMetadata(once, itype)[k] == once[k]
  {
    forall k | k in once
      ensures NormalizeMetadata(once, itype)[k] == once[k]
    {
      StripKeepsStripped(once[k]);
    }
  }

  lemma MapExtensionality(a: map<string, string>, b: map<string, string>)
    requires a.Keys == b.Keys
    requires forall k :: k in b ==> a[k] == b[k]
    ensures a == b
  {
  }

  /** The result does not depend on the integration type. */
  lemma NormalizeMetadataIgnoresType(metadata: map<string, string>,
                                     t1: PackageMetadata.IntegrationTypeInfo, t2: PackageMetadata.IntegrationTypeInfo)
    ensures NormalizeMetadata(metadata, t1) == NormalizeMetadata(metadata, t2)
  {
  }

  // ---------------------------------------------------------------------
  // Qualified symbols

  /** How `import_module(name)` ends. */
  datatype ImportOutcome = Imported | ImportRaised | ImportedNone

  function MalformedSymbol(text: string): Failure {
    Fatal("Malformed symbol " + text + " (Must be [module_name:symbol_name])")
  }

  /** `parse_qualified_symbol(symbol_text)`: exactly one colon separates a
      module name from a symbol name, and the module must import. */
  function ParseQualifiedSymbol(text: string, importModule: string -> ImportOutcome): (r: Result<(string, string), Failure>)
    ensures multiset(text)[':'] != 1 ==> r == Err(MalformedSymbol(text))
    ensures r.Ok? ==> text == r.value.0 + [':'] + r.value.1 && ':' !in r.value.0 && ':' !in r.value.1
    ensures r.Ok? ==> importModule(r.value.0) == Imported
    ensures r.Err? ==> r.error.Fatal?
  {
    var parts := Split(text, ':');
    SplitCount(text, ':');
    if |parts| != 2 then Err(MalformedSymbol(text))
    else
      SplitJoin(text, ':');
      assert Join(parts, ':') == parts[0] + [':'] + Join(parts[1..], ':');
      match importModule(parts[0])
      case ImportRaised => Err(Fatal("Failure importing integration package: " + parts[0]))
      case ImportedNone => Err(Fatal("Unknown module " + parts[0] + " in " + text))
      case Imported => Ok((parts[0], parts[1]))
  }

  /** A colon-free module name and symbol name joined by a colon parse back
      into themselves when the module imports. */
  lemma ParseQualifiedSymbolRoundTrip(moduleName: string, symbol: string, importModule: string -> ImportOutcome)
    requires ':' !in moduleName && ':' !in symbol
    requires importModule(moduleName) == Imported
    ensures ParseQualifiedSymbol(moduleName + [':'] + symbol, importModule) == Ok((moduleName, symbol))
  {
    SplitTwo(moduleName, symbol, ':');
  }

  /** A symbol without a colon, or with more than one, is fatal whatever
      the import would have done. */
  lemma MalformedSymbolIsFatal(text: string, importModule: string -> ImportOutcome)
    requires multiset(text)[':'] != 1
    ensures ParseQualifiedSymbol(text, importModule).Err?
    ensures ParseQualifiedSymbol(text, importModule).error.message
            == "Malformed symbol " + text + " (Must be [module_name:symbol_name])"
  {
  }

  // ---------------------------------------------------------------------
  // The party to run as

  function Lookup(metadata: map<string, string>, key: string): Option<string> {
    if key in metadata then Some(metadata[key]) else None
  }

  /** `_party_fallback_to_metadata()`: a configured party is kept; otherwise
      `metadata.get(common) or metadata.get(integration)`, and only a missing
      result (not an empty one) is fatal. `commonKey` is the value of
      `METADATA_COMMON_RUN_AS_PARTY`, which is not part of this model. */
  function PartyFallback(configParty: Option<string>, metadata: map<string, string>,
                         commonKey: string): (r: Result<string, Failure>)
    ensures Truthy(configParty) ==> r == Ok(configParty.value)
    ensures !Truthy(configParty) && Truthy(Lookup(metadata, commonKey)) ==> r == Ok(metadata[commonKey])
    ensures r.Err? <==>
              !Truthy(configParty) && !Truthy(Lookup(metadata, commonKey)) && IntegrationRunAsPartyKey !in metadata
    ensures r.Err? ==> r.error == Fatal("DAML_LEDGER_PARTY environment variable undefined.")
  {
    if Truthy(configParty) then Ok(configParty.value)
    else
      var party := if Truthy(Lookup(metadata, commonKey)) then Lookup(metadata, commonKey)
                   else Lookup(metadata, IntegrationRunAsPartyKey);
      if party.None? then Err(Fatal("DAML_LEDGER_PARTY environment variable undefined."))
      else Ok(party.value)
  }

  /** An empty value in the second slot is taken as the party rather than
      rejected. */
  lemma EmptySecondSlotAccepted(metadata: map<string, string>, commonKey: string)
    requires commonKey !in metadata
    requires IntegrationRunAsPartyKey in metadata && metadata[IntegrationRunAsPartyKey] == ""
    ensures PartyFallback(None, metadata, commonKey) == Ok("")
  {
  }

  // ---------------------------------------------------------------------
  // The context

  /** `IntegrationContext`. `loaded` stands for `int_toplevel_coro`, which is
      set exactly when loading completed. */
  datatype Context = Context(
    typeId: string, runAsParty: string, itype: PackageMetadata.IntegrationTypeInfo,
    spec: RuntimeSpec, damlModel: Option<DamlModelInfo>,
    startTime: Time, running: bool, errorMessage: Option<string>, errorTime: Option<Time>,
    queue: WorkQueue, loaded: bool,
    queueContext: Option<QueueContext.Context>,
    ledgerContext: Option<LedgerContext.Context>,
    webhookContext: Option<WebhookContext.Context>)

  /** `IntegrationContext(...)`: only the party fallback can fail. The queue
      size is the configured one. */
  function Create(config: Config.Configuration, itype: PackageMetadata.IntegrationTypeInfo, typeId: string,
                  spec: RuntimeSpec, meta: PackageMetadata.PackageMeta, commonKey: string,
                  queueSize: int, now: Time): (r: Result<Context, Failure>)
    ensures r.Err? <==> PartyFallback(config.runAsParty, spec.metadata, commonKey).Err?
    ensures r.Ok? ==>
              && r.value.runAsParty == PartyFallback(config.runAsParty, spec.metadata, commonKey).value
              && !r.value.running && !r.value.loaded
              && r.value.errorMessage.None? && r.value.errorTime.None?
              && r.value.queue == DeferralQueue.Create(queueSize)
              && r.value.queueContext.None? && r.value.ledgerContext.None? && r.value.webhookContext.None?
              && r.value.startTime == now && r.value.damlModel == meta.damlModel
  {
    var party :- PartyFallback(config.runAsParty, spec.metadata, commonKey);
    Ok(Context(typeId, party, itype, spec, meta.damlModel, now, false, None, None,
               DeferralQueue.Create(queueSize), false, None, None, None))
  }

  // ---------------------------------------------------------------------
  // Loading

  /** A value of the environment dictionary handed to the environment class. */
  datatype EnvValue = MetadataText(text: string) | QueueSink | PartyName(party: string)
                    | ModelInfo(model: Option<DamlModelInfo>)

  type EnvData = map<string, EnvValue>

  /** `{**metadata, 'queue': sink, 'party': party, 'daml_model': model}`. */
  function EnvironmentData(metadata: map<string, string>, party: string,
                           model: Option<DamlModelInfo>): (data: EnvData)
    ensures data.Keys == metadata.Keys + {"queue", "party", "daml_model"}
  {
    (map k | k in metadata :: MetadataText(metadata[k]))["queue" := QueueSink]["party" := PartyName(party)]
      ["daml_model" := ModelInfo(model)]
  }

  /** The three runtime entries win over metadata fields of the same name;
      every other field is passed through as text. */
  lemma RuntimeEntriesWin(metadata: map<string, string>, party: string, model: Option<DamlModelInfo>)
    ensures var data := EnvironmentData(metadata, party, model);
      && data["queue"] == QueueSink && data["party"] == PartyName(party)
      && data["daml_model"] == ModelInfo(model)
      && forall k :: k in metadata && k !in {"queue", "party", "daml_model"} ==>
           data[k] == MetadataText(metadata[k])
  {
  }

  /** What the loading step cannot see: module imports, attribute lookup,
      building the environment object, and calling the entry point (each of
      the last three reporting the exception it raised, if any). */
  datatype LoadOracles = LoadOracles(
    importModule: string -> ImportOutcome,
    getAttr: (string, string) -> Option<PyException>,
    buildEnv: (Option<(string, string)>, EnvData) -> Option<PyException>,
    callEntry: (string, string) -> Option<PyException>)

  /** The exception object a failure stands for. `FAIL` raises
      `SystemExit(9)`; the deferral queue re-raises `QueueFull()`. */
  function ExceptionOf(f: Failure): (ex: PyException)
    ensures f.Fatal? ==> ex == PyException("SystemExit(9)", "9")
  {
    match f
    case Fatal(_) => PyException("SystemExit(9)", "9")
    case Raise(m) =>
      if m == QueueFullRepr then PyException(QueueFullRepr, "") else PyException("Exception('" + m + "')", m)
  }

  /** `f'{repr(ex)} - {str(ex)}'`. */
  function ErrorText(ex: PyException): string {
    ex.repr + " - " + ex.text
  }

  /** Resolve `module:symbol` to an attribute of the imported module. */
  function ResolveSymbol(text: string, oracles: LoadOracles): (r: Result<(string, string), PyException>)
    ensures ParseQualifiedSymbol(text, oracles.importModule).Err? ==>
              r == Err(ExceptionOf(ParseQualifiedSymbol(text, oracles.importModule).error))
  {
    match ParseQualifiedSymbol(text, oracles.importModule)
    case Err(f) => Err(ExceptionOf(f))
    case Ok(sym) =>
      match oracles.getAttr(sym.0, sym.1)
      case Some(ex) => Err(ex)
      case None => Ok(sym)
  }

  /** `get_integration_env_class`: the declared class when there is one,
      else `None` for the framework's own `IntegrationEnvironment`. */
  function EnvClass(itype: PackageMetadata.IntegrationTypeInfo, oracles: LoadOracles)
    : (r: Result<Option<(string, string)>, PyException>)
    ensures !Truthy(itype.envClass) ==> r == Ok(None)
  {
    if Truthy(itype.envClass) then
      var sym :- ResolveSymbol(itype.envClass.value, oracles);
      Ok(Some(sym))
    else Ok(None)
  }

  /** How far `_load` got: the contexts are created once both symbols
      resolved, and the exception that stopped it, if any. */
  datatype LoadProgress = LoadProgress(contextsCreated: bool, failure: Option<PyException>)

  function LoadSteps(ctx: Context, oracles: LoadOracles): (p: LoadProgress)
    ensures !p.contextsCreated ==> p.failure.Some?
  {
    match EnvClass(ctx.itype, oracles)
    case Err(ex) => LoadProgress(false, Some(ex))
    case Ok(envClass) =>
      match ResolveSymbol(ctx.itype.entrypoint, oracles)
      case Err(ex) => LoadProgress(false, Some(ex))
      case Ok(entry) =>
        var data := EnvironmentData(NormalizeMetadata(ctx.spec.metadata, ctx.itype), ctx.runAsParty, ctx.damlModel);
        match oracles.buildEnv(envClass, data)
        case Some(ex) => LoadProgress(true, Some(ex))
        case None => LoadProgress(true, oracles.callEntry(entry.0, entry.1))
  }

  /** `safe_load()`: `_load()` with every exception (including the
      `SystemExit` of `FAIL`) caught and recorded. The contexts exist from
      the point `_load` created them, even when a later step failed. */
  function SafeLoad(ctx: Context, oracles: LoadOracles, now: Time): (ctx': Context)
    ensures ctx'.loaded <==> ctx.loaded || LoadSteps(ctx, oracles).failure.None?
    ensures LoadSteps(ctx, oracles).failure.Some? ==>
              && ctx'.errorMessage == Some(ErrorText(LoadSteps(ctx, oracles).failure.value))
              && ctx'.errorTime == Some(now)
              && ctx'.loaded == ctx.loaded
    ensures LoadSteps(ctx, oracles).failure.None? ==>
              ctx'.errorMessage == ctx.errorMessage && ctx'.errorTime == ctx.errorTime
    ensures ctx'.ledgerContext.Some? <==> ctx.ledgerContext.Some? || LoadSteps(ctx, oracles).contextsCreated
    ensures LoadSteps(ctx, oracles).contextsCreated ==>
              && ctx'.queueContext == Some(QueueContext.Create())
              && ctx'.ledgerContext == Some(LedgerContext.Create(ctx.damlModel))
              && ctx'.webhookContext == Some(WebhookContext.Create())
    ensures ctx'.running == ctx.running && ctx'.queue == ctx.queue && ctx'.runAsParty == ctx.runAsParty
  {
    var p := LoadSteps(ctx, oracles);
    var withContexts :=
      if p.contextsCreated then
        ctx.(queueContext := Some(QueueContext.Create()),
             ledgerContext := Some(LedgerContext.Create(ctx.damlModel)),
             webhookContext := Some(WebhookContext.Create()))
      else ctx;
    match p.failure
    case Some(ex) => withContexts.(errorMessage := Some(ErrorText(ex)), errorTime := Some(now))
    case None => withContexts.(loaded := true)
  }

  /** A malformed entry point is caught by `safe_load`: the process goes on,
      nothing is loaded, and the recorded error is the `SystemExit` of
      `FAIL`. */
  lemma MalformedEntryPointRecorded(ctx: Context, oracles: LoadOracles, now: Time)
    requires !ctx.loaded
    requires !Truthy(ctx.itype.envClass) && multiset(ctx.itype.entrypoint)[':'] != 1
    ensures var ctx' := SafeLoad(ctx, oracles, now);
      && !ctx'.loaded && ctx'.errorMessage == Some("SystemExit(9) - 9")
      && ctx'.ledgerContext == ctx.ledgerContext
  {
    assert ParseQualifiedSymbol(ctx.itype.entrypoint, oracles.importModule) == Err(MalformedSymbol(ctx.itype.entrypoint));
    assert ResolveSymbol(ctx.itype.entrypoint, oracles) == Err(PyException("SystemExit(9)", "9"));
    assert LoadSteps(ctx, oracles) == LoadProgress(false, Some(PyException("SystemExit(9)", "9")));
    assert ErrorText(PyException("SystemExit(9)", "9")) == "SystemExit(9) - 9";
  }

  // ---------------------------------------------------------------------
  // Starting

  /** `repr` and `str` of the `AttributeError` from calling
      `process_sweeps` on a ledger context that was never created. */
  const NoLedgerContext := PyException("AttributeError(\"'NoneType' object has no attribute 'process_sweeps'\")",
                                       "'NoneType' object has no attribute 'process_sweeps'")

  /** `safe_start()`: wait for the ledger client (`ready` is the exception
      that wait raised, if any), process the sweeps, and only then mark the
      integration running; any exception is caught and recorded. */
  function SafeStart(ctx: Context, ready: Option<PyException>, findActive: LedgerContext.FindActive,
                     now: Time): (ctx': Context)
    ensures ctx'.running <==>
              ctx.running || (ready.None? && ctx.ledgerContext.Some? &&
                              LedgerContext.ProcessSweeps(ctx.ledgerContext.value, ctx.queue, findActive).failure.None?)
    ensures ready.Some? ==> ctx' == ctx.(errorMessage := Some(ErrorText(ready.value)), errorTime := Some(now))
    ensures ready.None? && ctx.ledgerContext.None? ==>
              ctx' == ctx.(errorMessage := Some(ErrorText(NoLedgerContext)), errorTime := Some(now))
    ensures ready.None? && ctx.ledgerContext.Some? ==>
              var sweep := LedgerContext.ProcessSweeps(ctx.ledgerContext.value, ctx.queue, findActive);
              && ctx'.queue == sweep.queue && ctx'.ledgerContext == Some(sweep.context)
              && (sweep.failure.Some? ==>
                    ctx'.errorMessage == Some(ErrorText(ExceptionOf(sweep.failure.value))) && ctx'.errorTime == Some(now))
              && (sweep.failure.None? ==> ctx'.errorMessage == ctx.errorMessage && ctx'.errorTime == ctx.errorTime)
  {
    if ready.Some? then ctx.(errorMessage := Some(ErrorText(ready.value)), errorTime := Some(now))
    else if ctx.ledgerContext.None? then
      ctx.(errorMessage := Some(ErrorText(NoLedgerContext)), errorTime := Some(now))
    else
      var sweep := LedgerContext.ProcessSweeps(ctx.ledgerContext.value, ctx.queue, findActive);
      var swept := ctx.(queue := sweep.queue, ledgerContext := Some(sweep.context));
      match sweep.failure
      case Some(f) => swept.(errorMessage := Some(ErrorText(ExceptionOf(f))), errorTime := Some(now))
      case None => swept.(running := true)
  }

  /** Once started, every sweep delivery sits in the queue after whatever
      was there before, in plan order. */
  lemma StartQueuesSweepPlan(ctx: Context, findActive: LedgerContext.FindActive, now: Time)
    requires ctx.ledgerContext.Some? && !ctx.running
    requires SafeStart(ctx, None, findActive, now).running
    ensures SafeStart(ctx, None, findActive, now).queue.pending
            == ctx.queue.pending + LedgerContext.SweepPlan(ctx.ledgerContext.value, findActive)
  {
  }

  /** An unbounded queue never stops a start whose client became ready. */
  lemma UnboundedQueueStarts(ctx: Context, findActive: LedgerContext.FindActive, now: Time)
    requires ctx.ledgerContext.Some? && ctx.queue.maxSize <= 0
    ensures SafeStart(ctx, None, findActive, now).running
  {
  }

  /** A start whose client became ready succeeds exactly when the queue has
      room for the whole sweep plan (or is unbounded). */
  lemma StartsIffRoom(ctx: Context, findActive: LedgerContext.FindActive, now: Time)
    requires ctx.ledgerContext.Some? && !ctx.running
    ensures var n := |LedgerContext.SweepPlan(ctx.ledgerContext.value, findActive)|;
            SafeStart(ctx, None, findActive, now).running <==>
              n == 0 || ctx.queue.maxSize <= 0 || |ctx.queue.pending| + n <= ctx.queue.maxSize
  {
  }

  // ---------------------------------------------------------------------
  // Status

  /** `IntegrationStatus`. An absent ledger context is reported as an empty
      list in the source and as `None` here; the time context is not part of
      this model, so `timers` is always empty. */
  datatype IntegrationStatus = IntegrationStatus(
    running: bool, startTime: Time, errorMessage: Option<string>, errorTime: Option<Time>,
    pendingEvents: nat, eventQueue: DeferralQueue.QueueStatus,
    webhooks: seq<WebhookContext.WebhookRouteStatus>,
    ledgerEvents: Option<LedgerContext.LedgerStatus>,
    timers: seq<Invocation.InvocationStatus>,
    queues: seq<QueueContext.QueueEventStatus>)

  /** `get_status()`. */
  function GetStatus(ctx: Context): (s: IntegrationStatus)
    ensures s.running == ctx.running && s.errorMessage == ctx.errorMessage && s.errorTime == ctx.errorTime
    ensures s.pendingEvents == |ctx.queue.pending| && s.eventQueue == DeferralQueue.GetStatus(ctx.queue)
    ensures ctx.webhookContext.None? ==> s.webhooks == []
    ensures ctx.webhookContext.Some? ==> |s.webhooks| == |ctx.webhookContext.value.routes|
    ensures ctx.webhookContext.Some? ==> s.webhooks == WebhookContext.GetStatus(ctx.webhookContext.value)
    ensures ctx.ledgerContext.Some? ==> s.ledgerEvents == Some(LedgerContext.GetStatus(ctx.ledgerContext.value, ctx.queue))
    ensures ctx.queueContext.Some? ==> s.queues == QueueContext.GetStatus(ctx.queueContext.value)
    ensures ctx.ledgerContext.None? <==> s.ledgerEvents.None?
    ensures ctx.ledgerContext.Some? ==> s.ledgerEvents.value.pendingCalls == s.pendingEvents
    ensures ctx.queueContext.None? ==> s.queues == []
    ensures s.timers == []
  {
    IntegrationStatus(
      ctx.running, ctx.startTime, ctx.errorMessage, ctx.errorTime,
      DeferralQueue.GetStatus(ctx.queue).pendingEvents, DeferralQueue.GetStatus(ctx.queue),
      if ctx.webhookContext.Some? then WebhookContext.GetStatus(ctx.webhookContext.value) else [],
      if ctx.ledgerContext.Some? then Some(LedgerContext.GetStatus(ctx.ledgerContext.value, ctx.queue)) else None,
      [],
      if ctx.queueContext.Some? then QueueContext.GetStatus(ctx.queueContext.value) else [])
  }

  /** A load that fails before the contexts exist leaves a status with no
      handlers, the error recorded, and the integration not running. */
  lemma FailedLoadStatus(ctx: Context, oracles: LoadOracles, now: Time)
    requires ctx.ledgerContext.None? && ctx.webhookContext.None? && ctx.queueContext.None? && !ctx.running
    requires !LoadSteps(ctx, oracles).contextsCreated
    ensures var s := GetStatus(SafeLoad(ctx, oracles, now));
      && !s.running && s.errorMessage.Some? && s.errorTime == Some(now)
      && s.webhooks == [] && s.ledgerEvents.None? && s.queues == []
  {
  }
}

=== FILE: invocation.dfy ===
/** The handler invocation wrapper (`daml_dit_if/main/common.py`): per-handler
    usage counters, normalisation of whatever a handler returns into a
    command list, and the wrapper that counts, submits and swallows errors. */
module Invocation {
  import opened Basics
  import opened Api

  /** `InvocationStatus`: identity plus usage and error counters. */
  datatype InvocationStatus = InvocationStatus(
    index: nat, labelText: Option<string>,
    commandCount: nat, useCount: nat, errorCount: nat,
    errorMessage: Option<string>, errorTime: Option<Time>)

  /** The status a registration creates: counters zeroed, no error yet. */
  function NewStatus(index: nat, labelText: Option<string>): (s: InvocationStatus)
    ensures s.index == index && s.labelText == labelText
    ensures s.commandCount == 0 && s.useCount == 0 && s.errorCount == 0
    ensures s.errorMessage.None? && s.errorTime.None?
  {
    InvocationStatus(index, labelText, 0, 0, 0, None, None)
  }

  /** What a handler's coroutine returned, by the Python type tests the
      normaliser performs: an `IntegrationResponse` (or subclass), any other
      `collections.Sequence`, or any other object together with its truth
      value (`None` is a falsy object). */
  datatype HandlerReturn =
    | ResponseValue(response: IntegrationResponse)
    | SequenceValue(items: seq<Command>)
    | ObjectValue(item: Command, truthy: bool)
    | NoneValue

  /** `normalize_integration_response`. */
  function Normalize(ret: HandlerReturn): (r: IntegrationResponse)
    ensures ret.ResponseValue? ==> r == ret.response
    ensures ret.SequenceValue? ==> r == IntegrationResponse(Some(ret.items), 5)
    ensures ret.ObjectValue? && ret.truthy ==> r == IntegrationResponse(Some([ret.item]), 5)
    ensures (ret.ObjectValue? && !ret.truthy) || ret.NoneValue? ==> r == DefaultResponse()
    ensures !ret.ResponseValue? ==> r.IntegrationResponse? && r.commandTimeout == 5
  {
    match ret
    case ResponseValue(resp) => resp
    case SequenceValue(items) => IntegrationResponse(Some(items), 5)
    case ObjectValue(item, truthy) =>
      if truthy then IntegrationResponse(Some([item]), 5) else IntegrationResponse(Some([]), 5)
    case NoneValue => IntegrationResponse(Some([]), 5)
  }

  /** The commands a normalised response asks to submit: `response.commands`
      when it is truthy (present and non-empty), else none. */
  function CommandsToSubmit(r: IntegrationResponse): (cs: seq<Command>)
    ensures cs == [] <==> r.commands.None? || r.commands.value == []
    ensures cs != [] ==> cs == r.commands.value
  {
    if r.commands.Some? then r.commands.value else []
  }

  /** The commands a handler's return value names, read directly off the
      value: a response's own list (none when it is `None`), a sequence's
      items, or the single truthy object. */
  function ReturnedCommands(ret: HandlerReturn): seq<Command> {
    match ret
    case ResponseValue(resp) => resp.commands.GetOr([])
    case SequenceValue(items) => items
    case ObjectValue(item, truthy) => if truthy then [item] else []
    case NoneValue => []
  }

  /** Normalisation neither drops, adds nor reorders commands: what is
      submitted is exactly what the handler returned. A normalised response
      is left as it is by a second normalisation. */
  lemma NormalizeKeepsCommands(ret: HandlerReturn)
    ensures CommandsToSubmit(Normalize(ret)) == ReturnedCommands(ret)
    ensures Normalize(ResponseValue(Normalize(ret))) == Normalize(ret)
  {
  }

  /** How the handler's coroutine ended. `HandlerRaised` is an `Exception`;
      `HandlerEscaped` is a `BaseException` outside `Exception` (the
      `SystemExit` of `FAIL`, or a `CancelledError`), which the wrapper's
      `except Exception` does not catch. */
  datatype HandlerOutcome = Returned(value: HandlerReturn) | HandlerRaised(exception: PyException)
                          | HandlerEscaped(exception: PyException)

  /** How the `wait_for(client.submit(commands), timeout)` ended; as for the
      handler, `SubmitEscaped` is a `BaseException` outside `Exception`. */
  datatype SubmitOutcome = Submitted | SubmitTimedOut | SubmitFailed(exception: PyException)
                         | SubmitEscaped(exception: PyException)

  /** `repr` of the `asyncio.TimeoutError` raised by `wait_for`. */
  const TimeoutRepr := "TimeoutError()"

  /** One invocation's effect: the updated status, what the wrapper
      returns (`None` after a swallowed error) and the exception that
      propagates out of it, if any. */
  datatype Invocation = Invocation(status: InvocationStatus, result: Option<IntegrationResponse>,
                                   escaped: Option<PyException>)

  /** The exception an invocation ends with, if any. The submission is only
      attempted when there are commands to submit. */
  function InvocationError(outcome: HandlerOutcome, submit: SubmitOutcome): (e: Option<string>)
  {
    match outcome
    case HandlerRaised(ex) => Some(ex.repr)
    case HandlerEscaped(_) => None
    case Returned(v) =>
      if CommandsToSubmit(Normalize(v)) == [] then None
      else
        match submit
        case Submitted => None
        case SubmitTimedOut => Some(TimeoutRepr)
        case SubmitFailed(ex) => Some(ex.repr)
        case SubmitEscaped(_) => None
  }

  /** The exception that passes through the wrapper uncaught, if any. */
  function EscapingException(outcome: HandlerOutcome, submit: SubmitOutcome): (e: Option<PyException>)
  {
    match outcome
    case HandlerEscaped(ex) => Some(ex)
    case HandlerRaised(_) => None
    case Returned(v) =>
      if CommandsToSubmit(Normalize(v)) != [] && submit.SubmitEscaped? then Some(submit.exception) else None
  }

  /** The commands an invocation counts: those of the normalised response,
      counted before the submission is attempted. */
  function CountedCommands(outcome: HandlerOutcome): nat {
    if outcome.Returned? then |CommandsToSubmit(Normalize(outcome.value))| else 0
  }

  /** `as_handler_invocation(client, status, fn)` applied once. */
  function Invoke(status: InvocationStatus, outcome: HandlerOutcome, submit: SubmitOutcome,
                  now: Time): (r: Invocation)
    ensures r.status.index == status.index && r.status.labelText == status.labelText
    ensures r.status.useCount == status.useCount + 1
    ensures r.status.commandCount == status.commandCount + CountedCommands(outcome)
    ensures InvocationError(outcome, submit).Some? ==>
              && r.result.None?
              && r.status.errorCount == status.errorCount + 1
              && r.status.errorMessage == InvocationError(outcome, submit)
              && r.status.errorTime == Some(now)
    ensures r.escaped == EscapingException(outcome, submit)
    ensures r.escaped.Some? ==>
              && r.result.None?
              && r.status.errorCount == status.errorCount
              && r.status.errorMessage == status.errorMessage
              && r.status.errorTime == status.errorTime
    ensures InvocationError(outcome, submit).None? && r.escaped.None? ==>
              && r.result == Some(Normalize(outcome.value))
              && r.status.errorCount == status.errorCount
              && r.status.errorMessage == status.errorMessage
              && r.status.errorTime == status.errorTime
  {
    var used := status.(useCount := status.useCount + 1);
    match outcome
    case HandlerRaised(ex) =>
      Invocation(used.(errorCount := used.errorCount + 1, errorMessage := Some(ex.repr),
                       errorTime := Some(now)), None, None)
    case HandlerEscaped(ex) => Invocation(used, None, Some(ex))
    case Returned(v) =>
      var response := Normalize(v);
      var commands := CommandsToSubmit(response);
      if commands == [] then Invocation(used, Some(response), None)
      else
        var counted := used.(commandCount := used.commandCount + |commands|);
        match submit
        case Submitted => Invocation(counted, Some(response), None)
        case SubmitTimedOut =>
          Invocation(counted.(errorCount := counted.errorCount + 1,
                              errorMessage := Some(TimeoutRepr), errorTime := Some(now)), None, None)
        case SubmitFailed(ex) =>
          Invocation(counted.(errorCount := counted.errorCount + 1,
                              errorMessage := Some(ex.repr), errorTime := Some(now)), None, None)
        case SubmitEscaped(ex) => Invocation(counted, None, Some(ex))
  }

  /** The wrapper catches `Exception` only: an ordinary exception is counted
      and swallowed, while the same exception raised as a `BaseException`
      outside `Exception` leaves the error fields alone and propagates. */
  lemma OnlyExceptionsCounted(status: InvocationStatus, ex: PyException, submit: SubmitOutcome, now: Time)
    ensures var caught, escaped := Invoke(status, HandlerRaised(ex), submit, now),
                                   Invoke(status, HandlerEscaped(ex), submit, now);
      && caught.escaped.None? && caught.status.errorCount == status.errorCount + 1
      && caught.status.errorMessage == Some(ex.repr)
      && escaped.escaped == Some(ex) && escaped.result.None?
      && escaped.status == status.(useCount := status.useCount + 1)
  {
  }

  /** One call of a wrapped handler: how the handler ended, how its
      submission ended, and the clock reading. */
  datatype Call = Call(outcome: HandlerOutcome, submit: SubmitOutcome, now: Time)

  /** A handler's status after a series of calls. */
  function InvokeAll(status: InvocationStatus, calls: seq<Call>): InvocationStatus
    decreases |calls|
  {
    if calls == [] then status
    else InvokeAll(Invoke(status, calls[0].outcome, calls[0].submit, calls[0].now).status, calls[1..])
  }

  /** The number of calls that end in an exception. */
  function FailedCalls(calls: seq<Call>): nat {
    if calls == [] then 0
    else (if InvocationError(calls[0].outcome, calls[0].submit).Some? then 1 else 0)
         + FailedCalls(calls[1..])
  }

  /** The number of commands counted over a series of calls. */
  function CommandsCounted(calls: seq<Call>): nat {
    if calls == [] then 0 else CountedCommands(calls[0].outcome) + CommandsCounted(calls[1..])
  }

  /** Over any series of calls the counters add up: one use per call, one
      error per failed call, every counted command, and the index is kept. */
  lemma {:induction false} InvokeAllCounts(status: InvocationStatus, calls: seq<Call>)
    ensures var s := InvokeAll(status, calls);
      && s.index == status.index && s.labelText == status.labelText
      && s.useCount == status.useCount + |calls|
      && s.errorCount == status.errorCount + FailedCalls(calls)
      && s.commandCount == status.commandCount + CommandsCounted(calls)
    decreases |calls|
  {
    if calls != [] {
      var c := calls[0];
      InvokeAllCounts(Invoke(status, c.outcome, c.submit, c.now).status, calls[1..]);
    }
  }

  /** A handler that raises on each of three calls ends with a use count and
      an error count of three. */
  lemma ThreeFailures(ex: PyException, t1: Time, t2: Time, t3: Time)
    ensures var calls := [Call(HandlerRaised(ex), Submitted, t1), Call(HandlerRaised(ex), Submitted, t2),
                          Call(HandlerRaised(ex), Submitted, t3)];
      var s := InvokeAll(NewStatus(0, None), calls);
      s.useCount == 3 && s.errorCount == 3 && s.errorTime == Some(t3)
  {
    var c1, c2, c3 := Call(HandlerRaised(ex), Submitted, t1), Call(HandlerRaised(ex), Submitted, t2),
                      Call(HandlerRaised(ex), Submitted, t3);
    var calls := [c1, c2, c3];
    var s0 := NewStatus(0, None);
    var s1 := Invoke(s0, c1.outcome, c1.submit, t1).status;
    var s2 := Invoke(s1, c2.outcome, c2.submit, t2).status;
    var s3 := Invoke(s2, c3.outcome, c3.submit, t3).status;
    assert calls[1..] == [c2, c3] && [c2, c3][1..] == [c3] && [c3][1..] == [];
    assert InvokeAll(s0, calls) == InvokeAll(s1, [c2, c3]) == InvokeAll(s2, [c3]) == s3;
  }

  /** `with_marshalling(mfn, fn)`: the wrapped handler applies `fn` to the
      marshalled argument. */
  function WithMarshalling<X(!new), Y, R>(mfn: X -> Y, fn: Y -> R): (wrapped: X -> R)
    ensures forall x :: wrapped(x) == fn(mfn(x))
  {
    x => fn(mfn(x))
  }

  /** `without_return_value(fn)`: the wrapped handler keeps the effect of
      `fn` (here: the status update) and returns nothing. */
  function WithoutReturnValue<X(!new)>(fn: X -> Invocation): (wrapped: X -> InvocationStatus)
    ensures forall x :: wrapped(x) == fn(x).status
  {
    x => fn(x).status
  }
}

=== FILE: jwks.dfy ===
/** The JWK Set cache behind token validation (`daml_dit_if/main/jwt.py`):
    keys are identified by their `kid` (section 4.5 of RFC 7517) and fetched
    as JWK Set documents with a `keys` member (section 5 of RFC 7517). The
    cache only grows: a refresh adds keys with new ids and never removes or
    replaces one. HTTP fetching and JWK parsing are inputs. */
module Jwks {
  import opened Basics

  /** A parsed key's material, kept abstract. */
  type KeyMaterial = string

  /** A key in the cache. */
  datatype Jwk = Jwk(kid: string, material: KeyMaterial)

  /** One member of a fetched `keys` array: its `kid`, if any, and the key
      `JWK(**jwk_dict)` builds from it, or `None` when that raises. */
  datatype JwkEntry = JwkEntry(kid: Option<string>, parsed: Option<KeyMaterial>)

  /** What fetching one URL gave: an exception (connection, status or JSON
      error), or a document whose `keys` member may be missing. */
  datatype FetchOutcome = FetchFailed | Fetched(keys: Option<seq<JwkEntry>>)

  /** The cache, in insertion order. jwcrypto keeps the keys in a set
      whose iteration order is unspecified; the model fixes insertion
      order, which matters only when two cached keys share a `kid`. */
  type KeySet = seq<Jwk>

  function Kids(keys: KeySet): set<string> {
    set k | k in keys :: k.kid
  }

  /** No two cached keys share a `kid`. */
  predicate UniqueKids(keys: KeySet) {
    forall i, j :: 0 <= i < j < |keys| ==> keys[i].kid != keys[j].kid
  }

  /** The entry would be added unless its `kid` is already known. */
  predicate Addable(e: JwkEntry) {
    e.kid.Some? && e.parsed.Some?
  }

  function KeyOf(e: JwkEntry): Jwk
    requires Addable(e)
  {
    Jwk(e.kid.value, e.parsed.value)
  }

  /** The kids of the entries a response would add to an empty cache. */
  function AddableKids(entries: seq<JwkEntry>): set<string> {
    set e | e in entries && Addable(e) :: e.kid.value
  }

  /** How many of `keys` have the id `kid`. */
  function KidCount(keys: KeySet, kid: string): nat
    decreases |keys|
  {
    if keys == [] then 0 else (if keys[0].kid == kid then 1 else 0) + KidCount(keys[1..], kid)
  }

  /** How many of `entries` would add a key with the id `kid`. */
  function AddableCount(entries: seq<JwkEntry>, kid: string): nat
    decreases |entries|
  {
    if entries == [] then 0
    else (if Addable(entries[0]) && entries[0].kid.value == kid then 1 else 0) + AddableCount(entries[1..], kid)
  }

  // ---------------------------------------------------------------------
  // The merge as written: kids are checked against a snapshot taken once
  // per response.

  function MergeEntriesAsWritten(keys: KeySet, known: set<string>, entries: seq<JwkEntry>): (r: KeySet)
    ensures |keys| <= |r| && r[..|keys|] == keys
    ensures Kids(r) == Kids(keys) + (AddableKids(entries) - known)
    ensures forall k :: k in r[|keys|..] ==> k.kid !in known
    decreases |entries|
  {
    if entries == [] then
      assert AddableKids(entries) == {};
      keys
    else
      var e := entries[0];
      assert AddableKids(entries) == (if Addable(e) then {e.kid.value} else {}) + AddableKids(entries[1..]);
      if Addable(e) && e.kid.value !in known then
        var keys' := keys + [KeyOf(e)];
        assert Kids(keys') == Kids(keys) + {e.kid.value};
        var r := MergeEntriesAsWritten(keys', known, entries[1..]);
        assert r[..|keys|] == keys'[..|keys|] == keys;
        TailAfterAppend(keys, KeyOf(e), r);
        r
      else
        MergeEntriesAsWritten(keys, known, entries[1..])
  }

  /** What the as-written merge appends: keys built from the entries, and
      for every kid outside the snapshot exactly as many keys as the
      entries offer with that kid, so a kid the response repeats is
      appended once per occurrence. */
  lemma {:induction false} MergeEntriesAsWrittenAppends(keys: KeySet, known: set<string>, entries: seq<JwkEntry>)
    ensures var appended := MergeEntriesAsWritten(keys, known, entries)[|keys|..];
      && (forall k :: k in appended ==> exists e :: e in entries && Addable(e) && KeyOf(e) == k)
      && (forall kid :: kid !in known ==> KidCount(appended, kid) == AddableCount(entries, kid))
    decreases |entries|
  {
    var r := MergeEntriesAsWritten(keys, known, entries);
    if entries == [] {
      assert r[|keys|..] == [];
    } else {
      var e := entries[0];
      if Addable(e) && e.kid.value !in known {
        var keys' := keys + [KeyOf(e)];
        MergeEntriesAsWrittenAppends(keys', known, entries[1..]);
        assert r == MergeEntriesAsWritten(keys', known, entries[1..]);
        assert r[|keys|] == keys'[|keys|] == KeyOf(e);
        SplitAt(r, |keys|);
        AppendedStep(known, entries, r[|keys|..], r[|keys'|..]);
      } else {
        MergeEntriesAsWrittenAppends(keys, known, entries[1..]);
        SkippedStep(known, entries, r[|keys|..]);
      }
    }
  }

  lemma SplitAt(r: KeySet, i: nat)
    requires i < |r|
    ensures r[i..] == [r[i]] + r[i + 1..]
  {
  }

  /** The keys appended after adding `entries[0]` are that key followed by
      what the rest of the entries appended. */
  lemma AppendedStep(known: set<string>, entries: seq<JwkEntry>, appended: KeySet, tail: KeySet)
    requires entries != [] && Addable(entries[0]) && entries[0].kid.value !in known
    requires appended == [KeyOf(entries[0])] + tail
    requires forall k :: k in tail ==> exists e :: e in entries[1..] && Addable(e) && KeyOf(e) == k
    requires forall kid :: kid !in known ==> KidCount(tail, kid) == AddableCount(entries[1..], kid)
    ensures forall k :: k in appended ==> exists e :: e in entries && Addable(e) && KeyOf(e) == k
    ensures forall kid :: kid !in known ==> KidCount(appended, kid) == AddableCount(entries, kid)
  {
    assert appended[1..] == tail;
    forall k | k in appended ensures exists e :: e in entries && Addable(e) && KeyOf(e) == k {
      if k != KeyOf(entries[0]) {
        var e :| e in entries[1..] && Addable(e) && KeyOf(e) == k;
        assert e in entries;
      }
    }
  }

  /** An entry that is skipped leaves the appended keys to the rest of the
      entries. */
  lemma SkippedStep(known: set<string>, entries: seq<JwkEntry>, appended: KeySet)
    requires entries != [] && !(Addable(entries[0]) && entries[0].kid.value !in known)
    requires forall k :: k in appended ==> exists e :: e in entries[1..] && Addable(e) && KeyOf(e) == k
    requires forall kid :: kid !in known ==> KidCount(appended, kid) == AddableCount(entries[1..], kid)
    ensures forall k :: k in appended ==> exists e :: e in entries && Addable(e) && KeyOf(e) == k
    ensures forall kid :: kid !in known ==> KidCount(appended, kid) == AddableCount(entries, kid)
  {
    forall k | k in appended ensures exists e :: e in entries && Addable(e) && KeyOf(e) == k {
      var e :| e in entries[1..] && Addable(e) && KeyOf(e) == k;
      assert e in entries;
    }
  }

  /** The loop over one response's `keys` as written (the snapshot of known
      kids is taken once, before the loop). */
  function MergeResponseAsWritten(keys: KeySet, entries: seq<JwkEntry>): (r: KeySet)
    ensures |keys| <= |r| && r[..|keys|] == keys
    ensures Kids(r) == Kids(keys) + AddableKids(entries)
    ensures forall k :: k in r[|keys|..] ==> k.kid !in Kids(keys)
    ensures forall k :: k in r[|keys|..] ==> exists e :: e in entries && Addable(e) && KeyOf(e) == k
    ensures forall kid :: kid !in Kids(keys) ==> KidCount(r[|keys|..], kid) == AddableCount(entries, kid)
  {
    MergeEntriesAsWrittenAppends(keys, Kids(keys), entries);
    MergeEntriesAsWritten(keys, Kids(keys), entries)
  }

  /** A response that lists one new `kid` twice makes the as-written merge
      cache two keys with the same id; the corrected merge caches the first
      only. */
  lemma DuplicateKidWithinResponse(kid: string, m1: KeyMaterial, m2: KeyMaterial)
    ensures var entries := [JwkEntry(Some(kid), Some(m1)), JwkEntry(Some(kid), Some(m2))];
      && MergeResponseAsWritten([], entries) == [Jwk(kid, m1), Jwk(kid, m2)]
      && !UniqueKids(MergeResponseAsWritten([], entries))
      && MergeEntries([], entries) == [Jwk(kid, m1)]
      && UniqueKids(MergeEntries([], entries))
  {
    var e1, e2 := JwkEntry(Some(kid), Some(m1)), JwkEntry(Some(kid), Some(m2));
    var entries := [e1, e2];
    assert entries[1..] == [e2] && [e2][1..] == [];
    assert Kids([]) == {};
    var none: set<string> := {};
    var k1: KeySet := [Jwk(kid, m1)];
    var k0: KeySet := [];
    assert k0 + [KeyOf(e1)] == k1 && k1 + [KeyOf(e2)] == [Jwk(kid, m1), Jwk(kid, m2)];
    assert MergeEntriesAsWritten(k0, none, entries) == MergeEntriesAsWritten(k1, none, [e2]);
    assert MergeEntriesAsWritten(k1, none, [e2]) == MergeEntriesAsWritten([Jwk(kid, m1), Jwk(kid, m2)], none, []);
    var twice := MergeResponseAsWritten([], entries);
    assert twice[0].kid == twice[1].kid;
    assert Kids([Jwk(kid, m1)]) == {kid};
    assert MergeEntries([], entries) == MergeEntries([Jwk(kid, m1)], [e2]) == MergeEntries([Jwk(kid, m1)], []);
  }

  // ---------------------------------------------------------------------
  // The corrected merge: every added key's `kid` joins the known set.

  /** Merge one response's entries, skipping kid-less, unparseable and
      already-known keys. */
  function MergeEntries(keys: KeySet, entries: seq<JwkEntry>): (r: KeySet)
    ensures |keys| <= |r| && r[..|keys|] == keys
    ensures Kids(r) == Kids(keys) + AddableKids(entries)
    ensures forall k :: k in r[|keys|..] ==> k.kid !in Kids(keys)
    ensures forall k :: k in r[|keys|..] ==> exists e :: e in entries && Addable(e) && KeyOf(e) == k
    ensures UniqueKids(keys) ==> UniqueKids(r)
    decreases |entries|
  {
    if entries == [] then
      assert AddableKids(entries) == {};
      keys
    else
      var e := entries[0];
      if Addable(e) && e.kid.value !in Kids(keys) then
        var r := MergeEntries(keys + [KeyOf(e)], entries[1..]);
        MergeEntriesAddStep(keys, entries, r);
        r
      else
        var r := MergeEntries(keys, entries[1..]);
        MergeEntriesSkipStep(keys, entries, r);
        r
  }

  /** The corrected merge's step for an entry it adds: what holds of the
      rest after `keys + [KeyOf(entries[0])]` holds of all entries after
      `keys`. */
  lemma MergeEntriesAddStep(keys: KeySet, entries: seq<JwkEntry>, r: KeySet)
    requires entries != [] && Addable(entries[0]) && entries[0].kid.value !in Kids(keys)
    requires var keys' := keys + [KeyOf(entries[0])];
      && |keys'| <= |r| && r[..|keys'|] == keys'
      && Kids(r) == Kids(keys') + AddableKids(entries[1..])
      && (forall k :: k in r[|keys'|..] ==> k.kid !in Kids(keys'))
      && (forall k :: k in r[|keys'|..] ==> exists e :: e in entries[1..] && Addable(e) && KeyOf(e) == k)
      && (UniqueKids(keys') ==> UniqueKids(r))
    ensures |keys| <= |r| && r[..|keys|] == keys
    ensures Kids(r) == Kids(keys) + AddableKids(entries)
    ensures forall k :: k in r[|keys|..] ==> k.kid !in Kids(keys)
    ensures forall k :: k in r[|keys|..] ==> exists e :: e in entries && Addable(e) && KeyOf(e) == k
    ensures UniqueKids(keys) ==> UniqueKids(r)
  {
    var e := entries[0];
    var keys' := keys + [KeyOf(e)];
    assert AddableKids(entries) == {e.kid.value} + AddableKids(entries[1..]);
    assert Kids(keys') == Kids(keys) + {e.kid.value};
    assert r[..|keys|] == keys'[..|keys|] == keys;
    TailAfterAppend(keys, KeyOf(e), r);
    forall k | k in r[|keys|..] ensures exists e' :: e' in entries && Addable(e') && KeyOf(e') == k {
      if k != KeyOf(e) {
        var e' :| e' in entries[1..] && Addable(e') && KeyOf(e') == k;
        assert e' in entries;
      }
    }
  }

  /** The corrected merge's step for an entry it skips. */
  lemma MergeEntriesSkipStep(keys: KeySet, entries: seq<JwkEntry>, r: KeySet)
    requires entries != [] && !(Addable(entries[0]) && entries[0].kid.value !in Kids(keys))
    requires && |keys| <= |r| && r[..|keys|] == keys
             && Kids(r) == Kids(keys) + AddableKids(entries[1..])
             && (forall k :: k in r[|keys|..] ==> k.kid !in Kids(keys))
             && (forall k :: k in r[|keys|..] ==> exists e :: e in entries[1..] && Addable(e) && KeyOf(e) == k)
    ensures Kids(r) == Kids(keys) + AddableKids(entries)
    ensures forall k :: k in r[|keys|..] ==> exists e :: e in entries && Addable(e) && KeyOf(e) == k
  {
    var e := entries[0];
    assert AddableKids(entries) == (if Addable(e) then {e.kid.value} else {}) + AddableKids(entries[1..]);
    forall k | k in r[|keys|..] ensures exists e' :: e' in entries && Addable(e') && KeyOf(e') == k {
      var e' :| e' in entries[1..] && Addable(e') && KeyOf(e') == k;
      assert e' in entries;
    }
  }

  /** What follows a prefix `keys` in `r` is the appended key `x` followed by
      what follows `keys + [x]`. */
  lemma TailAfterAppend(keys: KeySet, x: Jwk, r: KeySet)
    requires |keys| + 1 <= |r| && r[..|keys| + 1] == keys + [x]
    ensures forall k :: k in r[|keys|..] ==> k == x || k in r[|keys| + 1..]
  {
    assert r[|keys|..] == [x] + r[|keys| + 1..];
  }

  /** One response's keys merged into the cache, by the chosen reading. */
  function MergeResponse(reading: Reading, keys: KeySet, entries: seq<JwkEntry>): (r: KeySet)
    ensures |keys| <= |r| && r[..|keys|] == keys
    ensures Kids(r) == Kids(keys) + AddableKids(entries)
    ensures reading == Corrected && UniqueKids(keys) ==> UniqueKids(r)
  {
    match reading
    case AsWritten => MergeResponseAsWritten(keys, entries)
    case Corrected => MergeEntries(keys, entries)
  }

  /** The cache after the response from one URL: a failed fetch or a
      document without `keys` leaves it as it was. */
  function MergeFetched(reading: Reading, keys: KeySet, response: FetchOutcome): KeySet {
    match response
    case Fetched(Some(entries)) => MergeResponse(reading, keys, entries)
    case _ => keys
  }

  /** `_load_new_keys()` over the URLs in order: a failed fetch or a document
      without `keys` is skipped and the next URL is tried. Only the corrected
      reading keeps kids unique. */
  function LoadNewKeys(reading: Reading, keys: KeySet, responses: seq<FetchOutcome>): (r: KeySet)
    ensures |keys| <= |r| && r[..|keys|] == keys
    ensures reading == Corrected && UniqueKids(keys) ==> UniqueKids(r)
    decreases |responses|
  {
    if responses == [] then keys
    else
      var merged := MergeFetched(reading, keys, responses[0]);
      var r := LoadNewKeys(reading, merged, responses[1..]);
      assert r[..|keys|] == r[..|merged|][..|keys|];
      r
  }

  /** The kids that the responses would contribute. */
  function FetchedKids(responses: seq<FetchOutcome>): set<string>
    decreases |responses|
  {
    if responses == [] then {}
    else
      (match responses[0]
       case Fetched(Some(entries)) => AddableKids(entries)
       case _ => {})
      + FetchedKids(responses[1..])
  }

  /** After a refresh the cache knows exactly the kids it knew before plus
      every kid some response offered with a parseable key: a failing URL
      or a missing `keys` member costs only that URL's keys. This holds of
      the code as written as well as of the corrected merge. */
  lemma {:induction false} LoadNewKeysKids(reading: Reading, keys: KeySet, responses: seq<FetchOutcome>)
    ensures Kids(LoadNewKeys(reading, keys, responses)) == Kids(keys) + FetchedKids(responses)
    decreases |responses|
  {
    if responses != [] {
      LoadNewKeysKids(reading, MergeFetched(reading, keys, responses[0]), responses[1..]);
    }
  }

  /** The readings differ in duplicates only: both refreshes end up knowing
      the same kids. */
  lemma LoadNewKeysReadingsSameKids(keys: KeySet, responses: seq<FetchOutcome>)
    ensures Kids(LoadNewKeys(AsWritten, keys, responses)) == Kids(LoadNewKeys(Corrected, keys, responses))
  {
    LoadNewKeysKids(AsWritten, keys, responses);
    LoadNewKeysKids(Corrected, keys, responses);
  }

  /** The URLs are independent: refreshing from two lists in turn is the
      same as refreshing from their concatenation, under either reading. */
  lemma {:induction false} LoadNewKeysAppend(reading: Reading, keys: KeySet, first: seq<FetchOutcome>,
                                             second: seq<FetchOutcome>)
    ensures LoadNewKeys(reading, keys, first + second)
            == LoadNewKeys(reading, LoadNewKeys(reading, keys, first), second)
    decreases |first|
  {
    if first != [] {
      assert (first + second)[1..] == first[1..] + second;
      LoadNewKeysAppend(reading, MergeFetched(reading, keys, first[0]), first[1..], second);
    } else {
      assert first + second == second;
    }
  }

  /** The refresh as written stores both keys of a response that lists one
      new `kid` twice; the corrected refresh stores the first only. */
  lemma RefreshAsWrittenDuplicatesKid(kid: string, m1: KeyMaterial, m2: KeyMaterial)
    ensures var response := Fetched(Some([JwkEntry(Some(kid), Some(m1)), JwkEntry(Some(kid), Some(m2))]));
      && LoadNewKeys(AsWritten, [], [response]) == [Jwk(kid, m1), Jwk(kid, m2)]
      && LoadNewKeys(Corrected, [], [response]) == [Jwk(kid, m1)]
  {
    var entries := [JwkEntry(Some(kid), Some(m1)), JwkEntry(Some(kid), Some(m2))];
    var response := Fetched(Some(entries));
    DuplicateKidWithinResponse(kid, m1, m2);
    assert [response][1..] == [];
    assert LoadNewKeys(AsWritten, [], [response]) == LoadNewKeys(AsWritten, MergeResponseAsWritten([], entries), []);
    assert LoadNewKeys(Corrected, [], [response]) == LoadNewKeys(Corrected, MergeEntries([], entries), []);
  }

  /** `JWKSet.get_key(kid)`: the cached key with that id. */
  function Lookup(keys: KeySet, kid: string): (r: Option<Jwk>)
    ensures r.Some? <==> kid in Kids(keys)
    ensures r.Some? ==> r.value in keys && r.value.kid == kid
  {
    if keys == [] then None
    else if keys[0].kid == kid then Some(keys[0])
    else
      assert Kids(keys) == {keys[0].kid} + Kids(keys[1..]);
      Lookup(keys[1..], kid)
  }

  /** With unique kids the order of the cache does not matter: the key
      found is the one key with that `kid`, wherever it sits. */
  lemma {:induction false} LookupUniqueKey(keys: KeySet, kid: string, k: Jwk)
    requires UniqueKids(keys) && k in keys && k.kid == kid
    ensures Lookup(keys, kid) == Some(k)
    decreases |keys|
  {
    if keys[0] != k {
      var i :| 0 <= i < |keys| && keys[i] == k;
      assert keys[0].kid != kid;
      assert keys[1..][i - 1] == k;
      LookupUniqueKey(keys[1..], kid, k);
    }
  }

  /** A key, once found, is still the key found after the cache grows
      (under insertion order; see `KeySet`). */
  lemma {:induction false} LookupStableUnderGrowth(keys: KeySet, more: KeySet, kid: string)
    requires Lookup(keys, kid).Some?
    ensures Lookup(keys + more, kid) == Lookup(keys, kid)
    decreases |keys|
  {
    assert keys != [];
    if keys[0].kid != kid {
      assert (keys + more)[1..] == keys[1..] + more;
      LookupStableUnderGrowth(keys[1..], more, kid);
    }
  }

  /** `get_key(kid)`: the cache after the call, the key found and whether a
      refresh happened. */
  datatype KeyLookup = KeyLookup(keys: KeySet, key: Option<Jwk>, refreshed: bool)

  /** A known `kid` is served from the cache; an unknown one triggers exactly
      one refresh (from `responses`) and a second lookup. */
  function GetKey(reading: Reading, keys: KeySet, kid: string, responses: seq<FetchOutcome>): (r: KeyLookup)
    ensures kid in Kids(keys) ==> !r.refreshed && r.keys == keys && r.key == Lookup(keys, kid)
    ensures kid !in Kids(keys) ==> r.refreshed && r.keys == LoadNewKeys(reading, keys, responses)
    ensures r.key.Some? <==> kid in Kids(r.keys)
    ensures r.key.Some? ==> r.key.value in r.keys && r.key.value.kid == kid
  {
    match Lookup(keys, kid)
    case Some(k) => KeyLookup(keys, Some(k), false)
    case None =>
      var keys' := LoadNewKeys(reading, keys, responses);
      KeyLookup(keys', Lookup(keys', kid), true)
  }

  /** After an unknown `kid` is fetched, it is found without another
      refresh, and as the same key. */
  lemma GetKeyThenCached(reading: Reading, keys: KeySet, kid: string, responses: seq<FetchOutcome>,
                         later: seq<FetchOutcome>)
    requires GetKey(reading, keys, kid, responses).key.Some?
    ensures var first := GetKey(reading, keys, kid, responses);
      var second := GetKey(reading, first.keys, kid, later);
      !second.refreshed && second.key == first.key && second.keys == first.keys
  {
  }
}

=== FILE: ledger_context.dfy ===
/** Ledger event handlers (`daml_dit_if/main/integration_ledger_context.py`):
    the registry of handler statuses, the sweep / init / ready lists and the
    dazl subscriptions the registrations create, the start-up sweep, and the
    marshalling of dazl events into the integration's event types. Every
    handler call is deferred through the shared work queue. */
module LedgerContext {
  import opened Basics
  import opened Api
  import opened Invocation
  import opened Work
  import DeferralQueue

  /** `LedgerHandlerStatus`: invocation counters plus what was registered. */
  datatype LedgerHandlerStatus = LedgerHandlerStatus(
    status: InvocationStatus, description: string, sweepEnabled: bool, flowEnabled: bool)

  /** A dazl `ContractMatch` content filter, kept as field constraints. */
  type ContractMatch = map<string, string>

  /** A sweep registration: template, filter and the handler's index. */
  datatype Sweep = Sweep(template: string, filter: Option<ContractMatch>, handler: nat)

  /** A subscription a registration makes on the dazl client. */
  datatype Subscription =
    | CreatedSubscription(template: string, filter: Option<ContractMatch>, handler: nat)
    | ArchivedSubscription(template: string, filter: Option<ContractMatch>, handler: nat)
    | TransactionStartSubscription(handler: nat)
    | TransactionEndSubscription(handler: nat)

  /** `IntegrationLedgerContext`'s state. The dazl client's subscription list
      is kept here as `subscriptions`. */
  datatype Context = Context(
    handlers: seq<LedgerHandlerStatus>,
    sweeps: seq<Sweep>,
    initHandlers: seq<nat>,
    readyHandlers: seq<nat>,
    subscriptions: seq<Subscription>,
    sweepEvents: nat,
    damlModel: Option<DamlModelInfo>)

  function Create(damlModel: Option<DamlModelInfo>): (ctx: Context)
    ensures Valid(ctx) && ctx.handlers == [] && ctx.sweepEvents == 0
    ensures ctx.damlModel == damlModel
  {
    Context([], [], [], [], [], 0, damlModel)
  }

  /** Each status's index is its position, and every sweep, init, ready and
      subscription entry refers to a registered handler. */
  ghost predicate Valid(ctx: Context) {
    && (forall i :: 0 <= i < |ctx.handlers| ==> ctx.handlers[i].status.index == i)
    && (forall s :: s in ctx.sweeps ==> s.handler < |ctx.handlers|)
    && (forall h :: h in ctx.initHandlers ==> h < |ctx.handlers|)
    && (forall h :: h in ctx.readyHandlers ==> h < |ctx.handlers|)
    && (forall s :: s in ctx.subscriptions ==> s.handler < |ctx.handlers|)
  }

  /** The status a registration appends (`_notice_handler`). */
  function NewHandler(ctx: Context, description: string, sweep: bool, flow: bool): LedgerHandlerStatus {
    LedgerHandlerStatus(NewStatus(|ctx.handlers|, None), description, sweep, flow)
  }

  /** `ctx'` has one more handler status than `ctx`, with the next index,
      zeroed counters and the given description and flags. */
  ghost predicate AddsHandler(ctx: Context, ctx': Context, description: string, sweep: bool, flow: bool) {
    && ctx'.handlers == ctx.handlers + [NewHandler(ctx, description, sweep, flow)]
    && ctx'.handlers[|ctx.handlers|].status.index == |ctx.handlers|
    && ctx'.sweepEvents == ctx.sweepEvents
    && ctx'.damlModel == ctx.damlModel
  }

  /** `ledger_init()` with its decorator applied. */
  function LedgerInit(ctx: Context): (ctx': Context)
    ensures AddsHandler(ctx, ctx', "Ledger Init", false, true)
    ensures ctx'.initHandlers == ctx.initHandlers + [|ctx.handlers|]
    ensures ctx'.sweeps == ctx.sweeps && ctx'.readyHandlers == ctx.readyHandlers
    ensures ctx'.subscriptions == ctx.subscriptions
  {
    ctx.(handlers := ctx.handlers + [NewHandler(ctx, "Ledger Init", false, true)],
         initHandlers := ctx.initHandlers + [|ctx.handlers|])
  }

  /** `ledger_ready()` with its decorator applied. */
  function LedgerReady(ctx: Context): (ctx': Context)
    ensures AddsHandler(ctx, ctx', "Ledger Ready", false, true)
    ensures ctx'.readyHandlers == ctx.readyHandlers + [|ctx.handlers|]
    ensures ctx'.sweeps == ctx.sweeps && ctx'.initHandlers == ctx.initHandlers
    ensures ctx'.subscriptions == ctx.subscriptions
  {
    ctx.(handlers := ctx.handlers + [NewHandler(ctx, "Ledger Ready", false, true)],
         readyHandlers := ctx.readyHandlers + [|ctx.handlers|])
  }

  /** `transaction_start()` with its decorator applied. */
  function TransactionStartHandler(ctx: Context): (ctx': Context)
    ensures AddsHandler(ctx, ctx', "Transaction Start", false, true)
    ensures ctx'.subscriptions == ctx.subscriptions + [TransactionStartSubscription(|ctx.handlers|)]
    ensures ctx'.sweeps == ctx.sweeps && ctx'.initHandlers == ctx.initHandlers
    ensures ctx'.readyHandlers == ctx.readyHandlers
  {
    ctx.(handlers := ctx.handlers + [NewHandler(ctx, "Transaction Start", false, true)],
         subscriptions := ctx.subscriptions + [TransactionStartSubscription(|ctx.handlers|)])
  }

  /** `transaction_end()` with its decorator applied. */
  function TransactionEndHandler(ctx: Context): (ctx': Context)
    ensures AddsHandler(ctx, ctx', "Transaction End", false, true)
    ensures ctx'.subscriptions == ctx.subscriptions + [TransactionEndSubscription(|ctx.handlers|)]
    ensures ctx'.sweeps == ctx.sweeps && ctx'.initHandlers == ctx.initHandlers
    ensures ctx'.readyHandlers == ctx.readyHandlers
  {
    ctx.(handlers := ctx.handlers + [NewHandler(ctx, "Transaction End", false, true)],
         subscriptions := ctx.subscriptions + [TransactionEndSubscription(|ctx.handlers|)])
  }

  /** The template a contract registration uses: qualified through
      `ensure_package_id` when package defaulting is on, verbatim otherwise. */
  function RegisteredTemplate(ctx: Context, template: string, packageDefaulting: bool,
                              packageRef: string -> string): (r: Result<string, Failure>)
    ensures !packageDefaulting ==> r == Ok(template)
    ensures packageDefaulting ==> r == EnsurePackageId(ctx.damlModel, template, packageRef)
  {
    if packageDefaulting then EnsurePackageId(ctx.damlModel, template, packageRef) else Ok(template)
  }

  /** `contract_created(template, match, sweep, flow, package_defaulting)`
      with its decorator applied: a sweep entry iff `sweep`, a created-event
      subscription iff `flow`. */
  function ContractCreated(ctx: Context, template: string, filter: Option<ContractMatch>,
                           sweep: bool, flow: bool, packageDefaulting: bool,
                           packageRef: string -> string): (r: Result<Context, Failure>)
    ensures r.Err? <==> RegisteredTemplate(ctx, template, packageDefaulting, packageRef).Err?
    ensures r.Ok? ==>
      var t := RegisteredTemplate(ctx, template, packageDefaulting, packageRef).value;
      var h := |ctx.handlers|;
      && AddsHandler(ctx, r.value, "Contract Create - " + t, sweep, flow)
      && r.value.sweeps == ctx.sweeps + (if sweep then [Sweep(t, filter, h)] else [])
      && r.value.subscriptions == ctx.subscriptions + (if flow then [CreatedSubscription(t, filter, h)] else [])
      && r.value.initHandlers == ctx.initHandlers && r.value.readyHandlers == ctx.readyHandlers
  {
    var t :- RegisteredTemplate(ctx, template, packageDefaulting, packageRef);
    var h := |ctx.handlers|;
    Ok(ctx.(handlers := ctx.handlers + [NewHandler(ctx, "Contract Create - " + t, sweep, flow)],
            sweeps := ctx.sweeps + (if sweep then [Sweep(t, filter, h)] else []),
            subscriptions := ctx.subscriptions + (if flow then [CreatedSubscription(t, filter, h)] else [])))
  }

  /** `contract_archived(template, match, package_defaulting)` with its
      decorator applied. */
  function ContractArchived(ctx: Context, template: string, filter: Option<ContractMatch>,
                            packageDefaulting: bool, packageRef: string -> string): (r: Result<Context, Failure>)
    ensures r.Err? <==> RegisteredTemplate(ctx, template, packageDefaulting, packageRef).Err?
    ensures r.Ok? ==>
      var t := RegisteredTemplate(ctx, template, packageDefaulting, packageRef).value;
      && AddsHandler(ctx, r.value, "Contract Archive - " + t, false, true)
      && r.value.subscriptions == ctx.subscriptions + [ArchivedSubscription(t, filter, |ctx.handlers|)]
      && r.value.sweeps == ctx.sweeps
      && r.value.initHandlers == ctx.initHandlers && r.value.readyHandlers == ctx.readyHandlers
  {
    var t :- RegisteredTemplate(ctx, template, packageDefaulting, packageRef);
    Ok(ctx.(handlers := ctx.handlers + [NewHandler(ctx, "Contract Archive - " + t, false, true)],
            subscriptions := ctx.subscriptions + [ArchivedSubscription(t, filter, |ctx.handlers|)]))
  }

  /** A registration, as one value. */
  datatype Registration =
    | InitRegistration
    | ReadyRegistration
    | StartRegistration
    | EndRegistration
    | CreatedRegistration(template: string, filter: Option<ContractMatch>, sweep: bool, flow: bool,
                          packageDefaulting: bool)
    | ArchivedRegistration(template: string, filter: Option<ContractMatch>, packageDefaulting: bool)

  /** Applying one decorator: only a contract registration can fail (its
      template qualification), and a registration that succeeds adds exactly
      one handler status, at the next position. */
  function Register(ctx: Context, reg: Registration, packageRef: string -> string): (r: Result<Context, Failure>)
    ensures r.Err? ==> reg.CreatedRegistration? || reg.ArchivedRegistration?
    ensures r.Ok? ==> |r.value.handlers| == |ctx.handlers| + 1 && r.value.handlers[..|ctx.handlers|] == ctx.handlers
  {
    match reg
    case InitRegistration => Ok(LedgerInit(ctx))
    case ReadyRegistration => Ok(LedgerReady(ctx))
    case StartRegistration => Ok(TransactionStartHandler(ctx))
    case EndRegistration => Ok(TransactionEndHandler(ctx))
    case CreatedRegistration(t, m, s, f, d) => ContractCreated(ctx, t, m, s, f, d, packageRef)
    case ArchivedRegistration(t, m, d) => ContractArchived(ctx, t, m, d, packageRef)
  }

  /** Every registration keeps the registry valid; a failed one leaves no
      context behind to speak of. */
  lemma RegisterPreservesValid(ctx: Context, reg: Registration, packageRef: string -> string)
    requires Valid(ctx)
    ensures Register(ctx, reg, packageRef).Ok? ==> Valid(Register(ctx, reg, packageRef).value)
  {
    if Register(ctx, reg, packageRef).Ok? {
      var ctx' := Register(ctx, reg, packageRef).value;
      assert |ctx'.handlers| == |ctx.handlers| + 1;
      forall i | 0 <= i < |ctx'.handlers|
        ensures ctx'.handlers[i].status.index == i
      {
        if i < |ctx.handlers| {
          assert ctx'.handlers[i] == ctx.handlers[i];
        }
      }
    }
  }

  /** A contract registration with neither sweep nor flow leaves its handler
      unreachable: no sweep entry and no subscription refers to it. */
  lemma SilentRegistrationUnreachable(ctx: Context, template: string, filter: Option<ContractMatch>,
                                      packageDefaulting: bool, packageRef: string -> string)
    requires Valid(ctx)
    requires ContractCreated(ctx, template, filter, false, false, packageDefaulting, packageRef).Ok?
    ensures var ctx' := ContractCreated(ctx, template, filter, false, false, packageDefaulting, packageRef).value;
      && (forall s :: s in ctx'.sweeps ==> s.handler != |ctx.handlers|)
      && (forall s :: s in ctx'.subscriptions ==> s.handler != |ctx.handlers|)
      && |ctx.handlers| !in ctx'.initHandlers && |ctx.handlers| !in ctx'.readyHandlers
  {
  }

  // ---------------------------------------------------------------------
  // Marshalling of dazl events

  /** A contract event as dazl delivers it: id and (for creates) data. */
  datatype DazlContractEvent = DazlContractEvent(cid: ContractId, cdata: Option<ContractData>)

  /** A dazl transaction boundary event. */
  datatype DazlTransactionEvent = DazlTransactionEvent(
    commandId: string, workflowId: string, contractEvents: seq<DazlContractEvent>)

  /** `_to_int_create_event`: a flow create, never initial. */
  function ToIntCreateEvent(e: DazlContractEvent): (r: ContractEvent)
    ensures r.CreateEvent? && !r.initial
    ensures r.cid == e.cid && r.cdata == e.cdata
  {
    CreateEvent(e.cid, false, e.cdata)
  }

  /** The archive marshaller: only the contract id is kept. */
  function ToIntArchiveEvent(e: DazlContractEvent): (r: ContractEvent)
    ensures r.ArchiveEvent? && r.cid == e.cid
  {
    ArchiveEvent(e.cid)
  }

  /** A transaction boundary event of the given kind; its contract events go
      through `_to_int_create_event`. */
  function ToIntTransactionEvent(boundary: Boundary, e: DazlTransactionEvent): (r: TransactionEvent)
    ensures r.boundary == boundary
    ensures r.commandId == e.commandId && r.workflowId == e.workflowId
    ensures |r.contractEvents| == |e.contractEvents|
    ensures forall i :: 0 <= i < |r.contractEvents| ==>
              r.contractEvents[i] == ToIntCreateEvent(e.contractEvents[i])
  {
    TransactionEvent(boundary, e.commandId, e.workflowId,
      seq(|e.contractEvents|, i requires 0 <= i < |e.contractEvents| => ToIntCreateEvent(e.contractEvents[i])))
  }

  /** The marshaller `transaction_start` installs, as written: it builds the
      end-of-transaction event class. */
  function ToIntTransactionStartEventAsWritten(e: DazlTransactionEvent): (r: TransactionEvent)
    ensures r.boundary == TransactionEnd
    ensures r.(boundary := TransactionStart) == ToIntTransactionEvent(TransactionStart, e)
  {
    ToIntTransactionEvent(TransactionEnd, e)
  }

  /** A transaction-start handler registered as written receives an event it
      cannot tell apart from a transaction end; the corrected marshaller
      gives it the start event. */
  lemma TransactionStartMarshalledAsEnd(e: DazlTransactionEvent)
    ensures ToIntTransactionStartEventAsWritten(e).boundary == TransactionEnd
    ensures ToIntTransactionStartEventAsWritten(e) == ToIntTransactionEvent(TransactionEnd, e)
    ensures ToIntTransactionEvent(TransactionStart, e).boundary == TransactionStart
    ensures ToIntTransactionStartEventAsWritten(e) != ToIntTransactionEvent(TransactionStart, e)
  {
  }

  /** An event as the dazl client hands it to a subscription callback. */
  datatype DazlEvent =
    | DazlCreated(contract: DazlContractEvent)
    | DazlArchived(contract: DazlContractEvent)
    | DazlTransactionStart(transaction: DazlTransactionEvent)
    | DazlTransactionEnd(transaction: DazlTransactionEvent)

  /** The call a subscription defers for an event, or `None` when the
      subscription is not for this kind of event. Template and filter
      matching are the dazl client's and are not modelled. Read `AsWritten`,
      a transaction start goes through the marshaller `transaction_start`
      installs; read `Corrected`, it becomes a start event. */
  function Marshal(reading: Reading, sub: Subscription, e: DazlEvent): (r: Option<PendingCall>)
    ensures r.Some? <==> (sub.CreatedSubscription? && e.DazlCreated?) || (sub.ArchivedSubscription? && e.DazlArchived?)
                         || (sub.TransactionStartSubscription? && e.DazlTransactionStart?)
                         || (sub.TransactionEndSubscription? && e.DazlTransactionEnd?)
    ensures r.Some? && e.DazlCreated? ==> r.value == ContractCall(ToIntCreateEvent(e.contract))
    ensures r.Some? && e.DazlArchived? ==> r.value == ContractCall(ArchiveEvent(e.contract.cid))
    ensures r.Some? && e.DazlTransactionStart? ==>
              r.value == TransactionCall(ToIntTransactionEvent(
                           if reading == AsWritten then TransactionEnd else TransactionStart, e.transaction))
    ensures r.Some? && e.DazlTransactionEnd? ==> r.value == TransactionCall(ToIntTransactionEvent(TransactionEnd, e.transaction))
    ensures r.Some? && r.value.TransactionCall? ==>
              forall ce :: ce in r.value.transactionEvent.contractEvents ==> ce.CreateEvent? && !ce.initial
  {
    match (sub, e)
    case (CreatedSubscription(_, _, _), DazlCreated(c)) => Some(ContractCall(ToIntCreateEvent(c)))
    case (ArchivedSubscription(_, _, _), DazlArchived(c)) => Some(ContractCall(ToIntArchiveEvent(c)))
    case (TransactionStartSubscription(_), DazlTransactionStart(t)) =>
      if reading == AsWritten then Some(TransactionCall(ToIntTransactionStartEventAsWritten(t)))
      else Some(TransactionCall(ToIntTransactionEvent(TransactionStart, t)))
    case (TransactionEndSubscription(_), DazlTransactionEnd(t)) =>
      Some(TransactionCall(ToIntTransactionEvent(TransactionEnd, t)))
    case _ => None
  }

  /** The two readings differ only for a transaction start, which the code
      as written hands over as an end event carrying the same ids and
      contract events. */
  lemma MarshalReadingsDifferOnlyOnStart(sub: Subscription, e: DazlEvent)
    ensures !(sub.TransactionStartSubscription? && e.DazlTransactionStart?) ==>
              Marshal(AsWritten, sub, e) == Marshal(Corrected, sub, e)
    ensures sub.TransactionStartSubscription? && e.DazlTransactionStart? ==>
              && Marshal(AsWritten, sub, e).value.transactionEvent.boundary == TransactionEnd
              && Marshal(Corrected, sub, e).value.transactionEvent.boundary == TransactionStart
              && Marshal(AsWritten, sub, e).value.transactionEvent.(boundary := TransactionStart)
                 == Marshal(Corrected, sub, e).value.transactionEvent
  {
  }

  /** A subscription callback: the marshalled call is put on the work queue
      for the subscription's handler; an overflow reaches the dazl client. */
  function Deliver(reading: Reading, q: WorkQueue, sub: Subscription, e: DazlEvent): (p: Posted)
    ensures Marshal(reading, sub, e).None? ==> p == Posted(q, None)
    ensures Marshal(reading, sub, e).Some? ==>
              p.queue.totalEvents == q.totalEvents + 1
              && (!q.Full() ==>
                    && p.failure.None?
                    && p.queue.pending == q.pending + [DeferralQueue.QueueAction(Marshal(reading, sub, e).value,
                                                                                 LedgerHandler(sub.handler))])
              && (q.Full() ==> p.failure == Some(Raise(QueueFullRepr)) && p.queue.pending == q.pending)
  {
    match Marshal(reading, sub, e)
    case None => Posted(q, None)
    case Some(call) => Post(q, call, LedgerHandler(sub.handler))
  }

  // ---------------------------------------------------------------------
  // The start-up sweep

  /** The ledger client's `find_active(template, match)`: the active
      contracts in the order it yields them. */
  type FindActive = (string, Option<ContractMatch>) -> seq<(ContractId, ContractData)>

  /** The deferred calls of a list of init or ready handlers. */
  function HandlerCalls(call: PendingCall, handlers: seq<nat>): (items: seq<WorkItem>)
    ensures |items| == |handlers|
    ensures forall i :: 0 <= i < |items| ==> items[i] == DeferralQueue.QueueAction(call, LedgerHandler(handlers[i]))
  {
    seq(|handlers|, i requires 0 <= i < |handlers| => DeferralQueue.QueueAction(call, LedgerHandler(handlers[i])))
  }

  /** The deferred calls of one sweep: one initial create event per active
      contract, for the sweep's handler. */
  function SweepDeliveries(sw: Sweep, active: seq<(ContractId, ContractData)>): (items: seq<WorkItem>)
    ensures |items| == |active|
    ensures forall i :: 0 <= i < |items| ==>
      items[i] == DeferralQueue.QueueAction(ContractCall(CreateEvent(active[i].0, true, Some(active[i].1))),
                                            LedgerHandler(sw.handler))
  {
    seq(|active|, i requires 0 <= i < |active| =>
      DeferralQueue.QueueAction(ContractCall(CreateEvent(active[i].0, true, Some(active[i].1))),
                                LedgerHandler(sw.handler)))
  }

  /** The total number of contracts the sweeps find. */
  function ActiveCount(sweeps: seq<Sweep>, findActive: FindActive): nat {
    if sweeps == [] then 0
    else |findActive(sweeps[0].template, sweeps[0].filter)| + ActiveCount(sweeps[1..], findActive)
  }

  /** The deferred calls of all sweeps, in registration order. */
  function SweepCalls(sweeps: seq<Sweep>, findActive: FindActive): (items: seq<WorkItem>)
    ensures |items| == ActiveCount(sweeps, findActive)
    ensures forall it :: it in items ==> it.action.ContractCall? && it.action.contractEvent.CreateEvent?
                                         && it.action.contractEvent.initial
    ensures forall it :: it in items ==> exists s :: s in sweeps && it.status == LedgerHandler(s.handler)
  {
    if sweeps == [] then []
    else
      var first := SweepDeliveries(sweeps[0], findActive(sweeps[0].template, sweeps[0].filter));
      var rest := SweepCalls(sweeps[1..], findActive);
      assert forall it :: it in rest ==> exists s :: s in sweeps && it.status == LedgerHandler(s.handler) by {
        forall it | it in rest ensures exists s :: s in sweeps && it.status == LedgerHandler(s.handler) {
          var s :| s in sweeps[1..] && it.status == LedgerHandler(s.handler);
          assert s in sweeps;
        }
      }
      assert forall it :: it in first ==> it.status == LedgerHandler(sweeps[0].handler);
      first + rest
  }

  /** The `j`-th contract that `find_active` yields for sweep `k` sits in
      `items`, after `offset` earlier calls and the contracts of the sweeps
      before `k`, as an initial create event for that sweep's handler. */
  ghost predicate SweepEntryAt(items: seq<WorkItem>, offset: nat, sweeps: seq<Sweep>, findActive: FindActive,
                               k: nat, j: nat) {
    && k < |sweeps|
    && var active := findActive(sweeps[k].template, sweeps[k].filter);
       var pos := offset + ActiveCount(sweeps[..k], findActive) + j;
       && j < |active| && pos < |items|
       && items[pos] == DeferralQueue.QueueAction(ContractCall(CreateEvent(active[j].0, true, Some(active[j].1))),
                                                  LedgerHandler(sweeps[k].handler))
  }

  /** The sweeps run in registration order and each sweep's contracts go to
      that sweep's own handler: the `j`-th contract `find_active` yields for
      sweep `k` is delivered right after the contracts of the sweeps before
      `k`, as an initial create event carrying that contract. */
  lemma {:induction false} SweepCallsPositions(sweeps: seq<Sweep>, findActive: FindActive, k: nat, j: nat)
    requires k < |sweeps| && j < |findActive(sweeps[k].template, sweeps[k].filter)|
    ensures SweepEntryAt(SweepCalls(sweeps, findActive), 0, sweeps, findActive, k, j)
    decreases k
  {
    var first := SweepDeliveries(sweeps[0], findActive(sweeps[0].template, sweeps[0].filter));
    var rest := SweepCalls(sweeps[1..], findActive);
    assert SweepCalls(sweeps, findActive) == first + rest;
    if k == 0 {
      assert sweeps[..0] == [];
    } else {
      SweepCallsPositions(sweeps[1..], findActive, k - 1, j);
      SweepEntryShift(sweeps, findActive, k, j, first, rest);
    }
  }

  /** A later sweep's entry keeps its place behind the first sweep's
      deliveries. */
  lemma SweepEntryShift(sweeps: seq<Sweep>, findActive: FindActive, k: nat, j: nat,
                        first: seq<WorkItem>, rest: seq<WorkItem>)
    requires 0 < k < |sweeps|
    requires |first| == |findActive(sweeps[0].template, sweeps[0].filter)|
    requires SweepEntryAt(rest, 0, sweeps[1..], findActive, k - 1, j)
    ensures SweepEntryAt(first + rest, 0, sweeps, findActive, k, j)
  {
    var inner := ActiveCount(sweeps[1..][..k - 1], findActive) + j;
    assert sweeps[1..][k - 1] == sweeps[k];
    assert sweeps[..k][0] == sweeps[0] && sweeps[..k][1..] == sweeps[1..][..k - 1];
    assert ActiveCount(sweeps[..k], findActive) + j == |first| + inner;
    assert (first + rest)[|first| + inner] == rest[inner];
  }

  /** What `process_sweeps` puts on the work queue, in order: the init
      handlers, then every sweep's active contracts, then the ready handlers. */
  function SweepPlan(ctx: Context, findActive: FindActive): (plan: seq<WorkItem>)
    ensures |plan| == |ctx.initHandlers| + ActiveCount(ctx.sweeps, findActive) + |ctx.readyHandlers|
    ensures forall i :: 0 <= i < |ctx.initHandlers| ==> plan[i].action == LedgerInitCall
    ensures forall i :: |plan| - |ctx.readyHandlers| <= i < |plan| ==> plan[i].action == LedgerReadyCall
  {
    HandlerCalls(LedgerInitCall, ctx.initHandlers) + SweepCalls(ctx.sweeps, findActive)
      + HandlerCalls(LedgerReadyCall, ctx.readyHandlers)
  }

  /** The phase of `process_sweeps` a deferred call belongs to. */
  function Phase(call: PendingCall): nat {
    match call
    case LedgerInitCall => 0
    case LedgerReadyCall => 2
    case _ => 1
  }

  /** The plan runs the phases in order: init before sweep before ready; the
      sweep phase consists of initial creates only. */
  lemma SweepPlanOrdered(ctx: Context, findActive: FindActive)
    ensures var plan := SweepPlan(ctx, findActive);
      && (forall i, j :: 0 <= i < j < |plan| ==> Phase(plan[i].action) <= Phase(plan[j].action))
      && (forall i :: 0 <= i < |plan| && Phase(plan[i].action) == 1 ==>
            plan[i].action.ContractCall? && plan[i].action.contractEvent.CreateEvent?
            && plan[i].action.contractEvent.initial)
      && |plan| == |ctx.initHandlers| + ActiveCount(ctx.sweeps, findActive) + |ctx.readyHandlers|
  {
    var inits := HandlerCalls(LedgerInitCall, ctx.initHandlers);
    var sweeps := SweepCalls(ctx.sweeps, findActive);
    var readies := HandlerCalls(LedgerReadyCall, ctx.readyHandlers);
    var plan := SweepPlan(ctx, findActive);
    forall i | 0 <= i < |plan|
      ensures Phase(plan[i].action) == (if i < |inits| then 0 else if i < |inits| + |sweeps| then 1 else 2)
      ensures Phase(plan[i].action) == 1 ==>
                && plan[i].action.ContractCall?
                && plan[i].action.contractEvent.CreateEvent? && plan[i].action.contractEvent.initial
    {
      if i < |inits| {
        assert plan[i] == inits[i];
      } else if i < |inits| + |sweeps| {
        assert plan[i] == sweeps[i - |inits|];
        assert sweeps[i - |inits|] in sweeps;
      } else {
        assert plan[i] == readies[i - |inits| - |sweeps|];
      }
    }
  }

  /** The plan position by position: the `i`-th init handler's call, then
      the `j`-th contract of sweep `k` at its place among the sweeps, then the
      `i`-th ready handler's call. */
  lemma SweepPlanContents(ctx: Context, findActive: FindActive)
    ensures var plan := SweepPlan(ctx, findActive);
      var nInit, nSweep := |ctx.initHandlers|, ActiveCount(ctx.sweeps, findActive);
      && |plan| == nInit + nSweep + |ctx.readyHandlers|
      && (forall i :: 0 <= i < nInit ==>
            plan[i] == DeferralQueue.QueueAction(LedgerInitCall, LedgerHandler(ctx.initHandlers[i])))
      && (forall i :: 0 <= i < |ctx.readyHandlers| ==>
            plan[nInit + nSweep + i] == DeferralQueue.QueueAction(LedgerReadyCall, LedgerHandler(ctx.readyHandlers[i])))
    ensures forall k, j :: 0 <= k < |ctx.sweeps| && 0 <= j < |findActive(ctx.sweeps[k].template, ctx.sweeps[k].filter)| ==>
              SweepEntryAt(SweepPlan(ctx, findActive), |ctx.initHandlers|, ctx.sweeps, findActive, k, j)
  {
    var inits := HandlerCalls(LedgerInitCall, ctx.initHandlers);
    var sweeps := SweepCalls(ctx.sweeps, findActive);
    var readies := HandlerCalls(LedgerReadyCall, ctx.readyHandlers);
    var plan := SweepPlan(ctx, findActive);
    assert plan == inits + sweeps + readies;
    forall k, j | 0 <= k < |ctx.sweeps| && 0 <= j < |findActive(ctx.sweeps[k].template, ctx.sweeps[k].filter)|
      ensures SweepEntryAt(plan, |ctx.initHandlers|, ctx.sweeps, findActive, k, j)
    {
      SweepPlanSweepAt(ctx, findActive, k, j);
    }
  }

  lemma SweepPlanSweepAt(ctx: Context, findActive: FindActive, k: nat, j: nat)
    requires k < |ctx.sweeps| && j < |findActive(ctx.sweeps[k].template, ctx.sweeps[k].filter)|
    ensures SweepEntryAt(SweepPlan(ctx, findActive), |ctx.initHandlers|, ctx.sweeps, findActive, k, j)
  {
    var inits := HandlerCalls(LedgerInitCall, ctx.initHandlers);
    var sweeps := SweepCalls(ctx.sweeps, findActive);
    var readies := HandlerCalls(LedgerReadyCall, ctx.readyHandlers);
    var plan := SweepPlan(ctx, findActive);
    assert plan == inits + sweeps + readies;
    SweepCallsPositions(ctx.sweeps, findActive, k, j);
    var pos := ActiveCount(ctx.sweeps[..k], findActive) + j;
    assert plan[|inits| + pos] == sweeps[pos];
  }

  /** Under a valid registry every call of the plan belongs to a registered
      handler. */
  lemma SweepPlanOwnersRegistered(ctx: Context, findActive: FindActive)
    requires Valid(ctx)
    ensures forall it :: it in SweepPlan(ctx, findActive) ==>
              it.status.LedgerHandler? && it.status.index < |ctx.handlers|
  {
    var inits := HandlerCalls(LedgerInitCall, ctx.initHandlers);
    var sweeps := SweepCalls(ctx.sweeps, findActive);
    var readies := HandlerCalls(LedgerReadyCall, ctx.readyHandlers);
    forall it | it in SweepPlan(ctx, findActive)
      ensures it.status.LedgerHandler? && it.status.index < |ctx.handlers|
    {
      if it in inits {
        var i :| 0 <= i < |inits| && inits[i] == it;
        assert ctx.initHandlers[i] in ctx.initHandlers;
      } else if it in sweeps {
        var s :| s in ctx.sweeps && it.status == LedgerHandler(s.handler);
      } else {
        assert it in readies;
        var i :| 0 <= i < |readies| && readies[i] == it;
        assert ctx.readyHandlers[i] in ctx.readyHandlers;
      }
    }
  }

  /** Putting a list of calls one after another, stopping at the first that
      overflows (its `QueueFull` ends `process_sweeps`). */
  datatype PutAllResult = PutAllResult(queue: WorkQueue, accepted: nat, overflowed: bool)

  function PutAll(q: WorkQueue, items: seq<WorkItem>): (r: PutAllResult)
    ensures r.accepted <= |items|
    ensures !r.overflowed <==> r.accepted == |items|
    ensures r.queue.pending == q.pending + items[..r.accepted]
    ensures r.queue.maxSize == q.maxSize
    ensures r.queue.totalEvents == q.totalEvents + r.accepted + (if r.overflowed then 1 else 0)
    ensures r.queue.skippedEvents == q.skippedEvents + (if r.overflowed then 1 else 0)
    ensures q.maxSize <= 0 ==> !r.overflowed
    ensures r.overflowed <==> |items| > 0 && q.maxSize > 0 && |q.pending| + |items| > q.maxSize
    ensures r.overflowed ==> r.queue.Full()
    ensures q.Valid() && r.overflowed ==> r.accepted == q.maxSize - |q.pending|
    ensures q.Valid() ==> r.queue.Valid()
    decreases |items|
  {
    if items == [] then PutAllResult(q, 0, false)
    else
      match DeferralQueue.Put(q, items[0])
      case Overflow(q1) => PutAllResult(q1, 0, true)
      case Enqueued(q1) =>
        var rest := PutAll(q1, items[1..]);
        assert items[..rest.accepted + 1] == [items[0]] + items[1..][..rest.accepted];
        rest.(accepted := rest.accepted + 1)
  }

  /** What `process_sweeps` leaves: the context (only `sweep_events` moves),
      the work queue, and the `QueueFull` that stopped it, if any. */
  datatype SweepOutcome = SweepOutcome(context: Context, queue: WorkQueue, failure: Option<Failure>)

  /** The number of sweep contracts counted when the puts stopped after
      `attempted` put attempts; the counter moves before each put. */
  function SweepsCounted(nInit: nat, nSweep: nat, attempted: nat): (n: nat)
    ensures n <= nSweep
  {
    if attempted <= nInit then 0 else if attempted - nInit >= nSweep then nSweep else attempted - nInit
  }

  /** How many of `items` are sweep-phase calls. */
  function SweepEntries(items: seq<WorkItem>): nat
    decreases |items|
  {
    if items == [] then 0 else (if Phase(items[0].action) == 1 then 1 else 0) + SweepEntries(items[1..])
  }

  lemma {:induction false} SweepEntriesAppend(xs: seq<WorkItem>, ys: seq<WorkItem>)
    ensures SweepEntries(xs + ys) == SweepEntries(xs) + SweepEntries(ys)
    decreases |xs|
  {
    if xs == [] {
      assert xs + ys == ys;
    } else {
      assert (xs + ys)[1..] == xs[1..] + ys;
      SweepEntriesAppend(xs[1..], ys);
    }
  }

  /** A run of calls all in one phase has that many sweep calls or none. */
  lemma {:induction false} SweepEntriesOfPhase(items: seq<WorkItem>, phase: nat)
    requires forall i :: 0 <= i < |items| ==> Phase(items[i].action) == phase
    ensures SweepEntries(items) == if phase == 1 then |items| else 0
    decreases |items|
  {
    if items != [] {
      SweepEntriesOfPhase(items[1..], phase);
    }
  }

  /** The counter `process_sweeps` moves before each sweep put is the number
      of sweep calls among the attempted puts. */
  lemma SweepsCountedAttempted(ctx: Context, findActive: FindActive, attempted: nat)
    requires attempted <= |SweepPlan(ctx, findActive)|
    ensures SweepEntries(SweepPlan(ctx, findActive)[..attempted])
            == SweepsCounted(|ctx.initHandlers|, ActiveCount(ctx.sweeps, findActive), attempted)
  {
    var inits := HandlerCalls(LedgerInitCall, ctx.initHandlers);
    var sweeps := SweepCalls(ctx.sweeps, findActive);
    var readies := HandlerCalls(LedgerReadyCall, ctx.readyHandlers);
    assert forall i :: 0 <= i < |sweeps| ==> sweeps[i] in sweeps;
    PhasedPrefixCount(inits, sweeps, readies, attempted);
  }

  /** In calls phased init, sweep, ready, a prefix holds as many sweep calls
      as it reaches into the sweep phase. */
  lemma PhasedPrefixCount(a: seq<WorkItem>, b: seq<WorkItem>, c: seq<WorkItem>, n: nat)
    requires forall i :: 0 <= i < |a| ==> Phase(a[i].action) == 0
    requires forall i :: 0 <= i < |b| ==> Phase(b[i].action) == 1
    requires forall i :: 0 <= i < |c| ==> Phase(c[i].action) == 2
    requires n <= |a| + |b| + |c|
    ensures SweepEntries((a + b + c)[..n]) == SweepsCounted(|a|, |b|, n)
  {
    var all := a + b + c;
    if n <= |a| {
      assert all[..n] == a[..n];
      SweepEntriesOfPhase(a[..n], 0);
    } else if n <= |a| + |b| {
      var b' := b[..n - |a|];
      assert all[..n] == a + b';
      SweepEntriesAppend(a, b');
      SweepEntriesOfPhase(a, 0);
      SweepEntriesOfPhase(b', 1);
    } else {
      var c' := c[..n - |a| - |b|];
      assert all[..n] == (a + b) + c';
      SweepEntriesAppend(a + b, c');
      SweepEntriesAppend(a, b);
      SweepEntriesOfPhase(a, 0);
      SweepEntriesOfPhase(b, 1);
      SweepEntriesOfPhase(c', 2);
    }
  }

  /** `process_sweeps()`. */
  function ProcessSweeps(ctx: Context, q: WorkQueue, findActive: FindActive): (r: SweepOutcome)
    ensures r.context == ctx.(sweepEvents := r.context.sweepEvents)
    ensures r.failure.None? ==>
              && r.queue.pending == q.pending + SweepPlan(ctx, findActive)
              && r.context.sweepEvents == ctx.sweepEvents + ActiveCount(ctx.sweeps, findActive)
    ensures r.failure.Some? ==>
              && r.failure.value == Raise(QueueFullRepr)
              && (exists k ::
                    && 0 <= k < |SweepPlan(ctx, findActive)|
                    && r.queue.pending == q.pending + SweepPlan(ctx, findActive)[..k]
                    && r.context.sweepEvents == ctx.sweepEvents + SweepEntries(SweepPlan(ctx, findActive)[..k + 1]))
    ensures q.maxSize <= 0 ==> r.failure.None?
    ensures r.failure.Some? <==>
              var n := |SweepPlan(ctx, findActive)|;
              n > 0 && q.maxSize > 0 && |q.pending| + n > q.maxSize
    ensures q.Valid() && r.failure.Some? ==> |r.queue.pending| == q.maxSize
    ensures r.queue.maxSize == q.maxSize
    ensures r.queue.totalEvents == q.totalEvents + (|r.queue.pending| - |q.pending|)
                                   + (if r.failure.Some? then 1 else 0)
    ensures r.queue.skippedEvents == q.skippedEvents + (if r.failure.Some? then 1 else 0)
    ensures q.Valid() ==> r.queue.Valid()
  {
    var plan := SweepPlan(ctx, findActive);
    var put := PutAll(q, plan);
    var attempted := if put.overflowed then put.accepted + 1 else put.accepted;
    var nSweep := ActiveCount(ctx.sweeps, findActive);
    var counted := SweepsCounted(|ctx.initHandlers|, nSweep, attempted);
    assert !put.overflowed ==> plan[..put.accepted] == plan;
    assert !put.overflowed ==> counted == nSweep by {
      SweepPlanOrdered(ctx, findActive);
    }
    SweepsCountedAttempted(ctx, findActive, attempted);
    SweepOutcome(ctx.(sweepEvents := ctx.sweepEvents + counted), put.queue,
                 if put.overflowed then Some(Raise(QueueFullRepr)) else None)
  }

  // ---------------------------------------------------------------------
  // Running deferred calls and reporting

  /** The worker runs a deferred call of handler `index`: that handler's
      status records the invocation and nothing else changes. */
  function RunHandler(ctx: Context, index: nat, outcome: HandlerOutcome, submit: SubmitOutcome,
                      now: Time): (ctx': Context)
    requires index < |ctx.handlers|
    ensures |ctx'.handlers| == |ctx.handlers|
    ensures ctx'.handlers[index].status == Invoke(ctx.handlers[index].status, outcome, submit, now).status
    ensures forall i :: 0 <= i < |ctx.handlers| && i != index ==> ctx'.handlers[i] == ctx.handlers[i]
    ensures forall i :: 0 <= i < |ctx.handlers| ==>
              ctx'.handlers[i].description == ctx.handlers[i].description
              && ctx'.handlers[i].status.index == ctx.handlers[i].status.index
    ensures ctx' == ctx.(handlers := ctx'.handlers)
  {
    var h := ctx.handlers[index];
    ctx.(handlers := ctx.handlers[index := h.(status := Invoke(h.status, outcome, submit, now).status)])
  }

  /** Running a handler keeps the registry valid. */
  lemma RunHandlerPreservesValid(ctx: Context, index: nat, outcome: HandlerOutcome, submit: SubmitOutcome,
                                 now: Time)
    requires Valid(ctx) && index < |ctx.handlers|
    ensures Valid(RunHandler(ctx, index, outcome, submit, now))
  {
  }

  /** `IntegrationLedgerStatus`. */
  datatype LedgerStatus = LedgerStatus(pendingCalls: nat, sweepEvents: nat, eventHandlers: seq<LedgerHandlerStatus>)

  /** `get_status()`: the pending count is the shared queue's. */
  function GetStatus(ctx: Context, q: WorkQueue): (s: LedgerStatus)
    ensures s.pendingCalls == DeferralQueue.GetStatus(q).pendingEvents
    ensures s.sweepEvents == ctx.sweepEvents && s.eventHandlers == ctx.handlers
  {
    LedgerStatus(|q.pending|, ctx.sweepEvents, ctx.handlers)
  }
}

=== FILE: log.dfy ===
/** The framework's own logging level (`daml_dit_if/main/log.py`): one value
    on a 0..50 scale, mapped onto the levels of four Python loggers. */
module Log {
  import opened Basics
  import opened Text

  datatype LoggerLevel = Debug | Info

  /** The module-level `_level` together with the levels it last gave the
      `integration`, `daml-dit-if`, `dazl` and root loggers. */
  datatype LogState = LogState(
    level: int, integration: LoggerLevel, framework: LoggerLevel, dazl: LoggerLevel, root: LoggerLevel)

  const MinLevel := 0
  const MaxLevel := 50

  /** The state at import time: `_level` is 0. */
  function Initial(): (s: LogState)
    ensures GetLogLevel(s) == 0 && !IsDebugEnabled(s)
  {
    LogState(0, Info, Info, Info, Info)
  }

  function GetLogLevel(s: LogState): int {
    s.level
  }

  /** `is_debug_enabled()`. */
  predicate IsDebugEnabled(s: LogState) {
    GetLogLevel(s) >= 20
  }

  function Threshold(level: int, atLeast: int): LoggerLevel {
    if level >= atLeast then Debug else Info
  }

  /** `set_log_level(level)`: a level outside [0, 50] ends the process
      through `FAIL`; any other level is stored and mapped onto the loggers. */
  function SetLogLevel(s: LogState, level: int): (r: Result<LogState, Failure>)
    ensures r.Err? <==> level < MinLevel || level > MaxLevel
    ensures r.Err? ==> r.error == Fatal("Requested log level, " + IntToString(level)
                                        + ", is out of the valid range [0,50].")
    ensures r.Ok? ==> GetLogLevel(r.value) == level
    ensures r.Ok? ==> (r.value.integration == Debug <==> level >= 10)
    ensures r.Ok? ==> (r.value.framework == Debug <==> level >= 20)
    ensures r.Ok? ==> (r.value.dazl == Debug <==> level >= 40)
    ensures r.Ok? ==> (r.value.root == Debug <==> level >= 40)
  {
    if level < MinLevel || level > MaxLevel then
      Err(Fatal("Requested log level, " + IntToString(level) + ", is out of the valid range [0,50]."))
    else
      Ok(LogState(level, Threshold(level, 10), Threshold(level, 20), Threshold(level, 40), Threshold(level, 40)))
  }

  /** A successful set is read back by `get_log_level`, and debug output
      is enabled exactly from level 20 up. */
  lemma SetLevelReadBack(s: LogState, level: int)
    requires MinLevel <= level <= MaxLevel
    ensures SetLogLevel(s, level).Ok?
    ensures GetLogLevel(SetLogLevel(s, level).value) == level
    ensures IsDebugEnabled(SetLogLevel(s, level).value) <==> level >= 20
  {
  }

  /** After any successful set, `is_debug_enabled` agrees with the level of
      the framework's own logger. */
  lemma DebugEnabledMatchesFrameworkLogger(s: LogState, level: int)
    requires SetLogLevel(s, level).Ok?
    ensures IsDebugEnabled(SetLogLevel(s, level).value) <==> SetLogLevel(s, level).value.framework == Debug
  {
  }

  /** The levels are nested: a logger that logs debug output at some level
      keeps doing so at every higher level. */
  lemma HigherLevelsLogMore(s: LogState, low: int, high: int)
    requires SetLogLevel(s, low).Ok? && SetLogLevel(s, high).Ok? && low <= high
    ensures var a, b := SetLogLevel(s, low).value, SetLogLevel(s, high).value;
      && (a.integration == Debug ==> b.integration == Debug)
      && (a.framework == Debug ==> b.framework == Debug)
      && (a.dazl == Debug ==> b.dazl == Debug)
      && (a.framework == Debug ==> a.integration == Debug)
      && (a.dazl == Debug ==> a.framework == Debug)
  {
  }

  /** An entry of `get_log_level_options()`. */
  datatype LogLevelOption = LogLevelOption(labelText: string, value: int)

  function LogLevelOptions(): (options: seq<LogLevelOption>)
    ensures |options| == 4
    ensures forall i, j :: 0 <= i < j < |options| ==> options[i].value < options[j].value
    ensures forall o :: o in options ==> MinLevel <= o.value <= MaxLevel
    ensures options[0] == LogLevelOption("Runtime", 0) && options[1] == LogLevelOption("Low", 10)
    ensures options[2] == LogLevelOption("High", 20) && options[3] == LogLevelOption("All", 50)
  {
    [LogLevelOption("Runtime", 0), LogLevelOption("Low", 10), LogLevelOption("High", 20),
     LogLevelOption("All", 50)]
  }

  /** Every offered option is a level `set_log_level` accepts. */
  lemma OptionsAreSettable(s: LogState, o: LogLevelOption)
    requires o in LogLevelOptions()
    ensures SetLogLevel(s, o.value).Ok? && GetLogLevel(SetLogLevel(s, o.value).value) == o.value
  {
  }
}

=== FILE: package_metadata.dfy ===
/** Package metadata (`daml_dit_if/main/package_metadata_introspection.py`):
    where the `dabl-meta.yaml` text comes from, and the table of integration
    types the package declares. */
module PackageMetadata {
  import opened Basics
  import opened Api

  const MetaName := "dabl-meta.yaml"

  /** One configurable field of an integration type. */
  datatype FieldInfo = FieldInfo(id: string, fieldType: string)

  /** `IntegrationTypeInfo`, the parts the runtime reads. */
  datatype IntegrationTypeInfo = IntegrationTypeInfo(
    id: string, name: string, entrypoint: string, envClass: Option<string>,
    runtime: Option<string>, fields: seq<FieldInfo>)

  /** `PackageMetadata`: the current and the deprecated list of integration
      types, and the package's DAML model. */
  datatype PackageMeta = PackageMeta(
    integrationTypes: Option<seq<IntegrationTypeInfo>>,
    integrations: Option<seq<IntegrationTypeInfo>>,
    damlModel: Option<DamlModelInfo>)

  /** `get_pex_dabl_meta() or get_local_dabl_meta()`: the text read from the
      running package file, and when that is missing or empty the local file
      read (`None` when a read failed). */
  function MetadataText(pex: Option<string>, local: Option<string>): (text: Option<string>)
    ensures Truthy(pex) ==> text == pex
    ensures !Truthy(pex) ==> text == local
  {
    if Truthy(pex) then pex else local
  }

  /** `get_package_metadata()`. `decode` stands for the YAML load followed by
      the typed conversion, either of which may raise. */
  function GetPackageMetadata(pex: Option<string>, local: Option<string>,
                              decode: string -> Result<PackageMeta, Failure>): (r: Result<PackageMeta, Failure>)
    ensures !Truthy(pex) && !Truthy(local) ==>
              r == Err(Raise("Could not find " + MetaName + ", either in running DIT file or locally."))
    ensures Truthy(pex) ==> r == decode(pex.value)
    ensures !Truthy(pex) && Truthy(local) ==> r == decode(local.value)
  {
    var text := MetadataText(pex, local);
    if Truthy(text) then decode(text.value)
    else Err(Raise("Could not find " + MetaName + ", either in running DIT file or locally."))
  }

  /** The local file is never consulted when the packaged metadata has
      text. */
  lemma PackagedMetadataWins(pex: Option<string>, local1: Option<string>, local2: Option<string>,
                             decode: string -> Result<PackageMeta, Failure>)
    requires Truthy(pex)
    ensures GetPackageMetadata(pex, local1, decode) == GetPackageMetadata(pex, local2, decode)
  {
  }

  /** A read that failed and a file that is empty are treated alike, for
      either source. */
  lemma EmptyMetadataIsMissing(pex: Option<string>, local: Option<string>,
                               decode: string -> Result<PackageMeta, Failure>)
    ensures GetPackageMetadata(None, local, decode) == GetPackageMetadata(Some(""), local, decode)
    ensures GetPackageMetadata(pex, None, decode) == GetPackageMetadata(pex, Some(""), decode)
  {
  }

  /** `integration_types or integrations or []`: an empty list counts as
      absent, so a package that declares only the deprecated list still
      works. */
  function PackageItypes(meta: PackageMeta): (itypes: seq<IntegrationTypeInfo>)
    ensures meta.integrationTypes.Some? && meta.integrationTypes.value != [] ==>
              itypes == meta.integrationTypes.value
    ensures (meta.integrationTypes.None? || meta.integrationTypes.value == []) ==>
              itypes == (if meta.integrations.Some? then meta.integrations.value else [])
  {
    if meta.integrationTypes.Some? && meta.integrationTypes.value != [] then meta.integrationTypes.value
    else if meta.integrations.Some? then meta.integrations.value
    else []
  }

  /** The position of the last entry with the given id. */
  predicate IsLastWithId(itypes: seq<IntegrationTypeInfo>, i: int, id: string) {
    && 0 <= i < |itypes| && itypes[i].id == id
    && forall j :: i < j < |itypes| ==> itypes[j].id != id
  }

  /** `{itype.id: itype for itype in package_itypes}`, one entry at a time
      in declaration order, so a later entry overwrites an earlier one. */
  function IndexById(itypes: seq<IntegrationTypeInfo>): map<string, IntegrationTypeInfo>
    decreases |itypes|
  {
    if itypes == [] then map[]
    else
      var last := itypes[|itypes| - 1];
      IndexById(itypes[..|itypes| - 1])[last.id := last]
  }

  /** Every declared id is a key. */
  lemma {:induction false} IndexByIdHasAll(itypes: seq<IntegrationTypeInfo>)
    ensures forall i :: 0 <= i < |itypes| ==> itypes[i].id in IndexById(itypes)
    decreases |itypes|
  {
    if itypes != [] {
      var init := itypes[..|itypes| - 1];
      IndexByIdHasAll(init);
      forall i | 0 <= i < |itypes| - 1
        ensures itypes[i].id in IndexById(itypes)
      {
        assert itypes[i] == init[i];
      }
    }
  }

  /** Nothing but a declared id is a key, and a repeated id keeps its last
      declaration. */
  lemma {:induction false} IndexByIdLastWins(itypes: seq<IntegrationTypeInfo>, id: string)
    requires id in IndexById(itypes)
    ensures exists i :: IsLastWithId(itypes, i, id) && IndexById(itypes)[id] == itypes[i]
    decreases |itypes|
  {
    var init := itypes[..|itypes| - 1];
    var last := itypes[|itypes| - 1];
    if id == last.id {
      assert IsLastWithId(itypes, |itypes| - 1, id);
    } else {
      IndexByIdLastWins(init, id);
      var i :| IsLastWithId(init, i, id) && IndexById(init)[id] == init[i];
      assert IsLastWithId(itypes, i, id);
    }
  }

  /** Both halves for every key. */
  lemma IndexByIdCorrect(itypes: seq<IntegrationTypeInfo>)
    ensures forall i :: 0 <= i < |itypes| ==> itypes[i].id in IndexById(itypes)
    ensures forall id :: id in IndexById(itypes) ==>
              exists i :: IsLastWithId(itypes, i, id) && IndexById(itypes)[id] == itypes[i]
  {
    IndexByIdHasAll(itypes);
    forall id | id in IndexById(itypes)
      ensures exists i :: IsLastWithId(itypes, i, id) && IndexById(itypes)[id] == itypes[i]
    {
      IndexByIdLastWins(itypes, id);
    }
  }

  /** `package_meta_integration_types(package_metadata)`, and main's
      `_get_integration_types`, which is the same function. */
  function IntegrationTypes(meta: PackageMeta): (types: map<string, IntegrationTypeInfo>)
    ensures forall itype :: itype in PackageItypes(meta) ==> itype.id in types
    ensures forall id :: id in types ==> types[id] in PackageItypes(meta) && types[id].id == id
  {
    IndexByIdCorrect(PackageItypes(meta));
    IndexById(PackageItypes(meta))
  }

  predicate DistinctIds(itypes: seq<IntegrationTypeInfo>) {
    forall i, j :: 0 <= i < j < |itypes| ==> itypes[i].id != itypes[j].id
  }

  /** With no repeated ids, each declared type is found under its own id. */
  lemma DistinctIdsAllFound(meta: PackageMeta)
    requires DistinctIds(PackageItypes(meta))
    ensures forall itype :: itype in PackageItypes(meta) ==> IntegrationTypes(meta)[itype.id] == itype
  {
    var s := PackageItypes(meta);
    IndexByIdHasAll(s);
    forall itype | itype in s
      ensures IntegrationTypes(meta)[itype.id] == itype
    {
      var k :| 0 <= k < |s| && s[k] == itype;
      IndexByIdLastWins(s, itype.id);
      var i :| IsLastWithId(s, i, itype.id) && IndexById(s)[itype.id] == s[i];
      if i != k {
        assert false;
      }
    }
  }

  /** A package that declares types only in the deprecated list is read
      from it. */
  lemma DeprecatedListUsed(legacy: seq<IntegrationTypeInfo>, model: Option<DamlModelInfo>)
    ensures IntegrationTypes(PackageMeta(None, Some(legacy), model)) == IndexById(legacy)
    ensures IntegrationTypes(PackageMeta(Some([]), Some(legacy), model)) == IndexById(legacy)
  {
  }
}

=== FILE: queue_context.dfy ===
/** Internal message queues (`daml_dit_if/main/integration_queue_context.py`):
    a registry from queue name to exactly one handler, and the sink that
    handler code uses to post a message to a named queue. */
module QueueContext {
  import opened Basics
  import opened Invocation
  import opened Work
  import DeferralQueue

  /** `QueueEventStatus`: a handler's invocation status plus its queue name. */
  datatype QueueEventStatus = QueueEventStatus(status: InvocationStatus, queueName: string)

  /** The `queues` dictionary, in insertion order. The sink holds the same
      dictionary, so it is modelled by passing the context itself. */
  datatype Context = Context(queues: seq<QueueEventStatus>)

  function Create(): (ctx: Context)
    ensures Valid(ctx) && Names(ctx) == []
  {
    Context([])
  }

  function Names(ctx: Context): (names: seq<string>)
    ensures |names| == |ctx.queues|
    ensures forall i :: 0 <= i < |names| ==> names[i] == ctx.queues[i].queueName
  {
    seq(|ctx.queues|, i requires 0 <= i < |ctx.queues| => ctx.queues[i].queueName)
  }

  /** Names are unique and each status's index is its registration position. */
  ghost predicate Valid(ctx: Context) {
    && (forall i, j :: 0 <= i < j < |ctx.queues| ==> ctx.queues[i].queueName != ctx.queues[j].queueName)
    && (forall i :: 0 <= i < |ctx.queues| ==> ctx.queues[i].status.index == i)
  }

  /** `message(queue_name)` with its decorator applied: register a handler. */
  function Message(ctx: Context, queueName: string): (r: Result<Context, Failure>)
    ensures r.Err? <==> queueName in Names(ctx)
    ensures r.Err? ==> r.error == Raise("Duplicate queue name: " + queueName)
    ensures r.Ok? ==> r.value.queues == ctx.queues + [QueueEventStatus(NewStatus(|ctx.queues|, None), queueName)]
  {
    if queueName in Names(ctx) then Err(Raise("Duplicate queue name: " + queueName))
    else Ok(Context(ctx.queues + [QueueEventStatus(NewStatus(|ctx.queues|, None), queueName)]))
  }

  /** Registration keeps names unique and indices positional. */
  lemma MessagePreservesValid(ctx: Context, queueName: string)
    requires Valid(ctx)
    ensures Message(ctx, queueName).Ok? ==> Valid(Message(ctx, queueName).value)
  {
    if Message(ctx, queueName).Ok? {
      var ctx' := Message(ctx, queueName).value;
      forall i | 0 <= i < |ctx.queues|
        ensures ctx'.queues[i].queueName != queueName
      {
        assert Names(ctx)[i] == ctx.queues[i].queueName;
      }
    }
  }

  /** `IntegrationQueueSinkImpl.put(message, queue_name)`: an unknown name
      raises and enqueues nothing; a known name enqueues one deferred call of
      that queue's handler, and an overflow reaches the caller. */
  function SinkPut(ctx: Context, q: WorkQueue, message: Payload, queueName: string): (p: Posted)
    ensures queueName !in Names(ctx) ==>
              p.queue == q && p.failure == Some(Raise("Unknown queue: " + queueName))
    ensures queueName in Names(ctx) ==>
              p == Post(q, MessageCall(message), NamedQueue(queueName))
  {
    if queueName !in Names(ctx) then Posted(q, Some(Raise("Unknown queue: " + queueName)))
    else Post(q, MessageCall(message), NamedQueue(queueName))
  }

  /** The sink shares the registry: a queue registered after the sink was
      handed out is found by it. */
  lemma SinkSeesLaterRegistration(ctx: Context, q: WorkQueue, message: Payload, queueName: string)
    requires Message(ctx, queueName).Ok?
    ensures var p := SinkPut(Message(ctx, queueName).value, q, message, queueName);
      p.queue.pending == (if q.Full() then q.pending
                          else q.pending + [DeferralQueue.QueueAction(MessageCall(message), NamedQueue(queueName))])
  {
    var ctx' := Message(ctx, queueName).value;
    assert Names(ctx')[|ctx.queues|] == queueName;
  }

  /** The worker runs a message call: the named queue's handler is invoked
      and only that queue's status changes. */
  function RunMessage(ctx: Context, queueName: string, outcome: HandlerOutcome, submit: SubmitOutcome,
                      now: Time): (ctx': Context)
    ensures |ctx'.queues| == |ctx.queues| && Names(ctx') == Names(ctx)
    ensures forall i :: 0 <= i < |ctx.queues| ==>
      ctx'.queues[i].status == (if ctx.queues[i].queueName == queueName
                                then Invoke(ctx.queues[i].status, outcome, submit, now).status
                                else ctx.queues[i].status)
  {
    Context(seq(|ctx.queues|, i requires 0 <= i < |ctx.queues| =>
      var e := ctx.queues[i];
      if e.queueName == queueName then e.(status := Invoke(e.status, outcome, submit, now).status) else e))
  }

  /** `get_status()`: one status per registered queue, in registration order. */
  function GetStatus(ctx: Context): (statuses: seq<QueueEventStatus>)
    ensures |statuses| == |Names(ctx)|
    ensures forall i :: 0 <= i < |statuses| ==> statuses[i].queueName == Names(ctx)[i]
    ensures statuses == ctx.queues
  {
    ctx.queues
  }

  /** The report shows the live status records: after the worker runs a
      message call, the named queue's entry carries that invocation and every
      other entry is reported as before. */
  lemma StatusReportsRun(ctx: Context, queueName: string, outcome: HandlerOutcome, submit: SubmitOutcome,
                         now: Time)
    ensures var before, after := GetStatus(ctx), GetStatus(RunMessage(ctx, queueName, outcome, submit, now));
      && |after| == |before|
      && forall i :: 0 <= i < |before| ==>
           && after[i].queueName == before[i].queueName
           && after[i].status == (if before[i].queueName == queueName
                                  then Invoke(before[i].status, outcome, submit, now).status
                                  else before[i].status)
  {
  }
}

=== FILE: startup.dfy ===
/** Process start-up (`daml_dit_if/main/main.py`): read the configuration,
    set the log level, find the package metadata and the integration type to
    run, then load the integration. */
module Startup {
  import opened Basics
  import Config
  import Log
  import PackageMetadata
  import IntegrationContext

  /** The start-up's inputs that come from outside: the environment, the
      two metadata texts and their decoder, the runtime spec file (if it
      exists), and what loading the integration needs. `commonKey` and
      `queueSize` are the values of settings this model does not include. */
  datatype Inputs = Inputs(
    env: Config.Environment,
    pexMeta: Option<string>, localMeta: Option<string>,
    decode: string -> Result<PackageMetadata.PackageMeta, Failure>,
    spec: Option<IntegrationContext.RuntimeSpec>,
    commonKey: string, queueSize: int,
    oracles: IntegrationContext.LoadOracles, now: Time)

  /** The integration type id: the configured one, else the spec's when a
      spec file exists. */
  function ResolveTypeId(configured: Option<string>, spec: Option<IntegrationContext.RuntimeSpec>)
    : (typeId: Option<string>)
    ensures Truthy(configured) ==> typeId == configured
    ensures !Truthy(configured) && spec.None? ==> typeId == configured
    ensures !Truthy(configured) && spec.Some? ==> typeId == spec.value.typeId
  {
    if spec.Some? && !Truthy(configured) then spec.value.typeId else configured
  }

  /** `_aio_main(...)` up to the point where it starts the main loop: build
      the context, load it, and report whether there is an integration to
      run. A failure of the party fallback is not caught here. */
  function AioMain(config: Config.Configuration, itype: PackageMetadata.IntegrationTypeInfo, typeId: string,
                   spec: IntegrationContext.RuntimeSpec, meta: PackageMetadata.PackageMeta,
                   inputs: Inputs): (r: Result<bool, Failure>)
    ensures r.Err? <==> IntegrationContext.PartyFallback(config.runAsParty, spec.metadata, inputs.commonKey).Err?
    ensures r.Ok? ==> (r.value <==>
              var ctx := IntegrationContext.Create(config, itype, typeId, spec, meta, inputs.commonKey,
                                                   inputs.queueSize, inputs.now).value;
              IntegrationContext.LoadSteps(ctx, inputs.oracles).failure.None?)
  {
    var ctx :- IntegrationContext.Create(config, itype, typeId, spec, meta, inputs.commonKey,
                                         inputs.queueSize, inputs.now);
    Ok(IntegrationContext.SafeLoad(ctx, inputs.oracles, inputs.now).loaded)
  }

  /** The part of `main()` after the metadata is read: pick the type and
      load it. */
  function Launch(config: Config.Configuration, meta: PackageMetadata.PackageMeta, inputs: Inputs)
    : (r: Result<string, Failure>)
    ensures r.Ok? ==>
              && ResolveTypeId(config.typeId, inputs.spec) == Some(r.value)
              && inputs.spec.Some? && r.value in PackageMetadata.IntegrationTypes(meta)
              && AioMain(config, PackageMetadata.IntegrationTypes(meta)[r.value], r.value,
                         inputs.spec.value, meta, inputs) == Ok(true)
    ensures !Truthy(ResolveTypeId(config.typeId, inputs.spec)) ==>
              r == Err(Raise("DABL_INTEGRATION_TYPE_ID environment variable undefined"))
    ensures Truthy(ResolveTypeId(config.typeId, inputs.spec)) ==>
              var typeId := ResolveTypeId(config.typeId, inputs.spec).value;
              typeId !in PackageMetadata.IntegrationTypes(meta) ==> r == Err(Fatal("No integration of type " + typeId))
  {
    var types := PackageMetadata.IntegrationTypes(meta);
    var typeId := ResolveTypeId(config.typeId, inputs.spec);
    if !Truthy(typeId) then Err(Raise("DABL_INTEGRATION_TYPE_ID environment variable undefined"))
    else if typeId.value !in types then Err(Fatal("No integration of type " + typeId.value))
    else if inputs.spec.None? then Err(Fatal("No metadata file. Terminating without running"))
    else
      var started :- AioMain(config, types[typeId.value], typeId.value, inputs.spec.value, meta, inputs);
      if started then Ok(typeId.value) else Err(Fatal("Error initializing integration, shutting down."))
  }

  /** `main()`. `Ok(typeId)` means the integration of that type was loaded
      and its main loop entered. */
  function Main(inputs: Inputs): (r: Result<string, Failure>)
    ensures r.Ok? <==>
              && Config.GetDefaultConfig(inputs.env).Ok?
              && Log.SetLogLevel(Log.Initial(), Config.GetDefaultConfig(inputs.env).value.logLevel).Ok?
              && PackageMetadata.GetPackageMetadata(inputs.pexMeta, inputs.localMeta, inputs.decode).Ok?
              && Launch(Config.GetDefaultConfig(inputs.env).value,
                        PackageMetadata.GetPackageMetadata(inputs.pexMeta, inputs.localMeta, inputs.decode).value,
                        inputs).Ok?
  {
    var config :- Config.GetDefaultConfig(inputs.env);
    var _ :- Log.SetLogLevel(Log.Initial(), config.logLevel);
    var meta :- PackageMetadata.GetPackageMetadata(inputs.pexMeta, inputs.localMeta, inputs.decode);
    Launch(config, meta, inputs)
  }

  /** Without a type id from either the environment or the spec file the
      start-up raises, before anything is loaded. */
  lemma MissingTypeIdRaises(config: Config.Configuration, meta: PackageMetadata.PackageMeta, inputs: Inputs)
    requires !Truthy(config.typeId)
    requires inputs.spec.None? || !Truthy(inputs.spec.value.typeId)
    ensures Launch(config, meta, inputs) == Err(Raise("DABL_INTEGRATION_TYPE_ID environment variable undefined"))
  {
  }

  /** A spec file's type id is used only when the environment gives none. */
  lemma ConfiguredTypeIdWins(configured: string, spec: IntegrationContext.RuntimeSpec)
    requires configured != ""
    ensures ResolveTypeId(Some(configured), Some(spec)) == Some(configured)
    ensures ResolveTypeId(None, Some(spec)) == spec.typeId
    ensures ResolveTypeId(Some(""), Some(spec)) == spec.typeId
  {
  }
}

=== FILE: text.dfy ===
/** The few Python string operations the runtime relies on: `str.isspace`,
    `str.strip`, `str.lower`, `str.startswith`, `str.partition`, `str.split`
    on one character, `str(int)` and `int(str)`. */
module Text {
  import opened Basics

  /** Python's `str.isspace()` for one character: the ASCII whitespace and
      separator controls, NEL, NBSP and the Unicode space separators. */
  predicate IsSpace(c: char) {
    var n := c as int;
    (9 <= n <= 13) || (28 <= n <= 32) || n == 0x85 || n == 0xA0 || n == 0x1680
    || (0x2000 <= n <= 0x200A) || n == 0x2028 || n == 0x2029 || n == 0x202F
    || n == 0x205F || n == 0x3000
  }

  /** `s` with its leading white space removed. */
  function TrimStart(s: string): (r: string)
    ensures |r| <= |s| && r == s[|s| - |r|..]
    ensures forall i :: 0 <= i < |s| - |r| ==> IsSpace(s[i])
    ensures r == [] || !IsSpace(r[0])
    decreases |s|
  {
    if |s| > 0 && IsSpace(s[0]) then TrimStart(s[1..]) else s
  }

  /** `s` with its trailing white space removed. */
  function TrimEnd(s: string): (r: string)
    ensures |r| <= |s| && r == s[..|r|]
    ensures forall i :: |r| <= i < |s| ==> IsSpace(s[i])
    ensures r == [] || !IsSpace(r[|r| - 1])
    decreases |s|
  {
    if |s| > 0 && IsSpace(s[|s| - 1]) then TrimEnd(s[..|s| - 1]) else s
  }

  /** A string that `Strip` leaves alone: no white space at either end. */
  predicate Stripped(s: string) {
    s == [] || (!IsSpace(s[0]) && !IsSpace(s[|s| - 1]))
  }

  /** `r` is the slice `s[i..j]` and everything of `s` outside it is white
      space. */
  predicate SpaceAround(s: string, r: string, i: int, j: int) {
    && 0 <= i <= j <= |s| && r == s[i..j]
    && (forall k :: 0 <= k < i ==> IsSpace(s[k]))
    && (forall k :: j <= k < |s| ==> IsSpace(s[k]))
  }

  /** Python's `str.strip()` with no argument: the slice of `s` that drops
      only white space, with no white space left at either end. */
  function Strip(s: string): (r: string)
    ensures Stripped(r)
    ensures |r| <= |s|
    ensures exists i, j :: SpaceAround(s, r, i, j)
  {
    var t := TrimStart(s);
    var r := TrimEnd(t);
    SuffixPrefixSlice(s, t, r);
    r
  }

  /** A prefix `r` of a suffix `t` of `s`, each cut only at white space,
      is a slice of `s` with white space around it. */
  lemma SuffixPrefixSlice(s: string, t: string, r: string)
    requires |t| <= |s| && t == s[|s| - |t|..] && forall k :: 0 <= k < |s| - |t| ==> IsSpace(s[k])
    requires |r| <= |t| && r == t[..|r|] && forall k :: |r| <= k < |t| ==> IsSpace(t[k])
    ensures SpaceAround(s, r, |s| - |t|, |s| - |t| + |r|)
  {
    var i := |s| - |t|;
    assert r == s[i..i + |r|];
    forall k | i + |r| <= k < |s| ensures IsSpace(s[k]) {
      assert s[k] == t[k - i];
    }
  }

  /** The two facts about `Strip` pin it down: a stripped slice that drops
      only white space is the result of `Strip`. */
  lemma StripUnique(s: string, r: string, i: int, j: int)
    requires Stripped(r) && SpaceAround(s, r, i, j)
    ensures r == Strip(s)
  {
    var r' := Strip(s);
    var i', j' :| SpaceAround(s, r', i', j');
    StrippedSliceUnique(s, r, i, j, r', i', j');
  }

  /** Two stripped slices of `s` with only white space around them are the
      same. */
  lemma StrippedSliceUnique(s: string, r: string, i: int, j: int, r': string, i': int, j': int)
    requires Stripped(r) && SpaceAround(s, r, i, j)
    requires Stripped(r') && SpaceAround(s, r', i', j')
    ensures r == r'
  {
    if r == [] {
      assert forall k :: 0 <= k < |s| ==> IsSpace(s[k]);
    } else {
      assert r[0] == s[i] && !IsSpace(s[i]);
      assert r[|r| - 1] == s[j - 1] && !IsSpace(s[j - 1]);
      assert i' < j';
      assert r'[0] == s[i'] && !IsSpace(s[i']);
      assert r'[|r'| - 1] == s[j' - 1] && !IsSpace(s[j' - 1]);
      assert i == i' && j == j';
    }
  }

  /** Stripping a string without surrounding white space changes nothing. */
  lemma StripKeepsStripped(s: string)
    requires Stripped(s)
    ensures Strip(s) == s
  {
  }

  /** Stripping twice is stripping once. */
  lemma StripIdempotent(s: string)
    ensures Strip(Strip(s)) == Strip(s)
  {
    StripKeepsStripped(Strip(s));
  }

  function LowerChar(c: char): char {
    if 'A' <= c <= 'Z' then (c as int + 32) as char else c
  }

  /** `str.lower()` restricted to ASCII letters; other characters are kept. */
  function ToLower(s: string): (r: string)
    ensures |r| == |s|
    ensures forall i :: 0 <= i < |s| ==> r[i] == LowerChar(s[i])
  {
    seq(|s|, i requires 0 <= i < |s| => LowerChar(s[i]))
  }

  /** Python's `s.startswith(prefix)`. */
  predicate StartsWith(s: string, prefix: string) {
    |prefix| <= |s| && s[..|prefix|] == prefix
  }

  /** The position of the first `c` in `s`, if any. */
  function IndexOf(s: string, c: char): (r: Option<nat>)
    ensures r.Some? ==> r.value < |s| && s[r.value] == c && c !in s[..r.value]
    ensures r.None? <==> c !in s
  {
    if |s| == 0 then None
    else if s[0] == c then Some(0)
    else
      match IndexOf(s[1..], c)
      case None => None
      case Some(i) =>
        assert s[..i + 1] == [s[0]] + s[1..][..i];
        Some(i + 1)
  }

  /** The first occurrence of a character is where `IndexOf` finds it. */
  lemma IndexOfFirst(s: string, c: char, k: nat)
    requires k < |s| && s[k] == c && c !in s[..k]
    ensures IndexOf(s, c) == Some(k)
  {
    assert s[..k + 1][k] == c;
    assert forall j :: 0 <= j < k ==> s[..k][j] == s[j];
  }

  /** The three parts of Python's `str.partition(sep)` for a one-character
      separator: the text before the first separator, whether there was one,
      and the text after it. */
  datatype Partitioned = Partitioned(head: string, found: bool, tail: string)

  function Partition(s: string, sep: char): (p: Partitioned)
    ensures p.found <==> sep in s
    ensures p.found ==> s == p.head + [sep] + p.tail && sep !in p.head
    ensures !p.found ==> p.head == s && p.tail == []
  {
    match IndexOf(s, sep)
    case None => Partitioned(s, false, [])
    case Some(i) =>
      assert s == s[..i] + [sep] + s[i + 1..];
      Partitioned(s[..i], true, s[i + 1..])
  }

  /** Python's `s.split(sep)` for a one-character separator. */
  function Split(s: string, sep: char): (parts: seq<string>)
    ensures |parts| >= 1
    ensures forall i :: 0 <= i < |parts| ==> sep !in parts[i]
    decreases |s|
  {
    var p := Partition(s, sep);
    if p.found then [p.head] + Split(p.tail, sep) else [s]
  }

  /** Python's `sep.join(parts)`. */
  function Join(parts: seq<string>, sep: char): string
    requires |parts| >= 1
  {
    if |parts| == 1 then parts[0] else parts[0] + [sep] + Join(parts[1..], sep)
  }

  /** Joining the parts of a split gives back the original text. */
  lemma {:induction false} SplitJoin(s: string, sep: char)
    ensures Join(Split(s, sep), sep) == s
    decreases |s|
  {
    var p := Partition(s, sep);
    if p.found {
      SplitJoin(p.tail, sep);
      assert Split(s, sep)[1..] == Split(p.tail, sep);
    }
  }

  /** A split yields one more part than there are separators. */
  lemma {:induction false} SplitCount(s: string, sep: char)
    ensures |Split(s, sep)| == multiset(s)[sep] + 1
    decreases |s|
  {
    var p := Partition(s, sep);
    if p.found {
      SplitCount(p.tail, sep);
      assert multiset(s) == multiset(p.head) + multiset([sep]) + multiset(p.tail);
      assert multiset(p.head)[sep] == 0;
    } else {
      assert multiset(s)[sep] == 0;
    }
  }

  /** Two separator-free parts joined by the separator split back into
      exactly those two parts. */
  lemma SplitTwo(a: string, b: string, sep: char)
    requires sep !in a && sep !in b
    ensures Split(a + [sep] + b, sep) == [a, b]
  {
    var s := a + [sep] + b;
    IndexOfFirst(s, sep, |a|);
    assert s[..|a|] == a && s[|a| + 1..] == b;
    assert Split(b, sep) == [b];
  }

  predicate IsDigit(c: char) { '0' <= c <= '9' }

  predicate AllDigits(s: string) {
    forall i :: 0 <= i < |s| ==> IsDigit(s[i])
  }

  function DigitValue(c: char): nat
    requires IsDigit(c)
  {
    c as int - '0' as int
  }

  function DigitChar(d: nat): (c: char)
    requires d < 10
    ensures IsDigit(c) && DigitValue(c) == d
  {
    ('0' as int + d) as char
  }

  /** The value of a string of decimal digits, most significant first. */
  function DigitsValue(s: string): nat
    requires AllDigits(s)
    decreases |s|
  {
    if |s| == 0 then 0 else 10 * DigitsValue(s[..|s| - 1]) + DigitValue(s[|s| - 1])
  }

  /** The shortest decimal digit string for `n`. */
  function NatToDigits(n: nat): (s: string)
    ensures |s| >= 1 && AllDigits(s)
  {
    if n < 10 then [DigitChar(n)] else NatToDigits(n / 10) + [DigitChar(n % 10)]
  }

  lemma {:induction false} NatDigitsRoundTrip(n: nat)
    ensures DigitsValue(NatToDigits(n)) == n
  {
    if n >= 10 {
      var s := NatToDigits(n);
      NatDigitsRoundTrip(n / 10);
      assert s[..|s| - 1] == NatToDigits(n / 10);
    }
  }

  /** Python's `str(n)` for an `int`. */
  function IntToString(n: int): (s: string)
    ensures |s| >= 1 && Stripped(s)
  {
    if n < 0 then "-" + NatToDigits(-n) else NatToDigits(n)
  }

  /** Python's `int(s)` for a `str`: surrounding white space is ignored, one
      optional sign, then one or more ASCII digits. `None` stands for the
      `ValueError` Python raises. */
  function ParseInt(s: string): Option<int>
  {
    var t := Strip(s);
    if |t| > 0 && (t[0] == '-' || t[0] == '+') then
      var ds := t[1..];
      if |ds| > 0 && AllDigits(ds) then
        var magnitude: int := DigitsValue(ds);
        Some(if t[0] == '-' then -magnitude else magnitude)
      else None
    else if |t| > 0 && AllDigits(t) then Some(DigitsValue(t))
    else None
  }

  /** On a string without surrounding white space, `ParseInt` reads an
      optional sign followed by digits. */
  lemma ParseSignedDigits(t: string, negative: bool, ds: string)
    requires |ds| > 0 && AllDigits(ds)
    requires t == (if negative then "-" else "") + ds
    requires Stripped(t)
    ensures ParseInt(t) == Some(if negative then -(DigitsValue(ds) as int) else DigitsValue(ds))
  {
    StripKeepsStripped(t);
    if negative {
      assert t[1..] == ds;
    } else {
      assert t == ds;
      assert IsDigit(t[0]);
    }
  }

  /** `int(str(n)) == n` for every integer. */
  lemma IntStringRoundTrip(n: int)
    ensures ParseInt(IntToString(n)) == Some(n)
  {
    if n < 0 { NegativeStringRoundTrip(n); } else { NaturalStringRoundTrip(n); }
  }

  lemma NegativeStringRoundTrip(n: int)
    requires n < 0
    ensures ParseInt(IntToString(n)) == Some(n)
  {
    var m: nat := -n;
    var ds := NatToDigits(m);
    NatDigitsRoundTrip(m);
    assert DigitsValue(ds) == m;
    var t := IntToString(n);
    assert t == "-" + ds;
    ParseSignedDigits(t, true, ds);
    assert ParseInt(t) == Some(-(m as int));
  }

  lemma NaturalStringRoundTrip(n: int)
    requires n >= 0
    ensures ParseInt(IntToString(n)) == Some(n)
  {
    var ds := NatToDigits(n);
    NatDigitsRoundTrip(n);
    assert IntToString(n) == "" + ds;
    ParseSignedDigits(IntToString(n), false, ds);
  }
}

=== FILE: util.dfy ===
/** `daml_dit_if/main/util.py`: reading a yes/no flag out of a string. */
module Util {
  import opened Basics
  import opened Text

  /** The spellings of "true", all lower case. */
  const TrueTokens: seq<string> := ["1", "yes", "true", "y", "t"]

  /** `is_true(value)`: lower-case the value and look it up; nothing is
      trimmed. */
  function IsTrue(value: Option<string>): (b: bool)
    ensures value.None? ==> !b
    ensures b ==> |value.value| <= 4 && value.value != ""
  {
    value.Some? && ToLower(value.value) in TrueTokens
  }

  /** Case does not matter, surrounding white space does. */
  lemma IsTrueExamples()
    ensures IsTrue(Some("TRUE")) && IsTrue(Some("Yes")) && IsTrue(Some("t")) && IsTrue(Some("1"))
    ensures !IsTrue(Some(" true")) && !IsTrue(Some("true ")) && !IsTrue(Some("no")) && !IsTrue(Some(""))
    ensures !IsTrue(None)
  {
    assert ToLower("TRUE") == "true";
    assert ToLower("Yes") == "yes";
    assert ToLower("t") == "t" && ToLower("1") == "1";
    assert ToLower(" true")[0] == ' ';
    assert ToLower("true ")[4] == ' ';
    assert ToLower("no") == "no";
  }
}

=== FILE: web.dfy ===
/** The runtime's HTTP endpoint (`daml_dit_if/main/web.py`): the control
    routes, the status document, setting the log level over HTTP, access-log
    suppression of the polled routes, and which routes the server offers. */
module Web {
  import opened Basics
  import opened Text
  import Config
  import Log
  import IntegrationContext
  import WebhookContext
  import LedgerContext

  /** `CLIENT_MAX_SIZE`: 100 MB. */
  const ClientMaxSize := 100 * 1024 * 1024

  /** A served route: HTTP method and path. */
  datatype ServedRoute = ServedRoute(httpMethod: string, path: string)

  /** The three control routes. */
  const ControlRoutes: seq<ServedRoute> :=
    [ServedRoute("get", "/healthz"), ServedRoute("get", "/status"), ServedRoute("post", "/log-level")]

  // ---------------------------------------------------------------------
  // Status

  /** The status document: the integration status plus the log level, the
      level options and the request URL. */
  datatype StatusDocument = StatusDocument(
    status: IntegrationContext.IntegrationStatus, logLevel: int,
    logLevelOptions: seq<Log.LogLevelOption>, self: string)

  /** `_get_status(request)`, served by `/status`. */
  function StatusPayload(ctx: IntegrationContext.Context, log: Log.LogState, url: string): (d: StatusDocument)
    ensures d.status.running == ctx.running && d.status.pendingEvents == |ctx.queue.pending|
    ensures d.logLevel == Log.GetLogLevel(log) && d.self == url
    ensures |d.logLevelOptions| == 4
    ensures d.status == IntegrationContext.GetStatus(ctx) && d.logLevelOptions == Log.LogLevelOptions()
  {
    StatusDocument(IntegrationContext.GetStatus(ctx), Log.GetLogLevel(log), Log.LogLevelOptions(), url)
  }

  /** `/healthz`: the status document with `_self` written once more. */
  function HealthPayload(ctx: IntegrationContext.Context, log: Log.LogState, url: string): (d: StatusDocument)
    ensures d.status == IntegrationContext.GetStatus(ctx) && d.logLevel == Log.GetLogLevel(log)
    ensures d.self == url
  {
    StatusPayload(ctx, log, url).(self := url)
  }

  /** The health and status routes answer with the same document. */
  lemma HealthIsStatus(ctx: IntegrationContext.Context, log: Log.LogState, url: string)
    ensures HealthPayload(ctx, log, url) == StatusPayload(ctx, log, url)
  {
  }

  // ---------------------------------------------------------------------
  // Setting the log level

  /** A JSON scalar in a request body. Floats are not part of this model. */
  datatype JsonScalar = JInt(i: int) | JStr(s: string) | JBool(b: bool) | JNull

  type JsonBody = map<string, JsonScalar>

  /** Python's `int(x)` on a JSON scalar. */
  function PyInt(x: JsonScalar): (r: Result<int, Failure>)
    ensures x.JInt? ==> r == Ok(x.i)
    ensures x.JBool? ==> r == Ok(if x.b then 1 else 0)
    ensures x.JStr? ==> (r.Ok? <==> ParseInt(x.s).Some?)
    ensures x.JNull? ==> r.Err?
    ensures r.Err? ==> r.error.Raise?
  {
    match x
    case JInt(i) => Ok(i)
    case JBool(b) => Ok(if b then 1 else 0)
    case JStr(s) =>
      if ParseInt(s).Some? then Ok(ParseInt(s).value)
      else Err(Raise("ValueError: invalid literal for int() with base 10: '" + s + "'"))
    case JNull =>
      Err(Raise("TypeError: int() argument must be a string, a bytes-like object or a number, not 'NoneType'"))
  }

  const LogLevelKey := "log_level"

  /** `POST /log-level`: `set_log_level(int(body['log_level']))`, answering
      with the request body itself. A missing key or an unconvertible value
      raises; a level out of range ends the process. */
  function SetLevel(log: Log.LogState, body: JsonBody): (r: Result<(Log.LogState, JsonBody), Failure>)
    ensures LogLevelKey !in body ==> r == Err(Raise("KeyError: 'log_level'"))
    ensures LogLevelKey in body && PyInt(body[LogLevelKey]).Err? ==> r == Err(PyInt(body[LogLevelKey]).error)
    ensures LogLevelKey in body && PyInt(body[LogLevelKey]).Ok? ==>
              r.Err? == Log.SetLogLevel(log, PyInt(body[LogLevelKey]).value).Err?
    ensures r.Ok? ==> r.value.1 == body && LogLevelKey in body
    ensures r.Ok? ==> Log.GetLogLevel(r.value.0) == PyInt(body[LogLevelKey]).value
  {
    if LogLevelKey !in body then Err(Raise("KeyError: 'log_level'"))
    else
      var level :- PyInt(body[LogLevelKey]);
      var log' :- Log.SetLogLevel(log, level);
      Ok((log', body))
  }

  /** A level sent as decimal text is the level that gets set. */
  lemma SetLevelFromText(log: Log.LogState, level: int)
    requires Log.MinLevel <= level <= Log.MaxLevel
    ensures var r := SetLevel(log, map[LogLevelKey := JStr(IntToString(level))]);
      r.Ok? && Log.GetLogLevel(r.value.0) == level
  {
    IntStringRoundTrip(level);
  }

  /** Every option the status document offers can be sent back to set it. */
  lemma OfferedOptionsAccepted(log: Log.LogState, i: nat)
    requires i < |Log.LogLevelOptions()|
    ensures var body := map[LogLevelKey := JInt(Log.LogLevelOptions()[i].value)];
      SetLevel(log, body).Ok? && Log.GetLogLevel(SetLevel(log, body).value.0) == Log.LogLevelOptions()[i].value
  {
  }

  // ---------------------------------------------------------------------
  // Access log

  /** `_suppressed_route(path)`. */
  predicate SuppressedRoute(path: string) {
    StartsWith(path, "/healthz") || StartsWith(path, "/status")
  }

  /** `IntegrationAccessLogger.log`: a polled route is logged only at debug
      level. */
  function AccessLogged(path: string, log: Log.LogState): (logged: bool)
    ensures !SuppressedRoute(path) ==> logged
    ensures Log.IsDebugEnabled(log) ==> logged
  {
    !(SuppressedRoute(path) && !Log.IsDebugEnabled(log))
  }

  /** Webhook requests are always logged, whatever the level. */
  lemma WebhookRequestsLogged(suffix: Option<string>, log: Log.LogState)
    ensures AccessLogged(WebhookContext.UrlPath(suffix), log)
  {
    var path := WebhookContext.UrlPath(suffix);
    assert path[1] == WebhookContext.UrlPrefix[1] == 'i';
  }

  /** Polling the status at the default level leaves no access-log line. */
  lemma PollingQuietByDefault(path: string)
    requires StartsWith(path, "/status")
    ensures !AccessLogged(path, Log.Initial())
  {
  }

  // ---------------------------------------------------------------------
  // The endpoint

  /** The web server as `start_web_endpoint` configures it. */
  datatype Endpoint = Endpoint(port: int, clientMaxSize: int, routes: seq<ServedRoute>)

  function WebhookRoutes(hooks: WebhookContext.Context): (routes: seq<ServedRoute>)
    ensures |routes| == |hooks.routeTable|
    ensures forall i :: 0 <= i < |routes| ==>
              routes[i] == ServedRoute(hooks.routeTable[i].httpMethod, hooks.routeTable[i].urlPath)
  {
    seq(|hooks.routeTable|, i requires 0 <= i < |hooks.routeTable| =>
      ServedRoute(hooks.routeTable[i].httpMethod, hooks.routeTable[i].urlPath))
  }

  /** `start_web_endpoint(config, integration_context)`: the control routes,
      and the webhook routes only if the integration is already running. */
  function StartWebEndpoint(config: Config.Configuration, ctx: IntegrationContext.Context): (e: Endpoint)
    ensures e.port == config.healthPort && e.clientMaxSize == ClientMaxSize
    ensures |e.routes| >= |ControlRoutes| && e.routes[..|ControlRoutes|] == ControlRoutes
    ensures !(ctx.running && ctx.webhookContext.Some?) ==> e.routes == ControlRoutes
    ensures ctx.running && ctx.webhookContext.Some? ==>
              e.routes == ControlRoutes + WebhookRoutes(ctx.webhookContext.value)
  {
    Endpoint(config.healthPort, ClientMaxSize,
             if ctx.running && ctx.webhookContext.Some? then ControlRoutes + WebhookRoutes(ctx.webhookContext.value)
             else ControlRoutes)
  }

  /** `_aio_main` as written: the endpoint's routes are fixed from the
      context as loaded, before the start step (which runs in a task
      scheduled after the endpoint's) has marked it running. */
  function StartupEndpointAsWritten(config: Config.Configuration, loaded: IntegrationContext.Context): (e: Endpoint)
    ensures e.port == config.healthPort
    ensures !loaded.running ==> e.routes == ControlRoutes
  {
    StartWebEndpoint(config, loaded)
  }

  /** As written, a start that succeeds still leaves the server with the
      control routes alone, where routes fixed after the start serve every
      webhook route as well. */
  lemma WebhooksNeverServedAsWritten(config: Config.Configuration, loaded: IntegrationContext.Context,
                                     ready: Option<PyException>, findActive: LedgerContext.FindActive, now: Time)
    requires !loaded.running && loaded.webhookContext.Some?
    requires IntegrationContext.SafeStart(loaded, ready, findActive, now).running
    ensures StartupEndpointAsWritten(config, loaded).routes == ControlRoutes
    ensures StartupEndpoint(config, loaded, ready, findActive, now).routes
            == ControlRoutes + WebhookRoutes(loaded.webhookContext.value)
  {
    assert IntegrationContext.SafeStart(loaded, ready, findActive, now).webhookContext == loaded.webhookContext;
  }

  /** The routes fixed after the start step, so that a started integration
      serves its webhooks. */
  function StartupEndpoint(config: Config.Configuration, loaded: IntegrationContext.Context,
                           ready: Option<PyException>, findActive: LedgerContext.FindActive,
                           now: Time): (e: Endpoint)
    ensures e.port == config.healthPort
    ensures |e.routes| >= |ControlRoutes| && e.routes[..|ControlRoutes|] == ControlRoutes
    ensures !IntegrationContext.SafeStart(loaded, ready, findActive, now).running ==> e.routes == ControlRoutes
  {
    StartWebEndpoint(config, IntegrationContext.SafeStart(loaded, ready, findActive, now))
  }

  /** Once the start succeeds, every registered webhook route is served, and
      a start that fails serves none. */
  lemma StartedIntegrationServesWebhooks(config: Config.Configuration, loaded: IntegrationContext.Context,
                                         ready: Option<PyException>, findActive: LedgerContext.FindActive,
                                         now: Time)
    requires loaded.webhookContext.Some? && !loaded.running
    ensures var started := IntegrationContext.SafeStart(loaded, ready, findActive, now);
      var e := StartupEndpoint(config, loaded, ready, findActive, now);
      && (started.running ==>
            forall r :: r in loaded.webhookContext.value.routeTable ==> ServedRoute(r.httpMethod, r.urlPath) in e.routes)
      && (!started.running ==> e.routes == ControlRoutes)
  {
    var started := IntegrationContext.SafeStart(loaded, ready, findActive, now);
    var e := StartupEndpoint(config, loaded, ready, findActive, now);
    if started.running {
      var hooks := loaded.webhookContext.value;
      assert started.webhookContext == loaded.webhookContext;
      forall r | r in hooks.routeTable
        ensures ServedRoute(r.httpMethod, r.urlPath) in e.routes
      {
        var i :| 0 <= i < |hooks.routeTable| && hooks.routeTable[i] == r;
        assert e.routes[|ControlRoutes| + i] == WebhookRoutes(hooks)[i];
      }
    }
  }
}

=== FILE: webhook_context.dfy ===
/** Webhook routes (`daml_dit_if/main/integration_webhook_context.py`): the
    route registry with one status per route, and the translation of a
    handler's `IntegrationWebhookResponse` into the HTTP response sent. */
module WebhookContext {
  import opened Basics
  import opened Api
  import opened Invocation
  import opened AuthHandler

  /** The HTTP response a webhook call produces. A `json_response` built
      from aiohttp's `sentinel` has an empty body. */
  datatype HttpResponse =
    | RawHttp(response: RawResponse)
    | JsonHttp(data: JsonField, status: int)
    | TextHttp(text: string, contentType: Option<string>, status: int)
    | BlobHttp(body: seq<bv8>, contentType: Option<string>, status: int)
    | HttpOk

  /** `get_http_response(hook_response)`: the first field that is not
      `None`, in the order response, JSON, text, blob, decides; with none set
      the response is a plain `200 OK`. */
  function GetHttpResponse(hook: IntegrationResponse): (r: HttpResponse)
    requires hook.IntegrationWebhookResponse?
    ensures hook.response.Some? ==> r == RawHttp(hook.response.value)
    ensures hook.response.None? && hook.jsonResponse != JsonNone ==>
              r == JsonHttp(hook.jsonResponse, hook.httpStatus)
    ensures hook.response.None? && hook.jsonResponse == JsonNone && hook.textResponse.Some? ==>
              r == TextHttp(hook.textResponse.value, hook.httpContentType, hook.httpStatus)
    ensures hook.response.None? && hook.jsonResponse == JsonNone && hook.textResponse.None?
            && hook.blobResponse.Some? ==>
              r == BlobHttp(hook.blobResponse.value, hook.httpContentType, hook.httpStatus)
    ensures r == HttpOk <==> hook.response.None? && hook.jsonResponse == JsonNone
                             && hook.textResponse.None? && hook.blobResponse.None?
  {
    if hook.response.Some? then RawHttp(hook.response.value)
    else if hook.jsonResponse != JsonNone then JsonHttp(hook.jsonResponse, hook.httpStatus)
    else if hook.textResponse.Some? then TextHttp(hook.textResponse.value, hook.httpContentType, hook.httpStatus)
    else if hook.blobResponse.Some? then BlobHttp(hook.blobResponse.value, hook.httpContentType, hook.httpStatus)
    else HttpOk
  }

  /** Because `json_response` defaults to `sentinel`, a response that sets
      only text or a blob still answers with the (empty) JSON branch; the
      text and blob branches need `json_response=None` explicitly. */
  lemma DefaultsReachJsonBranch(text: Option<string>, blob: Option<seq<bv8>>)
    ensures GetHttpResponse(DefaultWebhookResponse()) == JsonHttp(Sentinel, 200)
    ensures GetHttpResponse(DefaultWebhookResponse().(textResponse := text, blobResponse := blob))
              == JsonHttp(Sentinel, 200)
    ensures text.Some? ==>
              GetHttpResponse(DefaultWebhookResponse().(textResponse := text, jsonResponse := JsonNone))
                == TextHttp(text.value, None, 200)
  {
  }

  /** `WebhookRouteStatus`: the invocation status plus the route. */
  datatype WebhookRouteStatus = WebhookRouteStatus(status: InvocationStatus, urlPath: string, httpMethod: string)

  /** A route added to the route table: method, path, the index of its
      status and the authorization marker set on its handler. */
  datatype Route = Route(httpMethod: string, urlPath: string, statusIndex: nat, marker: HandlerMarker)

  /** The context: the route statuses (`routes`) and the route table. */
  datatype Context = Context(routes: seq<WebhookRouteStatus>, routeTable: seq<Route>)

  function Create(): (ctx: Context)
    ensures Valid(ctx) && ctx.routes == [] && ctx.routeTable == []
  {
    Context([], [])
  }

  /** Each status's index is its position, and each table entry points at a
      status of the same method and path. */
  ghost predicate Valid(ctx: Context) {
    && (forall i :: 0 <= i < |ctx.routes| ==> ctx.routes[i].status.index == i)
    && (forall r :: r in ctx.routeTable ==>
          && r.statusIndex < |ctx.routes|
          && ctx.routes[r.statusIndex].urlPath == r.urlPath
          && ctx.routes[r.statusIndex].httpMethod == r.httpMethod)
  }

  const UrlPrefix := "/integration/{integration_id}"

  /** `_url_path(url_suffix)`: a missing or empty suffix gives the bare prefix. */
  function UrlPath(suffix: Option<string>): (path: string)
    ensures path == UrlPrefix + suffix.GetOr("")
    ensures suffix.None? ==> path == UrlPrefix
    ensures |path| >= |UrlPrefix| && path[..|UrlPrefix|] == UrlPrefix
  {
    UrlPrefix + (if suffix.Some? then suffix.value else "")
  }

  /** `_notice_hook_route(url_path, method, label)`. */
  function NoticeHookRoute(ctx: Context, urlPath: string, httpMethod: string, labelText: Option<string>): (ctx': Context)
    ensures ctx'.routes == ctx.routes + [WebhookRouteStatus(NewStatus(|ctx.routes|, labelText), urlPath, httpMethod)]
    ensures ctx'.routeTable == ctx.routeTable
  {
    ctx.(routes := ctx.routes + [WebhookRouteStatus(NewStatus(|ctx.routes|, labelText), urlPath, httpMethod)])
  }

  /** `post(url_suffix, label, auth)` / `get(...)` with the decorator applied:
      one status, and one table entry whose handler carries `auth`. */
  function Register(ctx: Context, httpMethod: string, suffix: Option<string>, labelText: Option<string>,
                    auth: Option<AuthorizationLevel>): (ctx': Context)
    ensures |ctx'.routes| == |ctx.routes| + 1 && ctx'.routes[..|ctx.routes|] == ctx.routes
    ensures var s := ctx'.routes[|ctx.routes|];
      && s.status == NewStatus(|ctx.routes|, labelText)
      && s.urlPath == UrlPath(suffix) && s.httpMethod == httpMethod
    ensures ctx'.routeTable == ctx.routeTable + [Route(httpMethod, UrlPath(suffix), |ctx.routes|, Marked(auth))]
  {
    var path := UrlPath(suffix);
    var noticed := NoticeHookRoute(ctx, path, httpMethod, labelText);
    noticed.(routeTable := noticed.routeTable + [Route(httpMethod, path, |ctx.routes|, SetHandlerAuth(Unmarked, auth))])
  }

  /** `post(...)`; the level defaults to public. */
  function Post(ctx: Context, suffix: Option<string>, labelText: Option<string>,
                auth: Option<AuthorizationLevel> := Some(DefaultRouteAuth)): (ctx': Context)
    ensures |ctx'.routes| == |ctx.routes| + 1 && ctx'.routes[|ctx.routes|].httpMethod == "post"
    ensures ctx'.routes[|ctx.routes|].status == NewStatus(|ctx.routes|, labelText)
    ensures ctx'.routeTable == ctx.routeTable + [Route("post", UrlPath(suffix), |ctx.routes|, Marked(auth))]
  {
    Register(ctx, "post", suffix, labelText, auth)
  }

  /** `get(...)`; the level defaults to public. */
  function Get(ctx: Context, suffix: Option<string>, labelText: Option<string>,
               auth: Option<AuthorizationLevel> := Some(DefaultRouteAuth)): (ctx': Context)
    ensures |ctx'.routes| == |ctx.routes| + 1 && ctx'.routes[|ctx.routes|].httpMethod == "get"
    ensures ctx'.routes[|ctx.routes|].status == NewStatus(|ctx.routes|, labelText)
    ensures ctx'.routeTable == ctx.routeTable + [Route("get", UrlPath(suffix), |ctx.routes|, Marked(auth))]
  {
    Register(ctx, "get", suffix, labelText, auth)
  }

  /** Registration keeps the registry valid, and a route registered without
      a level is served as public by the middleware. */
  lemma RegisterPreservesValid(ctx: Context, httpMethod: string, suffix: Option<string>, labelText: Option<string>,
                               auth: Option<AuthorizationLevel>)
    requires Valid(ctx)
    ensures Valid(Register(ctx, httpMethod, suffix, labelText, auth))
    ensures var ctx' := Post(ctx, suffix, labelText);
      GetHandlerAuthLevel(ctx'.routeTable[|ctx'.routeTable| - 1].marker) == Some(Public)
  {
    var ctx' := Register(ctx, httpMethod, suffix, labelText, auth);
    forall r | r in ctx'.routeTable
      ensures r.statusIndex < |ctx'.routes|
      ensures ctx'.routes[r.statusIndex].urlPath == r.urlPath
      ensures ctx'.routes[r.statusIndex].httpMethod == r.httpMethod
    {
      if r in ctx.routeTable {
        assert ctx'.routes[r.statusIndex] == ctx.routes[r.statusIndex];
      }
    }
  }

  /** A webhook call: the route's handler is invoked through the wrapper and
      its normalised response turned into HTTP. A handler whose failure the
      wrapper swallowed leaves no response (`None`), which the source does
      not handle. */
  datatype WebhookCall = WebhookCall(context: Context, response: Option<HttpResponse>)

  function HandleRequest(ctx: Context, index: nat, outcome: HandlerOutcome, submit: SubmitOutcome,
                         now: Time): (r: WebhookCall)
    requires index < |ctx.routes|
    ensures |r.context.routes| == |ctx.routes| && r.context.routeTable == ctx.routeTable
    ensures r.context.routes[index].status == Invoke(ctx.routes[index].status, outcome, submit, now).status
    ensures forall i :: 0 <= i < |ctx.routes| && i != index ==> r.context.routes[i] == ctx.routes[i]
    ensures r.response.Some? <==> (var inv := Invoke(ctx.routes[index].status, outcome, submit, now);
                                   inv.result.Some? && inv.result.value.IntegrationWebhookResponse?)
  {
    var route := ctx.routes[index];
    var inv := Invoke(route.status, outcome, submit, now);
    var ctx' := ctx.(routes := ctx.routes[index := route.(status := inv.status)]);
    if inv.result.Some? && inv.result.value.IntegrationWebhookResponse? then
      WebhookCall(ctx', Some(GetHttpResponse(inv.result.value)))
    else WebhookCall(ctx', None)
  }

  /** `get_status()`. */
  function GetStatus(ctx: Context): (statuses: seq<WebhookRouteStatus>)
    ensures |statuses| == |ctx.routes|
    ensures Valid(ctx) ==> forall i :: 0 <= i < |statuses| ==> statuses[i].status.index == i
    ensures statuses == ctx.routes
  {
    ctx.routes
  }

  /** The report shows the live route statuses: after a request is handled,
      that route's entry carries the invocation and the others are as before. */
  lemma StatusReportsRequest(ctx: Context, index: nat, outcome: HandlerOutcome, submit: SubmitOutcome,
                             now: Time)
    requires index < |ctx.routes|
    ensures var before, after := GetStatus(ctx), GetStatus(HandleRequest(ctx, index, outcome, submit, now).context);
      && |after| == |before|
      && after[index].status == Invoke(before[index].status, outcome, submit, now).status
      && after[index].urlPath == before[index].urlPath && after[index].httpMethod == before[index].httpMethod
      && forall i :: 0 <= i < |before| && i != index ==> after[i] == before[i]
  {
  }
}

=== FILE: work.dfy ===
/** The entries that the ledger and internal-queue contexts put on the one
    shared deferral queue: which handler a deferred call belongs to, and the
    argument that handler will be called with. */
module Work {
  import opened Basics
  import opened Api
  import DeferralQueue

  /** A message posted to an internal queue (`Any` in the source). */
  type Payload = string

  /** The handler whose status a deferred call updates. */
  datatype Owner = LedgerHandler(index: nat) | NamedQueue(name: string)

  /** The argument a deferred handler call will receive. */
  datatype PendingCall =
    | LedgerInitCall
    | LedgerReadyCall
    | ContractCall(contractEvent: ContractEvent)
    | TransactionCall(transactionEvent: TransactionEvent)
    | MessageCall(message: Payload)

  type WorkItem = DeferralQueue.QueueAction<PendingCall, Owner>

  type WorkQueue = DeferralQueue.Queue<WorkItem>

  /** `repr` of the `asyncio.QueueFull` that an overflowing `put` re-raises. */
  const QueueFullRepr := "QueueFull()"

  /** A producer's `put` through the deferral queue: the queue afterwards
      and the exception that reached the producer, if any. */
  datatype Posted = Posted(queue: WorkQueue, failure: Option<Failure>)

  /** Put one deferred call; an overflow propagates as `QueueFull`. */
  function Post(q: WorkQueue, call: PendingCall, owner: Owner): (p: Posted)
    ensures p.queue == DeferralQueue.Put(q, DeferralQueue.QueueAction(call, owner)).queue
    ensures p.failure.None? <==> !q.Full()
    ensures p.failure.Some? ==> p.failure.value == Raise(QueueFullRepr)
  {
    match DeferralQueue.Put(q, DeferralQueue.QueueAction(call, owner))
    case Enqueued(q1) => Posted(q1, None)
    case Overflow(q1) => Posted(q1, Some(Raise(QueueFullRepr)))
  }
}
